=== FILE: README.md ===
# artery — a Dafny model of the telemetry core

artery is an IoT platform. Devices publish readings over MQTT on
`artery/device/{deviceId}/telemetry`. A worker ingests each reading into
PostgreSQL and broadcasts it to subscribed WebSocket clients. The dashboard
keeps the live values per `deviceId:datastreamId` and draws charts that
merge stored history with live points. Organizations, templates,
datastreams and devices are managed by services that check membership and
role before they touch the database.

This project models that core:

- `common.dfy` (module `Common`) holds the error codes, the `Result` and
  `Outcome` wrappers, the membership roles and the datastream data types.
- `codec.dfy` (module `Codec`) holds the JavaScript values of a payload. It
  models `formatValue`, which picks one typed column, and
  `formatTelemetryValue`, which reads that column back.
- `store.dfy` (module `Store`) holds the rows of the tables, the schema's
  unique constraints and `varchar(50)` pin, and the `ON DELETE CASCADE`
  chains of the foreign keys. `Database` is a class whose fields are the
  tables.
- `ingestion.dfy` (module `Ingestion`) models `ingestionService.ingest` and
  its transaction: the telemetry insert, the device-state upsert and the
  device update.
- `realtime_hub.dfy` (module `RealtimeHub`) models the server's
  `WebSocketService`. This covers connections, subscriptions per device, the
  broadcast fan-out that drops failing sockets, and the inbound message
  handler.
- `telemetry_query.dfy` (module `TelemetryQuery`) models
  `telemetryService`:
  - time windows and the choice between raw rows and aggregated buckets;
  - the access checks;
  - the newest-first limited row query;
  - `getLatest`.
- `mqtt_worker.dfy` (module `MqttWorker`) models the MQTT worker. This
  covers topic splitting and routing, telemetry handling (ingest, then
  broadcast) and the command publish.
- `dashboard_socket.dfy` (module `DashboardSocket`) models the dashboard's
  `useWebSocket` hook as a class. This covers connect, open, message, close
  with exponential back-off, error, disconnect, subscribe and unsubscribe.
- `chart.dfy` (module `Chart`) models the chart component. This covers the
  live buffer of the last 100 points, the merge of reversed history with
  newer live points, and the boolean axis label.
- `organization.dfy`, `datastream.dfy`, `template.dfy` and `device.dfy`
  model the CRUD services and their role gates.

Every method that changes state is proved equal to a pure function of the
old state. The properties are stated and proved about those functions.

Inputs that the code receives from the outside are parameters of the model:
- the clock (`now`, `reportedAt`);
- whether a socket's `send` throws;
- whether a transaction commits;
- whether WebSocket creation throws;
- the publish acknowledgement;
- the results of `validateDevice` and `validateDatastream`, which are not
  part of this model;
- the id of a new row (organization and member ids come from the schema's
  `createId` default; see "Left out" for the other tables).

Where the description of the system and the code differ, the model follows
the code. INT values are encoded with `Math.floor`, so -7.9 is stored as -8,
not truncated to -7.

## Model

| member | source | states |
|---|---|---|
| Common.ParseDataType | packages/db/src/schema/datastream.ts:14 | exactly the four enum names INT, DOUBLE, BOOL and STRING parse, and each parses back to its own tag |
| Codec.FormatValue | packages/api/src/services/ingestion.ts:92-106 | fails with a RangeError exactly for an INT whose number is not finite; INT stores the floor; DOUBLE stores the number; BOOL stores the truthiness; STRING and every unknown type store String(value) in the string column, and the unknown-type warning is raised exactly for a type outside the enum; the column kind matches the type |
| Codec.SetSlot | packages/api/src/services/ingestion.ts:57-64 | the upsert's `set` overwrites exactly the written column and keeps the others |
| Codec.Columns | packages/api/src/services/ingestion.ts:39-45 | a fresh insert has exactly the formatted column set |
| Ingestion.Trunc | packages/api/src/services/ingestion.ts:32 | the whole number of milliseconds a Date keeps: at most one below a non-negative time and at most one above a negative one, rounding toward zero |
| Codec.FormatTelemetryValue | packages/api/src/services/telemetry.ts:60-66 | null exactly when no column is set; otherwise the first set column in the order boolean, double, long, string |
| Codec.DecodeColumns | packages/api/src/services/telemetry.ts:60-66 | reading back a single set column yields that column's value |
| Codec.EncodeDecode | packages/api/src/services/ingestion.ts:92-106 | a successful encode reads back as the floor for INT, the number for DOUBLE, the truthiness for BOOL and the text for STRING |
| Codec.RoundTripExact | packages/api/src/services/ingestion.ts:96-101 | a DOUBLE number, a BOOL boolean and a STRING text read back unchanged |
| Codec.IntEncodingFloors | packages/api/src/services/ingestion.ts:94-95 | INT 7.9 is stored as 7 and -7.9 as -8; NaN is refused |
| Codec.SchemaTagsAreKnown | packages/api/src/services/ingestion.ts:102-104 | every tag the schema enum admits is one formatValue knows, so the default branch is reached only by unknown tags |
| Codec.OverwriteKeepsOneSlot | packages/api/src/services/ingestion.ts:57-64 | upserting a value of the same type over a state row leaves exactly that one column set |
| Store.KeepRows | packages/db/src/schema/telemetry.ts:19-24 | a telemetry row stays exactly when neither its device nor its datastream is deleted, as often as before |
| Store.KeepMembers | packages/db/src/schema/organization.ts:42-44 | a membership stays exactly when its organization is not deleted, with its role |
| Store.KeepStates | packages/db/src/schema/deviceState.ts:17-22 | a device_state row stays exactly when neither its device nor its datastream is deleted, unchanged |
| Store.Cascade | packages/db/src/schema/template.ts:10-12 | a delete with every cascade followed only removes rows: each table keeps a subset of its keys with the same rows, and telemetry keeps a sub-multiset |
| Store.CascadeRemovesParents | packages/db/src/schema/device.ts:23-28 | the deleted organizations go with their memberships; a template goes exactly when named or of a deleted organization; a datastream exactly when named or of a removed template; a device exactly when of a deleted organization or a removed template |
| Store.CascadeRemovesRows | packages/db/src/schema/telemetry.ts:19-24 | telemetry and device_state rows go exactly when their device or datastream was removed; telemetry keeps its order |
| Store.CascadeKeepsReferences | packages/db/src/schema/datastream.ts:21-23 | when every foreign key pointed at an existing row before, it still does after the cascade |
| Store.TelemetryStaysReferenced | packages/db/src/schema/telemetry.ts:19-24 | the telemetry rows a cascade keeps name kept devices and datastreams |
| Store.CascadeKeepsConstraints | packages/db/src/schema/datastream.ts:25-32 | a cascade keeps pins unique per template, within 50 characters, and slugs unique |
| Ingestion.Upsert | packages/api/src/services/ingestion.ts:47-64 | the written column holds the value and the times are the report time; a new row has only that column; an existing row keeps its other columns |
| Ingestion.Ingest | packages/api/src/services/ingestion.ts:15-89 | a device error is reported first, then a datastream error; success holds exactly when both checks and the encoding succeed, the record timestamp is a valid Date and the transaction commits; a timestamp that makes an Invalid Date fails with a RangeError; any failure leaves every table unchanged; success appends one telemetry row, adds the (device, datastream) state key, and returns the device id, the pin and the record timestamp |
| Ingestion.IngestInto | packages/api/src/services/ingestion.ts:37-74 | the transaction over the database yields exactly the tables of Ingest and touches no other table |
| Ingestion.WriteTransaction | packages/api/src/services/ingestion.ts:39-73 | the three writes, in order, turn the tables into those of the transaction (one appended telemetry row, the upserted state row, the device ONLINE) and touch no other table |
| Ingestion.TimestampRule | packages/api/src/services/ingestion.ts:31-35 | a truthy payload timestamp x gives x·1000 milliseconds cut toward zero, exactly k·1000 for whole seconds k; an absent timestamp, 0 and NaN give the ingestion time; the written row carries that timestamp and the ingestion time as reportedAt |
| Ingestion.IngestEffects | packages/api/src/services/ingestion.ts:37-73 | after success the new telemetry row holds the encoded column and the record time; the pair's state row holds the value; every other state row and device is unchanged; the device is ONLINE and last seen at the report time |
| Ingestion.TwiceGivesTwoRowsOneState | packages/api/src/services/ingestion.ts:39-64 | ingesting the same payload twice at the same time adds two identical telemetry rows but leaves the state table as one ingest did |
| Ingestion.SetSlotTwice | packages/api/src/services/ingestion.ts:57-64 | writing the same column at the same time twice gives the row of one write |
| RealtimeHub.Drop | packages/api/src/services/websocket.ts:46-51 | the list keeps exactly the connections that are not removed, and never grows |
| RealtimeHub.PruneKeepsWellFormed | packages/api/src/services/websocket.ts:46-51 | pruning a connection keeps every subscriber list duplicate-free and non-empty |
| RealtimeHub.RemoveConnectionOnly | packages/api/src/services/websocket.ts:42-56 | after removal the connection is gone from the connection set and from every device, emptied devices are deleted, other connections keep their subscriptions, and the hub invariant holds |
| RealtimeHub.AddConnectionOnly | packages/api/src/services/websocket.ts:31-37 | adding a connection registers it with no subscriptions and keeps the invariant |
| RealtimeHub.SubscribeKeepsInv | packages/api/src/services/websocket.ts:61-72 | subscribing keeps the hub invariant: subscriber lists stay duplicate-free and non-empty |
| RealtimeHub.SubscribeIdempotent | packages/api/src/services/websocket.ts:61-72 | subscribing twice leaves the same subscriptions and connections as once, and the connection appears once among the device's subscribers (a set) |
| RealtimeHub.KeyOf | packages/api/src/services/websocket.ts:61-71 | a device id is a string key exactly when it is a JSON string, and then the key holds that string, so a number and its text are different Map keys |
| RealtimeHub.NonStringSubscribeReachesNoDevice | packages/api/src/services/websocket.ts:61-71 | a subscribe with a non-string device id registers the connection under that value's key, yet no broadcast for any string device id reaches it |
| RealtimeHub.AckToSubscriberOnly | packages/api/src/services/websocket.ts:111-121 | the outbox gains "Subscribed to device: " plus the id's text, addressed to the subscriber alone, exactly when its socket is open and its send succeeds |
| RealtimeHub.DeliverEffect | packages/api/src/services/websocket.ts:97-105 | fan-out sends the message once to each non-failing subscriber in order, and collects exactly the failing ones |
| RealtimeHub.BroadcastWithoutSubscribers | packages/api/src/services/websocket.ts:78-81 | a device with no subscribers changes nothing |
| RealtimeHub.BroadcastFanout | packages/api/src/services/websocket.ts:77-106 | the outbox gains the telemetry message for every non-failing subscriber; failing ones are removed as connections; others are unaffected; the invariant holds |
| RealtimeHub.HandleMessageCases | packages/api/src/services/websocket.ts:126-142 | a subscribe whose device id is truthy, of any JSON type, subscribes; any other parsed message changes nothing; unparsable data earns one "Invalid message format" error to its own connection; earlier outbox entries are never altered |
| RealtimeHub.WebSocketService.constructor | packages/api/src/services/websocket.ts:24-29 | the hub starts with no connections, no subscriptions and an empty outbox |
| RealtimeHub.WebSocketService.AddConnection | packages/api/src/services/websocket.ts:31-37 | the new state is the connection added |
| RealtimeHub.WebSocketService.RemoveConnection | packages/api/src/services/websocket.ts:42-56 | the loop over the devices yields exactly the pruned state |
| RealtimeHub.WebSocketService.SendToConnection | packages/api/src/services/websocket.ts:111-121 | sends only to an open socket; a throwing send is swallowed |
| RealtimeHub.WebSocketService.SubscribeToDevice | packages/api/src/services/websocket.ts:61-72 | the new state is the subscription plus its acknowledgement |
| RealtimeHub.WebSocketService.BroadcastTelemetry | packages/api/src/services/websocket.ts:77-106 | the loop over the subscribers yields exactly the fan-out state |
| RealtimeHub.WebSocketService.HandleMessage | packages/api/src/services/websocket.ts:126-142 | the new state is the handler's dispatch |
| RealtimeHub.WebSocketService.GetStats | packages/api/src/services/websocket.ts:147-156 | the connection count, and the subscriber count of each subscribed device |
| TelemetryQuery.GetTimeRangeDate | packages/api/src/services/telemetry.ts:23-39 | the start lies strictly before now, by the range's length; an unknown range counts as 24 hours |
| TelemetryQuery.TimeRangeLengths | packages/api/src/services/telemetry.ts:23-39 | 1h, 6h, 24h, 7d and 30d are 1, 6, 24, 168 and 720 hours |
| TelemetryQuery.GetAggregationInterval | packages/api/src/services/telemetry.ts:42-57 | no interval exactly for 1h and custom; 1 minute, 5 minutes, 30 minutes and 2 hours otherwise |
| TelemetryQuery.RawPathExactly | packages/api/src/services/telemetry.ts:116-118 | raw rows are used exactly for the 1h and custom ranges |
| TelemetryQuery.QueryWindow | packages/api/src/services/telemetry.ts:101-102 | explicit start and end win; otherwise the range's start and now |
| TelemetryQuery.DefaultWindow | packages/api/src/services/telemetry.ts:101-102 | with no overrides the window ends now and has the range's length |
| TelemetryQuery.DeviceAccess | packages/api/src/services/telemetry.ts:78-98 | NOT_FOUND for a missing device, FORBIDDEN for another organization's device, else the device |
| TelemetryQuery.DatastreamAccess | packages/api/src/services/telemetry.ts:213-236 | NOT_FOUND for a missing datastream, FORBIDDEN when its template is in another organization |
| TelemetryQuery.NotFoundBeforeForbidden | packages/api/src/services/telemetry.ts:86-98 | a missing device is NOT_FOUND whatever organization asks |
| TelemetryQuery.DeviceConditions | packages/api/src/services/telemetry.ts:105-113 | a row matches exactly when the device, the window and, if given, the datastream match |
| TelemetryQuery.DatastreamConditions | packages/api/src/services/telemetry.ts:244-249 | a row matches exactly when the datastream and the window match |
| TelemetryQuery.Filter | packages/api/src/services/telemetry.ts:120-121 | keeps exactly the matching rows, none more often than before; one row is kept exactly when it matches |
| TelemetryQuery.FilterConcat | packages/api/src/services/telemetry.ts:120-121 | filtering a concatenation is the concatenation of the filtered parts, so row order and multiplicity are kept |
| TelemetryQuery.SortNewestFirst | packages/api/src/services/telemetry.ts:122 | the result is a permutation of the rows |
| TelemetryQuery.SortOrders | packages/api/src/services/telemetry.ts:122 | the sort puts the newest first |
| TelemetryQuery.ToPoints | packages/api/src/services/telemetry.ts:136-145 | one point per row, in order, with its decoded value and datastream fields |
| TelemetryQuery.RawRows | packages/api/src/services/telemetry.ts:120-134 | exactly min(limit, number of matching rows) rows, newest first, each a matching row and none more often than it matches, so all matching rows when there are no more than limit |
| TelemetryQuery.RawRowsKeepNewest | packages/api/src/services/telemetry.ts:120-123 | a matching row left out is no newer than every row returned |
| TelemetryQuery.AggregateValue | packages/api/src/services/telemetry.ts:187-192 | BOOL and STRING take the bucket's latest value, DOUBLE the average, INT the rounded average |
| TelemetryQuery.AggregateAgreesWithRaw | packages/api/src/services/telemetry.ts:187-192 | a bucket of one row shows that row's value |
| TelemetryQuery.ToAggPoints | packages/api/src/services/telemetry.ts:187-202 | one point per bucket, in order, with the value its type selects |
| TelemetryQuery.GetByDevice | packages/api/src/services/telemetry.ts:70-204 | the access error when there is one; raw points for exactly 1h and custom, which are the decoded RawRows of the telemetry under the device conditions: at most limit, newest first, of the device, in the window and of the datastream when one is given; otherwise one point per bucket of the bucket query |
| TelemetryQuery.GetByDatastream | packages/api/src/services/telemetry.ts:207-274 | access errors first; otherwise the decoded RawRows of the telemetry under the datastream conditions: at most limit, newest first, of the datastream, in the window, each carrying the datastream |
| TelemetryQuery.LatestRow | packages/api/src/services/telemetry.ts:310-326 | none exactly when no row of the pair exists, else a row of the pair no older than any other |
| TelemetryQuery.GetLatest | packages/api/src/services/telemetry.ts:277-344 | the access error when there is one; otherwise an entry exactly for each datastream of the device's template that has a row for the device, and that entry is the decoded LatestRow of the pair: a row of the device and datastream no older than any other |
| TelemetryQuery.LatestBounded | packages/api/src/services/telemetry.ts:303-343 | there are no more entries than the template has datastreams |
| MqttWorker.Split | apps/mqtt-worker/src/index.ts:119 | at least one part, no part holds the separator, and joining the parts gives back the topic |
| MqttWorker.SplitJoin | apps/mqtt-worker/src/index.ts:119 | splitting a join of separator-free parts gives back the parts |
| MqttWorker.ParseTopic | apps/mqtt-worker/src/index.ts:119-140 | a topic is accepted exactly when it splits into four parts starting artery/device; telemetry and status route, other types are ignored |
| MqttWorker.DeviceTopicIsJoin | apps/mqtt-worker/src/index.ts:214 | a device topic is the four parts joined by / |
| MqttWorker.TopicRoundTrip | apps/mqtt-worker/src/index.ts:119-132 | parsing a built device topic gives back its device id and message type |
| MqttWorker.AcceptedTopicShape | apps/mqtt-worker/src/index.ts:122-132 | every accepted topic is the device topic of the id and type it yields |
| MqttWorker.CommandTopicIgnored | apps/mqtt-worker/src/index.ts:134-140 | the worker's own command topic is read as an unknown type and ignored |
| MqttWorker.OnlyTelemetryChangesState | apps/mqtt-worker/src/index.ts:134-140 | status, unknown and invalid topics change neither the tables nor the hub |
| MqttWorker.BroadcastAfterIngest | apps/mqtt-worker/src/index.ts:149-186 | a telemetry message is broadcast exactly when ingestion succeeded, with the pin as datastream id; a failed ingest broadcasts nothing |
| MqttWorker.Worker.constructor | apps/mqtt-worker/src/index.ts:21-34 | the worker starts with no client and nothing published |
| MqttWorker.Worker.Start | apps/mqtt-worker/src/index.ts:39-53 | the client is set to the broker |
| MqttWorker.Worker.Stop | apps/mqtt-worker/src/index.ts:233-240 | the client is cleared |
| MqttWorker.Worker.PublishToDevice | apps/mqtt-worker/src/index.ts:209-228 | without a client it fails with "MQTT client not connected"; otherwise it publishes {pin, value} on the command topic when acknowledged, and fails when not |
| MqttWorker.Worker.HandleMessage | apps/mqtt-worker/src/index.ts:117-144 | the new tables and hub state are the handler's specification; the other tables are unchanged |
| DashboardSocket.BackoffDelay | apps/dashboard/src/hooks/use-websocket.ts:103 | the delay is between 1000 and 30000 ms |
| DashboardSocket.BackoffDoubles | apps/dashboard/src/hooks/use-websocket.ts:102-111 | each delay doubles the previous one up to the 30000 cap; below 5 attempts it is 1000·2^n ≤ 16000, so the cap is never reached |
| DashboardSocket.BackoffSchedule | apps/dashboard/src/hooks/use-websocket.ts:102-111 | the five reconnect delays are 1, 2, 4, 8 and 16 seconds |
| DashboardSocket.DropDevice | apps/dashboard/src/hooks/use-websocket.ts:168-176 | a key stays exactly when it was cached and does not start with the device id and ':', and it keeps its value |
| DashboardSocket.DropDeviceExactly | apps/dashboard/src/hooks/use-websocket.ts:170-174 | for ids without ':', the device's keys go and another device's keys stay |
| DashboardSocket.DropDeviceOverreach | apps/dashboard/src/hooks/use-websocket.ts:171 | dropping device "a" also drops the key of device "a:b" |
| DashboardSocket.Without | apps/dashboard/src/hooks/use-websocket.ts:165 | an element stays exactly when it was there and is not the deleted one, and never more elements than before |
| DashboardSocket.WithoutAbsent | apps/dashboard/src/hooks/use-websocket.ts:165 | deleting an absent device leaves the sequence as it was |
| DashboardSocket.SubscribeThenUnsubscribe | apps/dashboard/src/hooks/use-websocket.ts:149-165 | adding a new device and deleting it again gives back the old subscriptions in their order |
| DashboardSocket.SubscribeUnderstoodByHub | apps/dashboard/src/hooks/use-websocket.ts:152-157 | the hook's subscribe message, handled by the hub, subscribes the connection to the device |
| DashboardSocket.BroadcastKey | apps/dashboard/src/hooks/use-websocket.ts:67-84 | a hub telemetry broadcast is cached under deviceId:pin with its timestamp and value |
| DashboardSocket.RealtimeClient.constructor | apps/dashboard/src/hooks/use-websocket.ts:21-29 | disconnected, no socket, no subscriptions, no data, no error, zero attempts |
| DashboardSocket.RealtimeClient.Connect | apps/dashboard/src/hooks/use-websocket.ts:32-126 | nothing happens while open; otherwise a connecting socket, or the "Failed to establish WebSocket connection" error when creation throws |
| DashboardSocket.RealtimeClient.OnOpen | apps/dashboard/src/hooks/use-websocket.ts:45-60 | connected, error cleared, attempts reset, and one subscribe message sent per subscription in order |
| DashboardSocket.RealtimeClient.OnMessage | apps/dashboard/src/hooks/use-websocket.ts:62-94 | telemetry whose device and datastream ids are both truthy, of any JSON type, sets the key made of their texts; telemetry without them changes nothing; an "error" message sets the error; anything else, including unparsable data, changes nothing; the connection fields are unchanged |
| DashboardSocket.RealtimeClient.OnClose | apps/dashboard/src/hooks/use-websocket.ts:96-116 | disconnected; below 5 attempts a reconnect is scheduled after the back-off delay, else the "Connection lost" error is set |
| DashboardSocket.RealtimeClient.ReconnectFires | apps/dashboard/src/hooks/use-websocket.ts:108-111 | the attempt count goes up by one and connect runs: nothing more while the socket is open, otherwise a connecting socket with the error kept, or the old socket and the "Failed to establish WebSocket connection" error when creation throws; isConnected is unchanged |
| DashboardSocket.RealtimeClient.OnError | apps/dashboard/src/hooks/use-websocket.ts:118-121 | sets "WebSocket connection error" and nothing else |
| DashboardSocket.RealtimeClient.Disconnect | apps/dashboard/src/hooks/use-websocket.ts:128-141 | the pending reconnect is cancelled, the socket is closed, and the subscriptions are cleared; cached data is kept |
| DashboardSocket.RealtimeClient.SubscribeToDevice | apps/dashboard/src/hooks/use-websocket.ts:143-162 | ignored unless open; otherwise a new device is appended last and a known one leaves the order as it was, as Set.add does, and the subscribe message is sent, or the "Failed to subscribe" error is set when send throws |
| DashboardSocket.RealtimeClient.UnsubscribeFromDevice | apps/dashboard/src/hooks/use-websocket.ts:164-177 | the subscriptions become Without of the old ones, the rest in their order as Set.delete leaves them, and the cache becomes DropDevice of the old cache |
| Chart.Last | apps/dashboard/src/components/chart-device.tsx:87 | slice(-n): the last min(n, length) elements |
| Chart.Push | apps/dashboard/src/components/chart-device.tsx:84-88 | the new point is last, the buffer never exceeds 100, and the oldest point is dropped only when full |
| Chart.ReceivedIsNewestWindow | apps/dashboard/src/components/chart-device.tsx:79-90 | after any arrivals the buffer holds exactly the newest 100 of them |
| Chart.ChartDevice.constructor | apps/dashboard/src/components/chart-device.tsx:79-90 | a chart starts with an empty live buffer |
| Chart.ChartDevice.OnLatestData | apps/dashboard/src/components/chart-device.tsx:79-90 | the value under deviceId:datastreamId is pushed when present; otherwise the buffer is unchanged |
| Chart.RepeatedEntry | apps/dashboard/src/components/chart-device.tsx:79-90 | re-running the effect with the same cached entry pushes it twice |
| Chart.Samples | apps/dashboard/src/components/chart-device.tsx:94-97 | the chart reads the timestamp and value of each raw point or bucket |
| Chart.HistoryPoints | apps/dashboard/src/components/chart-device.tsx:94-114 | history reversed, marked not realtime |
| Chart.LivePoints | apps/dashboard/src/components/chart-device.tsx:116-129 | live points in order, marked realtime |
| Chart.After | apps/dashboard/src/components/chart-device.tsx:135-139 | keeps exactly the points newer than the time, never more points than given; one point is kept exactly when it is newer |
| Chart.AfterConcat | apps/dashboard/src/components/chart-device.tsx:135-139 | filtering a concatenation is the concatenation of the filtered parts, so the order of the points is kept |
| Chart.ChartData | apps/dashboard/src/components/chart-device.tsx:93-142 | the history, reversed, comes first, and after it exactly After of the live points at the newest history point's time, or all live points when there is no history |
| Chart.ChartLength | apps/dashboard/src/components/chart-device.tsx:84-141 | a chart built from any arrivals has at most the history plus 100 points |
| Chart.AfterAscending | apps/dashboard/src/components/chart-device.tsx:135-139 | filtering keeps time order |
| Chart.ChartInTimeOrder | apps/dashboard/src/components/chart-device.tsx:93-142 | newest-first history and time-ordered live points chart in ascending time |
| Chart.RawHistoryOldestFirst | apps/dashboard/src/components/chart-device.tsx:94-95 | raw query results, which are newest first, chart oldest first |
| Chart.BooleanAxisLabel | apps/dashboard/src/components/chart-device.tsx:148-151 | "ON" exactly for the number 1 or true, else "OFF" |
| Chart.StoredBooleanLabel | apps/dashboard/src/components/chart-device.tsx:148-151 | a stored BOOL reads ON exactly when its payload was truthy |
| Chart.LiveAndStoredLabelsDiffer | apps/dashboard/src/components/chart-device.tsx:148-151 | the payload string "true" shows ON once stored but OFF live |
| OrganizationService.AssertMemberRole | packages/api/src/services/organization.ts:17-45 | success with the member's role exactly when the user is a member whose role is listed; otherwise FORBIDDEN, with the not-a-member message or the no-permission message |
| OrganizationService.RolesWiden | packages/api/src/services/organization.ts:17-45 | passing a gate passes every gate with more roles, and any member passes the all-roles gate |
| OrganizationService.RoleGates | packages/api/src/services/organization.ts:103-134 | the owner-or-admin gate admits every role but MEMBER; the owner-only gate admits only OWNER |
| OrganizationService.ValidateInput | packages/api/src/services/organization.ts:6-11 | accepted exactly when name and slug have at least five characters |
| OrganizationService.GetAll | packages/api/src/services/organization.ts:48-63 | exactly the user's organizations, each with the user's role |
| OrganizationService.GetById | packages/api/src/services/organization.ts:64-80 | the organization for a member, FORBIDDEN otherwise |
| OrganizationService.GetByIdAgreesWithGetAll | packages/api/src/services/organization.ts:48-80 | getById succeeds exactly for organizations getAll lists |
| OrganizationService.Create | packages/api/src/services/organization.ts:81-102 | a unique-constraint error, changing nothing, exactly when the id, the slug or the creator's membership key is taken; else the organization with the user as owner plus an OWNER membership |
| OrganizationService.CreatorIsOwner | packages/api/src/services/organization.ts:81-102 | after create the creator passes the owner-only gate |
| OrganizationService.Update | packages/api/src/services/organization.ts:103-117 | owner or admin only; success exactly when the gate passes and the slug is not taken by another organization; no row yields nothing exactly when the gate passes and the id is missing; a taken slug is the unique-constraint error; the fields are replaced and optional ones are kept when absent; failures change nothing |
| OrganizationService.UpdateKeepsSlugsUnique | packages/api/src/services/organization.ts:103-117 | slugs stay unique |
| OrganizationService.Delete | packages/api/src/services/organization.ts:119-134 | owner only; "Failed to delete" when no row; else the row goes and its memberships cascade |
| OrganizationService.DeletedIsForbidden | packages/api/src/services/organization.ts:119-134 | after delete, every former member is FORBIDDEN from it |
| OrganizationService.CreateIn | packages/api/src/services/organization.ts:81-102 | the database becomes Create's tables; the other tables are unchanged |
| OrganizationService.UpdateIn | packages/api/src/services/organization.ts:103-117 | the database becomes Update's tables; the other tables are unchanged |
| OrganizationService.DeleteIn | packages/api/src/services/organization.ts:119-134 | the membership and organization tables become Delete's; on success the database is the cascade of the organization (its memberships, templates, devices, datastreams, telemetry and device state go); on failure nothing changes; no row is left referring to a deleted one |
| DatastreamService.TemplateAndMember | packages/api/src/services/datastream.ts:22-41 | "Template not found" before any role check; then the membership gate on the template's organization |
| DatastreamService.GetAll | packages/api/src/services/datastream.ts:44-49 | any member gets exactly the template's datastreams |
| DatastreamService.GetById | packages/api/src/services/datastream.ts:50-73 | "Datastream not found" first, then the membership gate on its template's organization |
| DatastreamService.ValidateInput | packages/api/src/services/datastream.ts:8-20 | accepted exactly when the data type is one of the enum names |
| DatastreamService.Create | packages/api/src/services/datastream.ts:74-78 | owner or admin only; success exactly when the gate passes, the pin fits varchar(50) and neither the id nor the template's pin is taken; a longer pin is the value-too-long error; else the row is added |
| DatastreamService.Apply | packages/api/src/services/datastream.ts:18-20 | an update never moves a datastream to another template |
| DatastreamService.Update | packages/api/src/services/datastream.ts:79-103 | not found first, then owner or admin; success exactly when the row exists, the gate passes, the new pin fits varchar(50) and is free in the template; a longer pin is the value-too-long error, a taken one the unique-constraint error; else the changed row |
| DatastreamService.Delete | packages/api/src/services/datastream.ts:104-123 | not found first, then owner or admin; else the row goes |
| DatastreamService.MemberReadsButDoesNotWrite | packages/api/src/services/datastream.ts:44-123 | a MEMBER reads datastreams but every write is FORBIDDEN and changes nothing |
| DatastreamService.NotFoundBeforeRole | packages/api/src/services/datastream.ts:50-123 | a missing datastream is NOT_FOUND for anyone |
| DatastreamService.WritesKeepPinsUnique | packages/db/src/schema/datastream.ts:32 | create, update and delete keep the template's pins unique and templates unchanged |
| DatastreamService.WritesKeepPinsFit | packages/db/src/schema/datastream.ts:25 | create, update and delete leave every pin within 50 characters |
| DatastreamService.CreateIn | packages/api/src/services/datastream.ts:74-78 | the datastream table becomes Create's; the invariant holds |
| DatastreamService.UpdateIn | packages/api/src/services/datastream.ts:79-103 | the datastream table becomes Update's; the invariant holds |
| DatastreamService.DeleteIn | packages/api/src/services/datastream.ts:104-123 | the datastream table becomes Delete's; on success the database is the cascade of the datastream (its telemetry and device state go); on failure nothing changes; the constraints hold and no row refers to a deleted one |
| TemplateService.ValidateCreate | packages/api/src/services/template.ts:6-12 | accepted exactly for a name of at least 5 characters and a non-empty platform and connection type |
| TemplateService.ValidateUpdate | packages/api/src/services/template.ts:13-15 | the create rules and an id of at least 12 characters |
| TemplateService.GetAll | packages/api/src/services/template.ts:18-33 | exactly the organization's templates |
| TemplateService.GetById | packages/api/src/services/template.ts:34-50 | the template of the organization, else NOT_FOUND |
| TemplateService.GetByIdAgreesWithGetAll | packages/api/src/services/template.ts:18-50 | getById succeeds exactly for templates getAll lists |
| TemplateService.Create | packages/api/src/services/template.ts:51-72 | the row stamped with the user as creator and updater; a taken id is a unique-constraint error |
| TemplateService.Apply | packages/api/src/services/template.ts:90-97 | the input's fields with the user as updater; the organization and creator are kept |
| TemplateService.Update | packages/api/src/services/template.ts:73-100 | NOT_FOUND outside the organization, else the row is replaced |
| TemplateService.Delete | packages/api/src/services/template.ts:101-128 | NOT_FOUND outside the organization, else the row goes |
| TemplateService.OtherOrganizationsUntouched | packages/api/src/services/template.ts:73-128 | update and delete leave every other organization's templates as they were |
| TemplateService.UpdateThenRead | packages/api/src/services/template.ts:73-100 | reading after update shows the new fields, the updater and the original creator |
| TemplateService.CreateIn | packages/api/src/services/template.ts:51-72 | the template table becomes Create's; the other tables are unchanged |
| TemplateService.UpdateIn | packages/api/src/services/template.ts:73-100 | the template table becomes Update's; the other tables are unchanged |
| TemplateService.DeleteIn | packages/api/src/services/template.ts:101-128 | the template table becomes Delete's; on success the database is the cascade of the template (its datastreams, devices, telemetry and device state go); on failure nothing changes; no row refers to a deleted one |
| DeviceService.GetAll | packages/api/src/services/device.ts:7-13 | FORBIDDEN for non-members, else exactly the organization's devices |
| DeviceService.GetById | packages/api/src/services/device.ts:14-29 | FORBIDDEN for non-members whether or not the device exists; NOT_FOUND outside the organization |
| DeviceService.GetByIdAgreesWithGetAll | packages/api/src/services/device.ts:7-29 | for a member, getById succeeds exactly for listed devices |

## Left out

- Logging (`console.*`), JSON parsing and serialisation, and ISO and locale date strings (`toISOString`, `toLocaleTimeString`). Timestamps are integer milliseconds, and date comparisons in the chart are integer comparisons. The only effect of the date conversion that is modelled is the RangeError an Invalid Date raises when the insert converts it.
- `Ingestion.Ingest`: the two `new Date()` reads (the fallback record time and `reportedAt`) are one clock value `now`; the model does not let them differ by the time between the two calls.
- The SQL of the aggregated query (`date_trunc`, `avg`, `array_agg`). Buckets are an input to `TelemetryQuery.GetByDevice`. Only the per-type choice of value is modelled.
- The order among rows with equal timestamps after `orderBy desc`. The database does not fix it, so the model's `SortNewestFirst` picks one order.
- New row ids. Organization and member ids come from the schema's `createId` default. The `id` columns of template, datastream and telemetry have no default, and the inserts in the services name no id, so as written the database would refuse those inserts for a null primary key. For template and datastream the model takes the new id as a parameter instead, and a taken one is a unique-constraint error.
- Telemetry row ids. `Store.TelemetryRow` has no id, and `Ingestion.Ingest` takes none; a committed ingest assumes that the telemetry insert is accepted, although as written it names no id for a column without a default.
- Deletes of users and of devices. No modelled service deletes them, so the `ON DELETE CASCADE` chains are followed only from a deleted organization, template or datastream.
- The INTERNAL_SERVER_ERROR branches for an insert that returns no row (organization create, template create) and the unreachable template delete failure. An insert in the model either succeeds or fails with a constraint error.
- `validateDevice` and `validateDatastream` are not part of this model. Their outcomes are parameters of `Ingestion.Ingest`.
- The MQTT connection and its event handlers (connect, reconnect, subscribe, the `message` dispatch plumbing). Only `start`, `stop`, `handleMessage` and `publishToDevice` are modelled.
- The MQTT publish callback. It is a boolean `acknowledged` parameter.
- `handleStatus` only logs (its database update is a TODO), so it changes no state.
- The outer `catch` of `handleTelemetry`. The model's ingest returns its error as a value.
- The `catch` around the broadcast in `handleTelemetry`. The modelled broadcast cannot throw because per-socket failures are absorbed inside it.
- The concurrency of `Promise.all` in `getLatest`. The model computes the per-datastream lookups one after another.
- `DashboardSocket.RealtimeClient.OnOpen`: a `send` that throws in the middle of the resubscribe loop is not modelled. Every resubscribe message is sent.
- `DashboardSocket.RealtimeClient.Disconnect`: closing the socket later fires `onclose` in the browser, which schedules a reconnect. The model leaves that to a separate `OnClose` call.
- The React render cycle and the order of effects. `Chart.ChartDevice.OnLatestData` is one run of the effect.
- `Chart.BooleanAxisLabel` covers the boolean chart only. The numeric label formats (`Math.round`, `toFixed(2)`) are floating-point text formatting and are left out.
- Router input schemas other than those the services parse, authentication and session handling, and the template role gates, which are enforced before the service is called.
- Floating-point arithmetic. Numbers are rationals with explicit NaN and infinity, and the DOUBLE average is exact.
- Input lengths. zod's `min(n)` counts UTF-16 code units while the model counts characters of a string; they differ only for characters outside the Basic Multilingual Plane.
- `RealtimeHub.WebSocketService.GetStats`: the counts are keyed by the Map's keys. `Object.fromEntries` turns each key into text, so a number key and the equal string key would merge into one entry; that merge is not modelled.
- A payload `pin` that is not a string. The server's payload pin is modelled as text, and the hub broadcasts it as the datastream id.
- Payload fields outside the declared `TelemetryPayload` type. A `value` that is a JSON `null` or an object is not modelled: the value is a number, a string or a boolean. A `timestamp` that is not a number, such as a string that `timestamp * 1000` coerces to a number, is not modelled: the timestamp is a number or absent.

=== FILE: chart.dfy ===
/** The device chart: a bounded buffer of the realtime values received for
    one device datastream, merged behind the historical series fetched from
    the telemetry query; and the ON/OFF label of a boolean chart. */
module Chart {
  import opened Common
  import opened Codec
  import TelemetryQuery
  import DashboardSocket
  import Store

  /** How many realtime points the buffer keeps. */
  const RealtimeWindow: nat := 100

  /** The last `n` elements of `s` (all of them when there are fewer). */
  function Last<T>(s: seq<T>, n: nat): (r: seq<T>)
    ensures |r| == if |s| <= n then |s| else n
    ensures forall i :: 0 <= i < |r| ==> r[i] == s[|s| - |r| + i]
  {
    if |s| <= n then s else s[|s| - n..]
  }

  /** The buffer after one new realtime value: appended at the end, and only
      the newest hundred kept, in arrival order. */
  function Push(buffer: seq<DashboardSocket.LiveValue>, p: DashboardSocket.LiveValue): (r: seq<DashboardSocket.LiveValue>)
    ensures 1 <= |r| <= RealtimeWindow && r[|r| - 1] == p
    ensures |buffer| < RealtimeWindow ==> r == buffer + [p]
    ensures |buffer| >= RealtimeWindow ==> r == buffer[|buffer| - RealtimeWindow + 1..] + [p]
  {
    Last(buffer + [p], RealtimeWindow)
  }

  /** The buffer after a stream of arrivals, starting empty. */
  function Received(arrivals: seq<DashboardSocket.LiveValue>): seq<DashboardSocket.LiveValue>
  {
    if arrivals == [] then []
    else Push(Received(arrivals[..|arrivals| - 1]), arrivals[|arrivals| - 1])
  }

  lemma LastOfSnoc<T>(s: seq<T>, p: T, n: nat)
    requires n >= 1
    ensures Last(Last(s, n) + [p], n) == Last(s + [p], n)
  {
  }

  /** Whatever arrives, the buffer is the newest hundred arrivals in the order
      they arrived. */
  lemma {:induction false} ReceivedIsNewestWindow(arrivals: seq<DashboardSocket.LiveValue>)
    ensures Received(arrivals) == Last(arrivals, RealtimeWindow)
  {
    if arrivals != [] {
      var init := arrivals[..|arrivals| - 1];
      var p := arrivals[|arrivals| - 1];
      ReceivedIsNewestWindow(init);
      assert Received(arrivals) == Push(Last(init, RealtimeWindow), p) by {
        assert arrivals[..|arrivals| - 1] == init;
      }
      assert Push(Last(init, RealtimeWindow), p) == Last(arrivals, RealtimeWindow) by {
        LastOfSnoc(init, p, RealtimeWindow);
        SnocSplit(arrivals);
      }
    }
  }

  /** The chart of one device datastream: the realtime buffer, updated each
      time the socket's latest-value map changes. */
  class ChartDevice {
    const deviceId: string
    const datastreamId: string
    var realtimeData: seq<DashboardSocket.LiveValue>

    constructor (deviceId: string, datastreamId: string)
      ensures this.deviceId == deviceId && this.datastreamId == datastreamId && realtimeData == []
    {
      this.deviceId := deviceId;
      this.datastreamId := datastreamId;
      realtimeData := [];
    }

    /** The effect on a new latest-value map: the entry at this chart's key,
        when there is one, is pushed onto the buffer. */
    method OnLatestData(latest: map<string, DashboardSocket.LiveValue>)
      modifies this
      ensures DashboardSocket.Key(deviceId, datastreamId) in latest ==>
                realtimeData == Push(old(realtimeData), latest[DashboardSocket.Key(deviceId, datastreamId)])
      ensures DashboardSocket.Key(deviceId, datastreamId) !in latest ==> realtimeData == old(realtimeData)
    {
      var key := deviceId + ":" + datastreamId;
      if key in latest {
        var next := realtimeData + [latest[key]];
        if |next| > RealtimeWindow {
          next := next[|next| - RealtimeWindow..];
        }
        realtimeData := next;
      }
    }
  }

  /** The effect runs on every change of the map, also one for another
      datastream, so the entry at this chart's key is pushed again: two runs
      over maps holding the same entry leave it twice at the end. */
  lemma RepeatedEntry(buffer: seq<DashboardSocket.LiveValue>, p: DashboardSocket.LiveValue)
    ensures var r := Push(Push(buffer, p), p); |r| >= 2 && r[|r| - 2] == p && r[|r| - 1] == p
  {
  }

  // ---- merging history and realtime ----

  /** A historical record: the query's timestamp and decoded value. */
  datatype Sample = Sample(timestamp: int, value: Display)

  datatype ChartPoint = ChartPoint(timestamp: int, value: Display, isRealtime: bool)

  /** The samples of a query result, raw points or buckets, in the order the
      query returns them. */
  function Samples(s: TelemetryQuery.Series): (r: seq<Sample>)
    ensures s.Raw? ==> |r| == |s.points| && forall i :: 0 <= i < |r| ==> r[i] == Sample(s.points[i].timestamp, s.points[i].value)
    ensures s.Aggregated? ==> |r| == |s.buckets| && forall i :: 0 <= i < |r| ==> r[i] == Sample(s.buckets[i].timestamp, s.buckets[i].value)
  {
    match s
    case Raw(points) => seq(|points|, i requires 0 <= i < |points| => Sample(points[i].timestamp, points[i].value))
    case Aggregated(buckets) => seq(|buckets|, i requires 0 <= i < |buckets| => Sample(buckets[i].timestamp, buckets[i].value))
  }

  /** A realtime value as the chart plots it: the value as it was reported. */
  function LiveDisplay(v: JsValue): Display
  {
    match v
    case JsNumber(n, _) => DNumber(n)
    case JsBool(b) => DBool(b)
    case JsString(s, _) => DString(s)
  }

  /** The historical points, oldest first. */
  function HistoryPoints(data: seq<Sample>): (r: seq<ChartPoint>)
    ensures |r| == |data|
    ensures forall i :: 0 <= i < |r| ==> r[i] == ChartPoint(data[|data| - 1 - i].timestamp, data[|data| - 1 - i].value, false)
  {
    seq(|data|, i requires 0 <= i < |data| => ChartPoint(data[|data| - 1 - i].timestamp, data[|data| - 1 - i].value, false))
  }

  function LivePoints(realtime: seq<DashboardSocket.LiveValue>): (r: seq<ChartPoint>)
    ensures |r| == |realtime|
    ensures forall i :: 0 <= i < |r| ==> r[i] == ChartPoint(realtime[i].timestamp, LiveDisplay(realtime[i].value), true)
  {
    seq(|realtime|, i requires 0 <= i < |realtime| => ChartPoint(realtime[i].timestamp, LiveDisplay(realtime[i].value), true))
  }

  /** The points strictly later than `t`, in their order. */
  function After(points: seq<ChartPoint>, t: int): (r: seq<ChartPoint>)
    ensures |r| <= |points|
    ensures forall p :: p in r <==> p in points && p.timestamp > t
    ensures |points| == 1 ==> r == (if points[0].timestamp > t then points else [])
  {
    if points == [] then []
    else
      assert points == [points[0]] + points[1..];
      (if points[0].timestamp > t then [points[0]] else []) + After(points[1..], t)
  }

  /** The filter works point by point: it keeps the order and every kept
      point once, so together with the one-point case it says exactly which
      sequence comes out. */
  lemma {:induction false} AfterConcat(a: seq<ChartPoint>, b: seq<ChartPoint>, t: int)
    ensures After(a + b, t) == After(a, t) + After(b, t)
  {
    if a == [] {
      assert a + b == b;
    } else {
      assert (a + b)[0] == a[0];
      assert (a + b)[1..] == a[1..] + b;
      AfterConcat(a[1..], b, t);
      var head := if a[0].timestamp > t then [a[0]] else [];
      assert After(a + b, t) == head + (After(a[1..], t) + After(b, t));
      assert head + (After(a[1..], t) + After(b, t)) == (head + After(a[1..], t)) + After(b, t);
    }
  }

  /** chartData: the historical points oldest first, then the realtime points
      later than the newest historical one (all of them without history).
      `data` is None while the query has not answered. */
  function ChartData(data: Option<seq<Sample>>, realtime: seq<DashboardSocket.LiveValue>): (r: seq<ChartPoint>)
    ensures var history := if data.Some? then data.value else [];
      && |history| <= |r| <= |history| + |realtime|
      && r[..|history|] == HistoryPoints(history)
      && (forall p :: p in r[|history|..] <==>
            p in LivePoints(realtime) && (history != [] ==> p.timestamp > history[0].timestamp))
      && r[|history|..] == (if history == [] then LivePoints(realtime) else After(LivePoints(realtime), history[0].timestamp))
  {
    var history := if data.Some? then data.value else [];
    var past := HistoryPoints(history);
    var live := LivePoints(realtime);
    var kept := if past != [] then After(live, past[|past| - 1].timestamp) else live;
    assert (past + kept)[..|past|] == past;
    assert (past + kept)[|past|..] == kept;
    past + kept
  }

  /** With the realtime buffer bounded, the chart has at most a hundred
      points more than the history. */
  lemma ChartLength(data: seq<Sample>, arrivals: seq<DashboardSocket.LiveValue>)
    ensures |ChartData(Some(data), Received(arrivals))| <= |data| + RealtimeWindow
  {
    ReceivedIsNewestWindow(arrivals);
  }

  ghost predicate Ascending(points: seq<ChartPoint>)
  {
    forall i, j :: 0 <= i < j < |points| ==> points[i].timestamp <= points[j].timestamp
  }

  lemma {:induction false} AfterAscending(points: seq<ChartPoint>, t: int)
    requires Ascending(points)
    ensures Ascending(After(points, t))
  {
    if points != [] {
      AfterAscending(points[1..], t);
      var rest := After(points[1..], t);
      forall j | 0 <= j < |rest|
        ensures points[0].timestamp <= rest[j].timestamp
      {
        assert rest[j] in points[1..];
      }
    }
  }

  /** A newest-first query result and realtime values that arrived in time
      order give a chart in time order: the history is reversed, and every
      realtime point kept is later than all of it. */
  lemma ChartInTimeOrder(data: seq<Sample>, realtime: seq<DashboardSocket.LiveValue>)
    requires forall i, j :: 0 <= i < j < |data| ==> data[i].timestamp >= data[j].timestamp
    requires forall i, j :: 0 <= i < j < |realtime| ==> realtime[i].timestamp <= realtime[j].timestamp
    ensures Ascending(ChartData(Some(data), realtime))
  {
    var r := ChartData(Some(data), realtime);
    var past := HistoryPoints(data);
    var kept := r[|data|..];
    assert r == past + kept;
    assert Ascending(past) by {
      forall i, j | 0 <= i < j < |past| ensures past[i].timestamp <= past[j].timestamp {
        assert past[i].timestamp == data[|data| - 1 - i].timestamp;
      }
    }
    KeptAscending(data, realtime);
    forall i, j | 0 <= i < |past| <= j < |r|
      ensures r[i].timestamp <= r[j].timestamp
    {
      assert r[j] in kept;
      assert data[|data| - 1 - i].timestamp <= data[0].timestamp;
    }
    ConcatAscending(past, kept);
  }

  lemma KeptAscending(data: seq<Sample>, realtime: seq<DashboardSocket.LiveValue>)
    requires forall i, j :: 0 <= i < j < |realtime| ==> realtime[i].timestamp <= realtime[j].timestamp
    ensures Ascending(ChartData(Some(data), realtime)[|data|..])
  {
    var live := LivePoints(realtime);
    var past := HistoryPoints(data);
    var kept := if past != [] then After(live, past[|past| - 1].timestamp) else live;
    assert ChartData(Some(data), realtime)[|data|..] == kept by {
      assert ChartData(Some(data), realtime) == past + kept;
      assert (past + kept)[|past|..] == kept;
    }
    if past != [] {
      AfterAscending(live, past[|past| - 1].timestamp);
    } else {
      assert Ascending(live);
    }
  }

  lemma ConcatAscending(a: seq<ChartPoint>, b: seq<ChartPoint>)
    requires Ascending(a) && Ascending(b)
    requires forall i, j :: 0 <= i < |a| && 0 <= j < |b| ==> a[i].timestamp <= b[j].timestamp
    ensures Ascending(a + b)
  {
    forall i, j | 0 <= i < j < |a + b| ensures (a + b)[i].timestamp <= (a + b)[j].timestamp {
      if j < |a| {
      } else if i >= |a| {
        assert (a + b)[i] == b[i - |a|];
      } else {
        assert (a + b)[j] == b[j - |a|];
      }
    }
  }

  /** The raw series of the telemetry query comes newest first, so its chart
      history runs oldest first. */
  lemma RawHistoryOldestFirst(rows: seq<Store.TelemetryRow>, datastreams: map<string, Store.Datastream>)
    requires TelemetryQuery.NewestFirst(rows)
    ensures Ascending(HistoryPoints(Samples(TelemetryQuery.Raw(TelemetryQuery.ToPoints(datastreams, rows)))))
  {
  }

  // ---- the boolean axis ----

  /** The Y-axis label of a boolean chart: ON exactly for the number 1 and
      for true. */
  function BooleanAxisLabel(v: Display): (text: string)
    ensures text == "ON" <==> v == DNumber(Finite(1.0)) || v == DBool(true)
    ensures text == "ON" || text == "OFF"
  {
    match v
    case DNumber(Finite(x)) => if x == 1.0 then "ON" else "OFF"
    case DBool(b) => if b then "ON" else "OFF"
    case _ => "OFF"
  }

  /** A stored BOOL value reads ON exactly when the reported value was truthy. */
  lemma StoredBooleanLabel(v: JsValue)
    ensures BooleanAxisLabel(FormatTelemetryValue(Columns(FormatValue(v, "BOOL").value.slot)))
              == if ToBoolean(v) then "ON" else "OFF"
  {
    EncodeDecode(v, "BOOL");
  }

  /** The realtime point is plotted as reported, so a device that reports the
      string "true" reads ON from history but OFF live. */
  lemma LiveAndStoredLabelsDiffer(n: Num)
    ensures BooleanAxisLabel(FormatTelemetryValue(Columns(FormatValue(JsString("true", n), "BOOL").value.slot))) == "ON"
    ensures BooleanAxisLabel(LiveDisplay(JsString("true", n))) == "OFF"
  {
    StoredBooleanLabel(JsString("true", n));
  }
}

=== FILE: codec.dfy ===
/** The value codec: a reported value and a datastream's data type tag are
    encoded into exactly one of the four typed value columns of the telemetry
    and device_state tables (ingestionService.formatValue), and a stored row is
    decoded back into a display value (formatTelemetryValue). */
module Codec {
  import opened Common

  /** A JavaScript number. */
  datatype Num = Finite(r: real) | NaN | Infinity(negative: bool)

  /** A value a device reports: a number, a boolean or a string. The two
      conversions of the JavaScript runtime that this model does not compute
      travel with the value: `text` is String(n) of a number, and `asNumber`
      is Number(s) of a string. */
  datatype JsValue =
    | JsNumber(n: Num, text: string)
    | JsBool(b: bool)
    | JsString(s: string, asNumber: Num)

  /** Number(value). */
  function ToNumber(v: JsValue): Num
  {
    match v
    case JsNumber(n, _) => n
    case JsBool(b) => Finite(if b then 1.0 else 0.0)
    case JsString(_, n) => n
  }

  /** Boolean(value): 0, NaN and the empty string are false; every other
      number and every other string (including "false" and "0") is true. */
  function ToBoolean(v: JsValue): bool
  {
    match v
    case JsNumber(n, _) =>
      (match n
       case Finite(x) => x != 0.0
       case NaN => false
       case Infinity(_) => true)
    case JsBool(b) => b
    case JsString(s, _) => s != ""
  }

  /** String(value). */
  function ToText(v: JsValue): string
  {
    match v
    case JsNumber(_, t) => t
    case JsBool(b) => if b then "true" else "false"
    case JsString(s, _) => s
  }

  /** A field of a message after JSON.parse: a string, a number, a boolean,
      null, or an object or array. An object or array is a new value at every
      parse, so it carries the identity `ref` of that value, and its String()
      text; a number carries its String() text. */
  datatype Json =
    | JText(s: string)
    | JNum(n: Num, text: string)
    | JBool(b: bool)
    | JNull
    | JObject(ref: nat, text: string)

  /** The truthiness of a field, None being undefined: the empty string, 0,
      NaN, false, null and undefined are falsy, everything else is truthy. */
  predicate Truthy(v: Option<Json>)
  {
    match v
    case None => false
    case Some(JText(s)) => s != ""
    case Some(JNum(n, _)) => n != Finite(0.0) && n != NaN
    case Some(JBool(b)) => b
    case Some(JNull) => false
    case Some(JObject(_, _)) => true
  }

  /** String(v), which is what a template literal inserts. */
  function TextOf(v: Json): string
  {
    match v
    case JText(s) => s
    case JNum(_, t) => t
    case JBool(b) => if b then "true" else "false"
    case JNull => "null"
    case JObject(_, t) => t
  }

  /** The one typed slot a value is stored in. */
  datatype Slot = VLong(long: int) | VDouble(double: Num) | VBool(boolean: bool) | VString(str: string)

  datatype SlotKind = LongSlot | DoubleSlot | BoolSlot | StringSlot

  function KindOf(s: Slot): SlotKind
  {
    match s
    case VLong(_) => LongSlot
    case VDouble(_) => DoubleSlot
    case VBool(_) => BoolSlot
    case VString(_) => StringSlot
  }

  /** The slot a data type tag selects; an unknown tag selects the string slot. */
  function ExpectedKind(dataType: string): SlotKind
  {
    if dataType == "INT" then LongSlot
    else if dataType == "DOUBLE" then DoubleSlot
    else if dataType == "BOOL" then BoolSlot
    else StringSlot
  }

  /** The encoded value, and whether the tag was unknown (the warning). */
  datatype Encoded = Encoded(slot: Slot, unknownType: bool)

  /** formatValue: INT takes the floor of Number(value) (BigInt of a
      non-finite number throws), DOUBLE stores Number(value), BOOL stores
      Boolean(value), STRING and any unknown tag store String(value). */
  function FormatValue(value: JsValue, dataType: string): (r: Result<Encoded>)
    ensures r.Failure? <==> dataType == "INT" && !ToNumber(value).Finite?
    ensures r.Failure? ==> r.error.code == RangeError
    ensures r.Success? ==> KindOf(r.value.slot) == ExpectedKind(dataType)
    ensures r.Success? ==> (r.value.unknownType <==> ParseDataType(dataType).None?)
    ensures r.Success? && dataType == "INT" ==>
              r.value.slot.long as real <= ToNumber(value).r < r.value.slot.long as real + 1.0
    ensures r.Success? && dataType == "DOUBLE" ==> r.value.slot.double == ToNumber(value)
    ensures r.Success? && dataType == "BOOL" ==> r.value.slot.boolean == ToBoolean(value)
    ensures r.Success? && ExpectedKind(dataType) == StringSlot ==> r.value.slot.str == ToText(value)
  {
    if dataType == "INT" then
      match ToNumber(value)
      case Finite(x) => Success(Encoded(VLong(x.Floor), false))
      case _ => Failure(ApiError(RangeError, "cannot convert a non-finite number to BigInt"))
    else if dataType == "DOUBLE" then Success(Encoded(VDouble(ToNumber(value)), false))
    else if dataType == "BOOL" then Success(Encoded(VBool(ToBoolean(value)), false))
    else if dataType == "STRING" then Success(Encoded(VString(ToText(value)), false))
    else Success(Encoded(VString(ToText(value)), true))
  }

  /** The four nullable value columns of a telemetry or device_state row. */
  datatype ValueColumns = ValueColumns(
    valueLong: Option<int>,
    valueDouble: Option<Num>,
    valueBoolean: Option<bool>,
    valueString: Option<string>)

  const NoValues := ValueColumns(None, None, None, None)

  /** The slot held in the column of kind `k`, if that column is not null. */
  function SlotIn(c: ValueColumns, k: SlotKind): Option<Slot>
  {
    match k
    case LongSlot => if c.valueLong.Some? then Some(VLong(c.valueLong.value)) else None
    case DoubleSlot => if c.valueDouble.Some? then Some(VDouble(c.valueDouble.value)) else None
    case BoolSlot => if c.valueBoolean.Some? then Some(VBool(c.valueBoolean.value)) else None
    case StringSlot => if c.valueString.Some? then Some(VString(c.valueString.value)) else None
  }

  /** The kinds whose column is not null. */
  function Populated(c: ValueColumns): set<SlotKind>
  {
    set k: SlotKind | SlotIn(c, k).Some?
  }

  /** Writes one slot over a row's columns, leaving the other three as they
      were (the spread `...formattedValue` in an insert or an update). */
  function SetSlot(c: ValueColumns, s: Slot): (r: ValueColumns)
    ensures SlotIn(r, KindOf(s)) == Some(s)
    ensures forall k :: k != KindOf(s) ==> SlotIn(r, k) == SlotIn(c, k)
  {
    match s
    case VLong(i) => c.(valueLong := Some(i))
    case VDouble(d) => c.(valueDouble := Some(d))
    case VBool(b) => c.(valueBoolean := Some(b))
    case VString(t) => c.(valueString := Some(t))
  }

  /** The columns of a freshly inserted row: exactly the slot's column is set. */
  function Columns(s: Slot): (c: ValueColumns)
    ensures forall k :: SlotIn(c, k) == if k == KindOf(s) then Some(s) else None
    ensures Populated(c) == {KindOf(s)}
  {
    SetSlot(NoValues, s)
  }

  /** A value as the read side returns it. */
  datatype Display = DBool(b: bool) | DNumber(n: Num) | DString(s: string) | DNull

  /** The display value of one slot; a long becomes a JavaScript number. */
  function DisplayOf(s: Slot): Display
  {
    match s
    case VLong(i) => DNumber(Finite(i as real))
    case VDouble(d) => DNumber(d)
    case VBool(b) => DBool(b)
    case VString(t) => DString(t)
  }

  /** The order in which formatTelemetryValue looks at the columns. */
  const DecodePriority: seq<SlotKind> := [BoolSlot, DoubleSlot, LongSlot, StringSlot]

  /** The first non-null column, looking at the kinds in the given order. */
  function FirstPopulated(c: ValueColumns, order: seq<SlotKind>): Option<Slot>
  {
    if order == [] then None
    else if SlotIn(c, order[0]).Some? then SlotIn(c, order[0])
    else FirstPopulated(c, order[1..])
  }

  /** formatTelemetryValue: the first non-null column in the order boolean,
      double, long, string; null when all four are null. */
  function FormatTelemetryValue(c: ValueColumns): (r: Display)
    ensures r == DNull <==> Populated(c) == {}
    ensures r == match FirstPopulated(c, DecodePriority)
                 case None => DNull
                 case Some(s) => DisplayOf(s)
  {
    assert SlotIn(c, BoolSlot).Some? ==> BoolSlot in Populated(c);
    assert SlotIn(c, DoubleSlot).Some? ==> DoubleSlot in Populated(c);
    assert SlotIn(c, LongSlot).Some? ==> LongSlot in Populated(c);
    assert SlotIn(c, StringSlot).Some? ==> StringSlot in Populated(c);
    assert DecodePriority[1..] == [DoubleSlot, LongSlot, StringSlot];
    assert DecodePriority[1..][1..] == [LongSlot, StringSlot];
    assert DecodePriority[1..][1..][1..] == [StringSlot];
    assert FirstPopulated(c, [StringSlot]) == SlotIn(c, StringSlot);
    assert FirstPopulated(c, [LongSlot, StringSlot])
        == if SlotIn(c, LongSlot).Some? then SlotIn(c, LongSlot) else SlotIn(c, StringSlot);
    if c.valueBoolean.Some? then DBool(c.valueBoolean.value)
    else if c.valueDouble.Some? then DNumber(c.valueDouble.value)
    else if c.valueLong.Some? then DNumber(Finite(c.valueLong.value as real))
    else if c.valueString.Some? then DString(c.valueString.value)
    else DNull
  }

  /** Decoding a freshly written row gives back the slot's own value. */
  lemma DecodeColumns(s: Slot)
    ensures FormatTelemetryValue(Columns(s)) == DisplayOf(s)
  {
  }

  /** Encoding then decoding: DOUBLE, BOOL and STRING values come back as
      Number(v), Boolean(v) and String(v); an INT comes back as the floor of
      Number(v); an unknown tag comes back as String(v). */
  lemma EncodeDecode(v: JsValue, dataType: string)
    requires FormatValue(v, dataType).Success?
    ensures var d := FormatTelemetryValue(Columns(FormatValue(v, dataType).value.slot));
      && (dataType == "INT" ==> d == DNumber(Finite(ToNumber(v).r.Floor as real)))
      && (dataType == "DOUBLE" ==> d == DNumber(ToNumber(v)))
      && (dataType == "BOOL" ==> d == DBool(ToBoolean(v)))
      && (ExpectedKind(dataType) == StringSlot ==> d == DString(ToText(v)))
  {
    DecodeColumns(FormatValue(v, dataType).value.slot);
  }

  /** The round trip is exact for a value of the datastream's own type. */
  lemma RoundTripExact(n: Num, text: string, b: bool, s: string, m: Num)
    ensures FormatTelemetryValue(Columns(FormatValue(JsNumber(n, text), "DOUBLE").value.slot)) == DNumber(n)
    ensures FormatTelemetryValue(Columns(FormatValue(JsBool(b), "BOOL").value.slot)) == DBool(b)
    ensures FormatTelemetryValue(Columns(FormatValue(JsString(s, m), "STRING").value.slot)) == DString(s)
  {
    EncodeDecode(JsNumber(n, text), "DOUBLE");
    EncodeDecode(JsBool(b), "BOOL");
    EncodeDecode(JsString(s, m), "STRING");
  }

  /** INT takes the floor, not the truncation: 7.9 is stored as 7 and -7.9 as -8. */
  lemma IntEncodingFloors()
    ensures FormatValue(JsNumber(Finite(7.9), "7.9"), "INT") == Success(Encoded(VLong(7), false))
    ensures FormatValue(JsNumber(Finite(-7.9), "-7.9"), "INT") == Success(Encoded(VLong(-8), false))
    ensures FormatValue(JsNumber(NaN, "NaN"), "INT").Failure?
  {
  }

  /** Every tag of the schema enum is known, so a datastream's own type never
      takes the fallback. */
  lemma SchemaTagsAreKnown(v: JsValue, t: DataType)
    requires FormatValue(v, TagOf(t)).Success?
    ensures !FormatValue(v, TagOf(t)).value.unknownType
  {
  }

  /** Overwriting a row's slot leaves a row with one slot exactly when the
      new slot is of the same kind as the old; a value of another kind leaves
      the old column set beside the new one. */
  lemma OverwriteKeepsOneSlot(prev: Slot, next: Slot)
    ensures SetSlot(Columns(prev), next) == Columns(next) <==> KindOf(prev) == KindOf(next)
    ensures KindOf(prev) != KindOf(next) ==> Populated(SetSlot(Columns(prev), next)) == {KindOf(prev), KindOf(next)}
  {
    var r := SetSlot(Columns(prev), next);
    if KindOf(prev) != KindOf(next) {
      assert SlotIn(r, KindOf(prev)) == Some(prev);
      assert SlotIn(Columns(next), KindOf(prev)) == None;
      forall k ensures k in Populated(r) <==> k in {KindOf(prev), KindOf(next)} {
      }
    }
  }
}

=== FILE: common.dfy ===
/** Shared vocabulary of the Artery model: optional values, results carrying
    the API's error codes, organization roles and the datastream data types. */
module Common {

  datatype Option<+T> = None | Some(value: T)

  /** The error codes the services raise (tRPC codes, plus the failures that
      come from the runtime or the database rather than from a service). */
  datatype Code =
    | NotFound
    | Forbidden
    | Unauthorized
    | BadRequest
    | InternalServerError
    | RangeError           // BigInt() of a non-finite number
    | StorageFailure       // a transaction that did not commit
    | ConstraintViolation  // a unique or primary key of the schema refused a row
    | ValueTooLong         // a text longer than its varchar column

  datatype ApiError = ApiError(code: Code, message: string)

  datatype Result<+T> = Success(value: T) | Failure(error: ApiError) {
    predicate IsFailure() { Failure? }
    function PropagateFailure<U>(): Result<U>
      requires Failure?
    {
      Failure(error)
    }
    function Extract(): T
      requires Success?
    {
      value
    }
  }

  /** A check that either lets the caller proceed or raises an error. */
  datatype Outcome = Pass | Fail(error: ApiError)

  /** Roles of organization members (the `memberRoles` enum). */
  datatype Role = Owner | Admin | Member

  /** The datastream data types (the `dataTypes` enum). */
  datatype DataType = Int | Double | Bool | Str

  /** The text of each data type as the schema spells it. */
  function TagOf(t: DataType): string
  {
    match t
    case Int => "INT"
    case Double => "DOUBLE"
    case Bool => "BOOL"
    case Str => "STRING"
  }

  /** Parses a data type tag; None for anything outside the enum. */
  function ParseDataType(tag: string): (r: Option<DataType>)
    ensures r.Some? ==> TagOf(r.value) == tag
    ensures forall t: DataType :: tag == TagOf(t) ==> r == Some(t)
  {
    if tag == "INT" then Some(Int)
    else if tag == "DOUBLE" then Some(Double)
    else if tag == "BOOL" then Some(Bool)
    else if tag == "STRING" then Some(Str)
    else None
  }

  const AllRoles: seq<Role> := [Owner, Admin, Member]
  const OwnerOrAdmin: seq<Role> := [Owner, Admin]
  const OwnerOnly: seq<Role> := [Owner]

  /** A non-empty sequence is its prefix followed by its last element. */
  lemma SnocSplit<T>(s: seq<T>)
    requires s != []
    ensures s[..|s| - 1] + [s[|s| - 1]] == s
  {
  }
}

=== FILE: dashboard_socket.dfy ===
/** The dashboard's realtime client (the useWebSocket hook): the devices it
    is subscribed to, the latest value per "deviceId:datastreamId", and the
    reconnect policy with exponential backoff. The socket's events (open,
    message, close, error) and the reconnect timer firing are methods called
    from outside; timers are a pending delay, not a clock. */
module DashboardSocket {
  import opened Common
  import opened Codec
  import RealtimeHub

  datatype ReadyState = Connecting | Open | Closing | Closed

  /** A message from the server after JSON.parse. `type` and `message` are
      None when absent or not a string; the two ids are None when absent and
      otherwise whatever JSON value they hold. */
  datatype Incoming =
    | NotJson
    | Received(msgType: Option<string>, deviceId: Option<Json>, datastreamId: Option<Json>,
               timestamp: int, value: JsValue, message: Option<string>)

  /** The messages this client sends: {type: "subscribe", deviceId}. */
  datatype ClientMsg = SubscribeMsg(deviceId: string)

  /** An entry of latestData; the ids are kept as the message held them. */
  datatype LiveValue = LiveValue(deviceId: Json, datastreamId: Json, timestamp: int, value: JsValue)

  const MaxReconnectAttempts: nat := 5
  const MaxDelayMs: nat := 30000
  const ConnectionLost := "Connection lost. Please refresh the page."
  const ConnectionError := "WebSocket connection error"
  const SubscribeFailed := "Failed to subscribe to device"
  const ConnectFailed := "Failed to establish WebSocket connection"

  function Pow2(n: nat): (r: nat)
    ensures r >= 1
  {
    if n == 0 then 1 else 2 * Pow2(n - 1)
  }

  /** The reconnect delay: 1000 * 2^attempts milliseconds, capped at 30000. */
  function BackoffDelay(attempts: nat): (delay: nat)
    ensures delay <= MaxDelayMs
    ensures delay >= 1000
  {
    var d := 1000 * Pow2(attempts);
    if d < MaxDelayMs then d else MaxDelayMs
  }

  /** The delay doubles from one attempt to the next until the cap; the
      delays of the five allowed attempts are 1, 2, 4, 8 and 16 seconds, so
      the cap of 30 seconds is never reached while attempts are allowed. */
  lemma {:induction false} BackoffDoubles(attempts: nat)
    ensures BackoffDelay(attempts + 1) == if 2 * BackoffDelay(attempts) < MaxDelayMs then 2 * BackoffDelay(attempts) else MaxDelayMs
    ensures attempts < MaxReconnectAttempts ==> BackoffDelay(attempts) == 1000 * Pow2(attempts) <= 16000
  {
    if attempts >= 5 {
      PowAtLeast32(attempts);
    }
  }

  lemma {:induction false} PowAtLeast32(n: nat)
    requires n >= 5
    ensures Pow2(n) >= 32
  {
    if n > 5 {
      PowAtLeast32(n - 1);
    }
  }

  lemma BackoffSchedule()
    ensures [BackoffDelay(0), BackoffDelay(1), BackoffDelay(2), BackoffDelay(3), BackoffDelay(4)] == [1000, 2000, 4000, 8000, 16000]
  {
  }

  /** The latestData key of a device's datastream. */
  function Key(deviceId: string, datastreamId: string): string
  {
    deviceId + ":" + datastreamId
  }

  predicate StartsWith(s: string, prefix: string)
  {
    |prefix| <= |s| && s[..|prefix|] == prefix
  }

  /** latestData without the keys that start with "deviceId:". */
  function DropDevice(m: map<string, LiveValue>, deviceId: string): (r: map<string, LiveValue>)
    ensures r.Keys <= m.Keys
    ensures forall k :: k in r <==> k in m && !StartsWith(k, deviceId + ":")
    ensures forall k :: k in r ==> r[k] == m[k]
  {
    map k | k in m && !StartsWith(k, deviceId + ":") :: m[k]
  }

  /** Unsubscribing drops every datastream of the device, and keeps the
      entries of any other device as long as neither id contains ':'. */
  lemma DropDeviceExactly(m: map<string, LiveValue>, deviceId: string, other: string, datastreamId: string)
    requires ':' !in deviceId && ':' !in other && other != deviceId
    ensures Key(deviceId, datastreamId) !in DropDevice(m, deviceId)
    ensures Key(other, datastreamId) in m ==> Key(other, datastreamId) in DropDevice(m, deviceId)
  {
    var k := Key(deviceId, datastreamId);
    assert k[..|deviceId + ":"|] == deviceId + ":";
    var o := Key(other, datastreamId);
    var p := deviceId + ":";
    var n := |deviceId|;
    assert o[|other|] == ':' && o[..|other|] == other;
    if |other| < n {
      assert deviceId[|other|] in deviceId;
      assert p[|other|] != o[|other|];
    } else if |other| == n {
      assert p[..n] == deviceId != o[..n];
    } else {
      assert other[n] in other;
      assert o[n] == other[n] != p[n];
    }
  }

  /** With a ':' inside a device id the prefix rule reaches further: dropping
      device "a" also drops the entries of device "a:b". */
  lemma DropDeviceOverreach(m: map<string, LiveValue>, v: LiveValue)
    requires m == map[Key("a:b", "x") := v]
    ensures DropDevice(m, "a") == map[]
  {
    assert Key("a:b", "x")[..2] == "a:";
  }

  /** A subscribe message as the realtime hub parses it. */
  function AsInbound(m: ClientMsg): RealtimeHub.Inbound
  {
    RealtimeHub.Parsed(Some("subscribe"), Some(JText(m.deviceId)))
  }

  /** What the hub sends, as this client parses it. */
  function FromServer(m: RealtimeHub.OutMsg): Incoming
  {
    match m
    case TelemetryMsg(d, s, t, v) => Received(Some("telemetry"), Some(JText(d)), Some(JText(s)), t, v, None)
    case SubscriptionMsg(text) => Received(Some("subscription"), None, None, 0, JsBool(false), Some(text))
    case ErrorMsg(text) => Received(Some("error"), None, None, 0, JsBool(false), Some(text))
  }

  /** The subscribe message this client sends is one the hub acts on, unless
      the device id is empty, which the hub ignores. */
  lemma SubscribeUnderstoodByHub(s: RealtimeHub.HubState, ws: RealtimeHub.Conn, deviceId: string, env: RealtimeHub.Sockets)
    ensures deviceId != "" ==> RealtimeHub.AfterHandleMessage(s, ws, AsInbound(SubscribeMsg(deviceId)), env)
                                == RealtimeHub.AfterSubscribe(s, ws, JText(deviceId), env)
    ensures deviceId == "" ==> RealtimeHub.AfterHandleMessage(s, ws, AsInbound(SubscribeMsg(deviceId)), env) == s
  {
    RealtimeHub.HandleMessageCases(s, ws, AsInbound(SubscribeMsg(deviceId)), env);
  }

  /** Set.delete on an insertion-ordered set: the other elements keep their
      order. */
  function Without(s: seq<string>, d: string): (r: seq<string>)
    ensures forall x :: x in r <==> x in s && x != d
    ensures |r| <= |s|
  {
    if s == [] then []
    else
      assert s == s[..|s| - 1] + [s[|s| - 1]];
      Without(s[..|s| - 1], d) + (if s[|s| - 1] != d then [s[|s| - 1]] else [])
  }

  /** Deleting an element that is not there changes nothing. */
  lemma {:induction false} WithoutAbsent(s: seq<string>, d: string)
    requires d !in s
    ensures Without(s, d) == s
  {
    if s != [] {
      assert s == s[..|s| - 1] + [s[|s| - 1]];
      WithoutAbsent(s[..|s| - 1], d);
    }
  }

  /** Subscribing to a new device and unsubscribing from it again gives back
      the subscriptions in their old order. */
  lemma SubscribeThenUnsubscribe(s: seq<string>, d: string)
    requires d !in s
    ensures Without(s + [d], d) == s
  {
    assert (s + [d])[..|s + [d]| - 1] == s;
    WithoutAbsent(s, d);
  }

  class RealtimeClient {
    var isConnected: bool
    /** wsRef: no socket, or a socket in some ready state. */
    var socket: Option<ReadyState>
    /** subscriptionsRef: a Set, kept in insertion order. */
    var subscriptions: seq<string>
    var latestData: map<string, LiveValue>
    var error: Option<string>
    var reconnectAttempts: nat
    /** The delay of the scheduled reconnect, if one is pending. */
    var pendingReconnect: Option<nat>
    /** The messages sent on the socket. */
    var sent: seq<ClientMsg>

    ghost predicate Valid()
      reads this
    {
      forall i, j :: 0 <= i < j < |subscriptions| ==> subscriptions[i] != subscriptions[j]
    }

    constructor ()
      ensures Valid()
      ensures !isConnected && socket == None && subscriptions == [] && latestData == map[]
      ensures error == None && reconnectAttempts == 0 && pendingReconnect == None && sent == []
    {
      isConnected, socket, subscriptions, latestData := false, None, [], map[];
      error, reconnectAttempts, pendingReconnect, sent := None, 0, None, [];
    }

    /** connect: nothing when the socket is already open; otherwise a new
        socket, or the error when creating it throws. */
    method Connect(creationThrows: bool)
      modifies this
      ensures old(socket) == Some(Open) ==> socket == old(socket) && error == old(error)
      ensures old(socket) != Some(Open) && !creationThrows ==> socket == Some(Connecting) && error == old(error)
      ensures old(socket) != Some(Open) && creationThrows ==> socket == old(socket) && error == Some(ConnectFailed)
      ensures isConnected == old(isConnected) && subscriptions == old(subscriptions) && latestData == old(latestData)
      ensures reconnectAttempts == old(reconnectAttempts) && pendingReconnect == old(pendingReconnect) && sent == old(sent)
    {
      if socket == Some(Open) {
        return;
      }
      if creationThrows {
        error := Some(ConnectFailed);
      } else {
        socket := Some(Connecting);
      }
    }

    /** onopen: connected, no error, attempts back to 0, and one subscribe
        message per remembered device, in subscription order. */
    method OnOpen()
      modifies this
      ensures isConnected && error == None && reconnectAttempts == 0 && socket == Some(Open)
      ensures |sent| == |old(sent)| + |subscriptions| && sent[..|old(sent)|] == old(sent)
      ensures forall i :: 0 <= i < |subscriptions| ==> sent[|old(sent)| + i] == SubscribeMsg(subscriptions[i])
      ensures subscriptions == old(subscriptions) && latestData == old(latestData) && pendingReconnect == old(pendingReconnect)
    {
      socket := Some(Open);
      isConnected := true;
      error := None;
      reconnectAttempts := 0;
      var i := 0;
      while i < |subscriptions|
        invariant 0 <= i <= |subscriptions|
        invariant |sent| == |old(sent)| + i && sent[..|old(sent)|] == old(sent)
        invariant forall j :: 0 <= j < i ==> sent[|old(sent)| + j] == SubscribeMsg(subscriptions[j])
        invariant isConnected && error == None && reconnectAttempts == 0 && socket == Some(Open)
        invariant subscriptions == old(subscriptions) && latestData == old(latestData)
        invariant pendingReconnect == old(pendingReconnect)
      {
        sent := sent + [SubscribeMsg(subscriptions[i])];
        i := i + 1;
      }
    }

    /** onmessage: a telemetry message whose deviceId and datastreamId are
        both truthy, of whatever type, replaces the entry at the key made of
        their texts; an error message sets the error to its text; anything
        else, and a message that does not parse, changes nothing. */
    method OnMessage(m: Incoming)
      modifies this
      ensures m.Received? && m.msgType == Some("telemetry") && Truthy(m.deviceId) && Truthy(m.datastreamId) ==>
                latestData == old(latestData)[Key(TextOf(m.deviceId.value), TextOf(m.datastreamId.value)) :=
                                LiveValue(m.deviceId.value, m.datastreamId.value, m.timestamp, m.value)]
                && error == old(error)
      ensures m.Received? && m.msgType == Some("error") ==> latestData == old(latestData) && error == m.message
      ensures !(m.Received? && (m.msgType == Some("error") || m.msgType == Some("telemetry"))) ==>
                latestData == old(latestData) && error == old(error)
      ensures m.Received? && m.msgType == Some("telemetry") && !(Truthy(m.deviceId) && Truthy(m.datastreamId)) ==>
                latestData == old(latestData) && error == old(error)
      ensures isConnected == old(isConnected) && socket == old(socket) && subscriptions == old(subscriptions)
      ensures reconnectAttempts == old(reconnectAttempts) && pendingReconnect == old(pendingReconnect) && sent == old(sent)
    {
      if m.NotJson? {
        return;
      }
      if m.msgType == Some("telemetry") && Truthy(m.deviceId) && Truthy(m.datastreamId) {
        var key := TextOf(m.deviceId.value) + ":" + TextOf(m.datastreamId.value);
        latestData := latestData[key := LiveValue(m.deviceId.value, m.datastreamId.value, m.timestamp, m.value)];
      } else if m.msgType == Some("subscription") {
      } else if m.msgType == Some("error") {
        error := m.message;
      }
    }

    /** onclose: disconnected and the socket dropped; a reconnect is scheduled
        after the backoff delay while fewer than five attempts were made,
        otherwise the error tells the user to refresh. */
    method OnClose()
      modifies this
      ensures !isConnected && socket == None
      ensures old(reconnectAttempts) < MaxReconnectAttempts ==>
                pendingReconnect == Some(BackoffDelay(old(reconnectAttempts))) && error == old(error)
      ensures old(reconnectAttempts) >= MaxReconnectAttempts ==>
                pendingReconnect == old(pendingReconnect) && error == Some(ConnectionLost)
      ensures subscriptions == old(subscriptions) && latestData == old(latestData)
      ensures reconnectAttempts == old(reconnectAttempts) && sent == old(sent)
    {
      isConnected := false;
      socket := None;
      if reconnectAttempts < MaxReconnectAttempts {
        var delay := 1000 * Pow2(reconnectAttempts);
        if delay > 30000 {
          delay := 30000;
        }
        pendingReconnect := Some(delay);
      } else {
        error := Some(ConnectionLost);
      }
    }

    /** The reconnect timer fires: one more attempt, then connect. */
    method ReconnectFires(creationThrows: bool)
      requires pendingReconnect.Some?
      modifies this
      ensures reconnectAttempts == old(reconnectAttempts) + 1 && pendingReconnect == None
      ensures old(socket) == Some(Open) ==> socket == old(socket) && error == old(error)
      ensures old(socket) != Some(Open) && !creationThrows ==> socket == Some(Connecting) && error == old(error)
      ensures old(socket) != Some(Open) && creationThrows ==> socket == old(socket) && error == Some(ConnectFailed)
      ensures isConnected == old(isConnected)
      ensures subscriptions == old(subscriptions) && latestData == old(latestData) && sent == old(sent)
    {
      pendingReconnect := None;
      reconnectAttempts := reconnectAttempts + 1;
      Connect(creationThrows);
    }

    method OnError()
      modifies this
      ensures error == Some(ConnectionError)
      ensures isConnected == old(isConnected) && socket == old(socket) && subscriptions == old(subscriptions)
      ensures latestData == old(latestData) && reconnectAttempts == old(reconnectAttempts)
      ensures pendingReconnect == old(pendingReconnect) && sent == old(sent)
    {
      error := Some(ConnectionError);
    }

    /** disconnect: the pending reconnect is cancelled, the socket closed and
        dropped, and the subscription set emptied. */
    method Disconnect()
      modifies this
      ensures pendingReconnect == None && socket == None && !isConnected && subscriptions == [] && Valid()
      ensures latestData == old(latestData) && error == old(error)
      ensures reconnectAttempts == old(reconnectAttempts) && sent == old(sent)
    {
      if pendingReconnect.Some? {
        pendingReconnect := None;
      }
      if socket.Some? {
        socket := None;
      }
      isConnected := false;
      subscriptions := [];
    }

    /** subscribeToDevice: nothing at all unless the socket is open; then the
        device is remembered and the subscribe message sent, or, when the send
        throws, the error set. */
    method SubscribeToDevice(deviceId: string, sendThrows: bool)
      requires Valid()
      modifies this
      ensures Valid()
      ensures old(socket) != Some(Open) ==> subscriptions == old(subscriptions) && sent == old(sent) && error == old(error)
      ensures old(socket) == Some(Open) ==>
                && subscriptions == (if deviceId in old(subscriptions) then old(subscriptions) else old(subscriptions) + [deviceId])
                && deviceId in subscriptions
                && (forall d :: d in subscriptions <==> d in old(subscriptions) || d == deviceId)
                && (sendThrows ==> sent == old(sent) && error == Some(SubscribeFailed))
                && (!sendThrows ==> sent == old(sent) + [SubscribeMsg(deviceId)] && error == old(error))
      ensures isConnected == old(isConnected) && socket == old(socket) && latestData == old(latestData)
      ensures reconnectAttempts == old(reconnectAttempts) && pendingReconnect == old(pendingReconnect)
    {
      if socket != Some(Open) {
        return;
      }
      if deviceId !in subscriptions {
        subscriptions := subscriptions + [deviceId];
      }
      if sendThrows {
        error := Some(SubscribeFailed);
      } else {
        sent := sent + [SubscribeMsg(deviceId)];
      }
    }

    /** unsubscribeFromDevice: the device leaves the subscription set and
        every cached key that starts with "deviceId:" is deleted. */
    method UnsubscribeFromDevice(deviceId: string)
      requires Valid()
      modifies this
      ensures Valid()
      ensures subscriptions == Without(old(subscriptions), deviceId)
      ensures forall d :: d in subscriptions <==> d in old(subscriptions) && d != deviceId
      ensures latestData == DropDevice(old(latestData), deviceId)
      ensures isConnected == old(isConnected) && socket == old(socket) && error == old(error)
      ensures reconnectAttempts == old(reconnectAttempts) && pendingReconnect == old(pendingReconnect) && sent == old(sent)
    {
      var kept: seq<string> := [];
      var i := 0;
      while i < |subscriptions|
        invariant 0 <= i <= |subscriptions|
        invariant kept == Without(subscriptions[..i], deviceId)
        invariant forall d :: d in kept <==> d in subscriptions[..i] && d != deviceId
        invariant forall a, b :: 0 <= a < b < |kept| ==> kept[a] != kept[b]
      {
        assert subscriptions[..i + 1] == subscriptions[..i] + [subscriptions[i]];
        assert subscriptions[..i + 1][..i] == subscriptions[..i];
        if subscriptions[i] != deviceId {
          assert subscriptions[i] !in subscriptions[..i] by {
            forall j | 0 <= j < i ensures subscriptions[..i][j] != subscriptions[i] {}
          }
          kept := kept + [subscriptions[i]];
        }
        i := i + 1;
      }
      assert subscriptions[..i] == subscriptions;
      subscriptions := kept;

      var prefix := deviceId + ":";
      var next := latestData;
      var keys := latestData.Keys;
      while keys != {}
        invariant keys <= latestData.Keys
        invariant forall k :: k in next <==> k in latestData && (k in keys || !StartsWith(k, prefix))
        invariant forall k :: k in next ==> next[k] == latestData[k]
        decreases keys
      {
        var k :| k in keys;
        if StartsWith(k, prefix) {
          next := next - {k};
        }
        keys := keys - {k};
      }
      latestData := next;
    }
  }

  /** The hub's telemetry event reaches the client under deviceId:pin, since
      the worker broadcasts the pin in the datastreamId field. */
  lemma BroadcastKey(deviceId: string, pin: string, t: int, v: JsValue)
    requires deviceId != "" && pin != ""
    ensures var m := FromServer(RealtimeHub.TelemetryMsg(deviceId, pin, t, v));
      && m.Received? && m.msgType == Some("telemetry") && Truthy(m.deviceId) && Truthy(m.datastreamId)
      && Key(TextOf(m.deviceId.value), TextOf(m.datastreamId.value)) == deviceId + ":" + pin
  {
  }
}

=== FILE: datastream.dfy ===
/** datastreamService: the datastreams of a template, readable by every
    member of the template's organization and writable by its owners and
    admins. A missing template or datastream is NOT_FOUND before any role is
    looked at. */
module DatastreamService {
  import opened Common
  import opened Store
  import OrganizationService

  const TemplateNotFound := "Template not found"
  const DatastreamNotFound := "Datastream not found"
  const ConstraintMessage := "duplicate key value violates unique constraint"
  const PinTooLongMessage := "value too long for type character varying(50)"

  /** getTemplateAndAssertMember: NOT_FOUND for a missing template, then the
      membership check in the template's organization. */
  function TemplateAndMember(templates: map<string, Template>, members: map<MemberKey, Role>,
                             templateId: string, userId: string, roles: seq<Role>): (r: Result<Template>)
    ensures templateId !in templates ==> r == Failure(ApiError(NotFound, TemplateNotFound))
    ensures templateId in templates ==>
              var gate := OrganizationService.AssertMemberRole(members, userId, templates[templateId].organizationId, roles);
              && (r.Success? <==> gate.Success?)
              && (r.Success? ==> r.value == templates[templateId])
              && (r.Failure? ==> r.error == gate.error)
  {
    if templateId !in templates then Failure(ApiError(NotFound, TemplateNotFound))
    else
      var _ :- OrganizationService.AssertMemberRole(members, userId, templates[templateId].organizationId, roles);
      Success(templates[templateId])
  }

  /** The datastreams of one template. */
  function OfTemplate(datastreams: map<string, Datastream>, templateId: string): (r: map<string, Datastream>)
    ensures forall id :: id in r <==> id in datastreams && datastreams[id].templateId == templateId
    ensures forall id :: id in r ==> r[id] == datastreams[id]
  {
    map id | id in datastreams && datastreams[id].templateId == templateId :: datastreams[id]
  }

  /** getAll: any member of the template's organization. */
  function GetAll(templates: map<string, Template>, members: map<MemberKey, Role>,
                  datastreams: map<string, Datastream>, userId: string, templateId: string): (r: Result<map<string, Datastream>>)
    ensures r.Success? <==> TemplateAndMember(templates, members, templateId, userId, AllRoles).Success?
    ensures r.Failure? ==> r.error == TemplateAndMember(templates, members, templateId, userId, AllRoles).error
    ensures r.Success? ==> r.value == OfTemplate(datastreams, templateId)
  {
    var _ :- TemplateAndMember(templates, members, templateId, userId, AllRoles);
    Success(OfTemplate(datastreams, templateId))
  }

  /** getById: NOT_FOUND for a missing datastream, then any member of its
      template's organization. A datastream whose template row is missing
      cannot be read (the joined template is null). */
  function GetById(templates: map<string, Template>, members: map<MemberKey, Role>,
                   datastreams: map<string, Datastream>, userId: string, id: string): (r: Result<Datastream>)
    ensures id !in datastreams ==> r == Failure(ApiError(NotFound, DatastreamNotFound))
    ensures id in datastreams && datastreams[id].templateId !in templates ==> r.Failure? && r.error.code == InternalServerError
    ensures id in datastreams && datastreams[id].templateId in templates ==>
              (r.Success? <==> MemberKey(templates[datastreams[id].templateId].organizationId, userId) in members)
    ensures r.Success? ==> id in datastreams && r.value == datastreams[id]
  {
    if id !in datastreams then Failure(ApiError(NotFound, DatastreamNotFound))
    else
      var ds := datastreams[id];
      if ds.templateId !in templates then Failure(ApiError(InternalServerError, "Cannot read properties of null"))
      else
        OrganizationService.RolesWiden(members, userId, templates[ds.templateId].organizationId, AllRoles, AllRoles);
        var _ :- OrganizationService.AssertMemberRole(members, userId, templates[ds.templateId].organizationId, AllRoles);
        Success(ds)
  }

  /** The create schema: the data type must be one of the enum's tags. */
  datatype DatastreamInput = DatastreamInput(
    templateId: string,
    name: string,
    pin: string,
    dataType: string,
    min: Option<real>,
    max: Option<real>,
    defaultValue: Option<string>)

  function ValidateInput(data: DatastreamInput): (r: Result<Datastream>)
    ensures r.Success? <==> ParseDataType(data.dataType).Some?
    ensures r.Failure? ==> r.error.code == BadRequest
    ensures r.Success? ==> TagOf(r.value.dataType) == data.dataType
                           && r.value == Datastream(data.templateId, data.name, data.pin, r.value.dataType,
                                                    data.min, data.max, data.defaultValue)
  {
    match ParseDataType(data.dataType)
    case None => Failure(ApiError(BadRequest, "Invalid enum value. Expected 'INT' | 'DOUBLE' | 'BOOL' | 'STRING'"))
    case Some(t) => Success(Datastream(data.templateId, data.name, data.pin, t, data.min, data.max, data.defaultValue))
  }

  /** Another datastream of the same template already uses the pin. */
  function PinTaken(datastreams: map<string, Datastream>, templateId: string, pin: string, except: string): (b: bool)
    ensures b <==> exists id :: id in datastreams && id != except && datastreams[id].templateId == templateId && datastreams[id].pin == pin
  {
    exists id :: id in datastreams && id != except && datastreams[id].templateId == templateId && datastreams[id].pin == pin
  }

  /** create: owners and admins of the template's organization; the insert
      is refused when the pin does not fit its column, or when the id or the
      (templateId, pin) pair is taken. */
  function Create(datastreams: map<string, Datastream>, templates: map<string, Template>, members: map<MemberKey, Role>,
                  userId: string, row: Datastream, newId: string): (r: (Result<Datastream>, map<string, Datastream>))
    ensures r.0.Failure? ==> r.1 == datastreams
    ensures TemplateAndMember(templates, members, row.templateId, userId, OwnerOrAdmin).Failure? ==>
              r.0 == Failure(TemplateAndMember(templates, members, row.templateId, userId, OwnerOrAdmin).error)
    ensures r.0.Success? <==> TemplateAndMember(templates, members, row.templateId, userId, OwnerOrAdmin).Success?
                              && |row.pin| <= PinMaxLength
                              && newId !in datastreams && !PinTaken(datastreams, row.templateId, row.pin, newId)
    ensures TemplateAndMember(templates, members, row.templateId, userId, OwnerOrAdmin).Success? && |row.pin| > PinMaxLength ==>
              r.0 == Failure(ApiError(ValueTooLong, PinTooLongMessage))
    ensures r.0.Success? ==> r.0.value == row && r.1 == datastreams[newId := row]
  {
    var gate := TemplateAndMember(templates, members, row.templateId, userId, OwnerOrAdmin);
    if gate.Failure? then (Failure(gate.error), datastreams)
    else if |row.pin| > PinMaxLength then (Failure(ApiError(ValueTooLong, PinTooLongMessage)), datastreams)
    else if newId in datastreams || PinTaken(datastreams, row.templateId, row.pin, newId)
    then (Failure(ApiError(ConstraintViolation, ConstraintMessage)), datastreams)
    else (Success(row), datastreams[newId := row])
  }

  /** The update schema: everything of the create schema but the template. */
  datatype DatastreamChanges = DatastreamChanges(
    name: string,
    pin: string,
    dataType: DataType,
    min: Option<real>,
    max: Option<real>,
    defaultValue: Option<string>)

  /** The row after `set(data)`: absent optional fields are left as they were. */
  function Apply(ds: Datastream, data: DatastreamChanges): (r: Datastream)
    ensures r.templateId == ds.templateId
    ensures r.name == data.name && r.pin == data.pin && r.dataType == data.dataType
    ensures r.min == (if data.min.Some? then data.min else ds.min)
    ensures r.max == (if data.max.Some? then data.max else ds.max)
    ensures r.defaultValue == (if data.defaultValue.Some? then data.defaultValue else ds.defaultValue)
  {
    Datastream(ds.templateId, data.name, data.pin, data.dataType,
               if data.min.Some? then data.min else ds.min,
               if data.max.Some? then data.max else ds.max,
               if data.defaultValue.Some? then data.defaultValue else ds.defaultValue)
  }

  /** update: NOT_FOUND for a missing datastream before any role check; then
      owners and admins of its template's organization; then the pin's width
      and its uniqueness within the template. */
  function Update(datastreams: map<string, Datastream>, templates: map<string, Template>, members: map<MemberKey, Role>,
                  userId: string, id: string, data: DatastreamChanges): (r: (Result<Datastream>, map<string, Datastream>))
    ensures r.0.Failure? ==> r.1 == datastreams
    ensures id !in datastreams ==> r.0 == Failure(ApiError(NotFound, DatastreamNotFound))
    ensures id in datastreams && TemplateAndMember(templates, members, datastreams[id].templateId, userId, OwnerOrAdmin).Failure? ==>
              r.0 == Failure(TemplateAndMember(templates, members, datastreams[id].templateId, userId, OwnerOrAdmin).error)
    ensures r.0.Success? <==> id in datastreams
                              && TemplateAndMember(templates, members, datastreams[id].templateId, userId, OwnerOrAdmin).Success?
                              && |data.pin| <= PinMaxLength
                              && !PinTaken(datastreams, datastreams[id].templateId, data.pin, id)
    ensures id in datastreams && TemplateAndMember(templates, members, datastreams[id].templateId, userId, OwnerOrAdmin).Success? ==>
              && (|data.pin| > PinMaxLength ==> r.0 == Failure(ApiError(ValueTooLong, PinTooLongMessage)))
              && (|data.pin| <= PinMaxLength && PinTaken(datastreams, datastreams[id].templateId, data.pin, id) ==>
                    r.0 == Failure(ApiError(ConstraintViolation, ConstraintMessage)))
    ensures r.0.Success? ==> id in datastreams && r.0.value == Apply(datastreams[id], data)
                             && r.1 == datastreams[id := r.0.value]
  {
    if id !in datastreams then (Failure(ApiError(NotFound, DatastreamNotFound)), datastreams)
    else
      var current := datastreams[id];
      var gate := TemplateAndMember(templates, members, current.templateId, userId, OwnerOrAdmin);
      if gate.Failure? then (Failure(gate.error), datastreams)
      else if |data.pin| > PinMaxLength then (Failure(ApiError(ValueTooLong, PinTooLongMessage)), datastreams)
      else if PinTaken(datastreams, current.templateId, data.pin, id)
      then (Failure(ApiError(ConstraintViolation, ConstraintMessage)), datastreams)
      else (Success(Apply(current, data)), datastreams[id := Apply(current, data)])
  }

  /** delete: NOT_FOUND first, then owners and admins. */
  function Delete(datastreams: map<string, Datastream>, templates: map<string, Template>, members: map<MemberKey, Role>,
                  userId: string, id: string): (r: (Result<Datastream>, map<string, Datastream>))
    ensures r.0.Failure? ==> r.1 == datastreams
    ensures id !in datastreams ==> r.0 == Failure(ApiError(NotFound, DatastreamNotFound))
    ensures r.0.Success? <==> id in datastreams
                              && TemplateAndMember(templates, members, datastreams[id].templateId, userId, OwnerOrAdmin).Success?
    ensures r.0.Success? ==> r.0.value == datastreams[id] && r.1 == datastreams - {id}
  {
    if id !in datastreams then (Failure(ApiError(NotFound, DatastreamNotFound)), datastreams)
    else
      var gate := TemplateAndMember(templates, members, datastreams[id].templateId, userId, OwnerOrAdmin);
      if gate.Failure? then (Failure(gate.error), datastreams)
      else (Success(datastreams[id]), datastreams - {id})
  }

  /** Reads are open to plain members; every write needs owner or admin. */
  lemma MemberReadsButDoesNotWrite(datastreams: map<string, Datastream>, templates: map<string, Template>,
                                   members: map<MemberKey, Role>, userId: string, id: string,
                                   data: DatastreamChanges, row: Datastream, newId: string)
    requires id in datastreams && datastreams[id].templateId in templates
    requires MemberKey(templates[datastreams[id].templateId].organizationId, userId) in members
    requires members[MemberKey(templates[datastreams[id].templateId].organizationId, userId)] == Member
    requires row.templateId == datastreams[id].templateId
    ensures GetById(templates, members, datastreams, userId, id) == Success(datastreams[id])
    ensures GetAll(templates, members, datastreams, userId, datastreams[id].templateId).Success?
    ensures Create(datastreams, templates, members, userId, row, newId).0.error.code == Forbidden
    ensures Update(datastreams, templates, members, userId, id, data).0.error.code == Forbidden
    ensures Delete(datastreams, templates, members, userId, id).0.error.code == Forbidden
  {
    var org := templates[datastreams[id].templateId].organizationId;
    OrganizationService.RolesWiden(members, userId, org, AllRoles, AllRoles);
  }

  /** A missing datastream is NOT_FOUND for everyone, members or not. */
  lemma NotFoundBeforeRole(datastreams: map<string, Datastream>, templates: map<string, Template>,
                           members: map<MemberKey, Role>, userId: string, id: string, data: DatastreamChanges)
    requires id !in datastreams
    ensures Update(datastreams, templates, members, userId, id, data).0 == Failure(ApiError(NotFound, DatastreamNotFound))
    ensures Delete(datastreams, templates, members, userId, id).0 == Failure(ApiError(NotFound, DatastreamNotFound))
    ensures GetById(templates, members, datastreams, userId, id) == Failure(ApiError(NotFound, DatastreamNotFound))
  {
  }

  /** Every write keeps (templateId, pin) unique, and an update never moves a
      datastream to another template. */
  lemma WritesKeepPinsUnique(datastreams: map<string, Datastream>, templates: map<string, Template>,
                             members: map<MemberKey, Role>, userId: string, id: string,
                             data: DatastreamChanges, row: Datastream, newId: string)
    requires PinsUnique(datastreams)
    ensures PinsUnique(Create(datastreams, templates, members, userId, row, newId).1)
    ensures PinsUnique(Update(datastreams, templates, members, userId, id, data).1)
    ensures PinsUnique(Delete(datastreams, templates, members, userId, id).1)
    ensures var after := Update(datastreams, templates, members, userId, id, data).1;
      forall k :: k in datastreams ==> k in after && after[k].templateId == datastreams[k].templateId
  {
  }

  /** Every write keeps every pin within its column. */
  lemma WritesKeepPinsFit(datastreams: map<string, Datastream>, templates: map<string, Template>,
                          members: map<MemberKey, Role>, userId: string, id: string,
                          data: DatastreamChanges, row: Datastream, newId: string)
    requires PinsFit(datastreams)
    ensures PinsFit(Create(datastreams, templates, members, userId, row, newId).1)
    ensures PinsFit(Update(datastreams, templates, members, userId, id, data).1)
    ensures PinsFit(Delete(datastreams, templates, members, userId, id).1)
  {
  }

  /** The service calls over the database. */
  method CreateIn(db: Database, userId: string, row: Datastream, newId: string) returns (r: Result<Datastream>)
    requires db.Valid()
    modifies db
    ensures db.Valid()
    ensures (r, db.datastreams) == Create(old(db.datastreams), db.templates, db.members, userId, row, newId)
    ensures db.organizations == old(db.organizations) && db.members == old(db.members) && db.templates == old(db.templates)
    ensures db.devices == old(db.devices) && db.telemetry == old(db.telemetry) && db.deviceState == old(db.deviceState)
  {
    var tmpl := TemplateAndMember(db.templates, db.members, row.templateId, userId, OwnerOrAdmin);
    if tmpl.Failure? {
      return Failure(tmpl.error);
    }
    if |row.pin| > PinMaxLength {
      return Failure(ApiError(ValueTooLong, PinTooLongMessage));
    }
    if newId in db.datastreams || PinTaken(db.datastreams, row.templateId, row.pin, newId) {
      return Failure(ApiError(ConstraintViolation, ConstraintMessage));
    }
    db.datastreams := db.datastreams[newId := row];
    r := Success(row);
  }

  method UpdateIn(db: Database, userId: string, id: string, data: DatastreamChanges) returns (r: Result<Datastream>)
    requires db.Valid()
    modifies db
    ensures db.Valid()
    ensures (r, db.datastreams) == Update(old(db.datastreams), db.templates, db.members, userId, id, data)
    ensures db.organizations == old(db.organizations) && db.members == old(db.members) && db.templates == old(db.templates)
    ensures db.devices == old(db.devices) && db.telemetry == old(db.telemetry) && db.deviceState == old(db.deviceState)
  {
    if id !in db.datastreams {
      return Failure(ApiError(NotFound, DatastreamNotFound));
    }
    var current := db.datastreams[id];
    var tmpl := TemplateAndMember(db.templates, db.members, current.templateId, userId, OwnerOrAdmin);
    if tmpl.Failure? {
      return Failure(tmpl.error);
    }
    if |data.pin| > PinMaxLength {
      return Failure(ApiError(ValueTooLong, PinTooLongMessage));
    }
    if PinTaken(db.datastreams, current.templateId, data.pin, id) {
      return Failure(ApiError(ConstraintViolation, ConstraintMessage));
    }
    var updated := Apply(current, data);
    db.datastreams := db.datastreams[id := updated];
    r := Success(updated);
  }

  /** The delete, with the schema's cascades: the datastream's telemetry
      and device_state rows go with it. */
  method DeleteIn(db: Database, userId: string, id: string) returns (r: Result<Datastream>)
    requires db.Valid()
    modifies db
    ensures db.Valid()
    ensures (r, db.datastreams) == Delete(old(db.datastreams), db.templates, db.members, userId, id)
    ensures r.Success? ==> db.Tables() == Cascade(old(db.Tables()), {}, {}, {id})
    ensures r.Failure? ==> db.Tables() == old(db.Tables())
    ensures ReferencesIntact(old(db.Tables())) ==> ReferencesIntact(db.Tables())
  {
    if id !in db.datastreams {
      return Failure(ApiError(NotFound, DatastreamNotFound));
    }
    var tmpl := TemplateAndMember(db.templates, db.members, db.datastreams[id].templateId, userId, OwnerOrAdmin);
    if tmpl.Failure? {
      return Failure(tmpl.error);
    }
    r := Success(db.datastreams[id]);
    var before := db.Tables();
    CascadeKeepsReferences(before, {}, {}, {id});
    CascadeKeepsConstraints(before, {}, {}, {id});
    CascadeRemovesParents(before, {}, {}, {id});
    db.SetTables(Cascade(before, {}, {}, {id}));
    assert db.templates == before.templates;
    assert db.datastreams == before.datastreams - {id};
  }
}

=== FILE: device.dfy ===
/** deviceService: the devices of an organization, readable by any of its
    members. Membership is checked before the device is looked up, and the
    lookup is by id AND organization. */
module DeviceService {
  import opened Common
  import opened Store
  import OrganizationService

  const DeviceNotFound := "Device not found in this organization"

  /** getAll: FORBIDDEN for a non-member, else the organization's devices. */
  function GetAll(members: map<MemberKey, Role>, devices: map<string, Device>,
                  userId: string, organizationId: string): (r: Result<map<string, Device>>)
    ensures r.Success? <==> MemberKey(organizationId, userId) in members
    ensures r.Failure? ==> r.error == ApiError(Forbidden, OrganizationService.NotMemberMessage)
    ensures r.Success? ==> forall id :: (id in r.value <==> id in devices && devices[id].organizationId == organizationId)
    ensures r.Success? ==> forall id :: id in r.value ==> r.value[id] == devices[id]
  {
    OrganizationService.RolesWiden(members, userId, organizationId, AllRoles, AllRoles);
    var _ :- OrganizationService.AssertMemberRole(members, userId, organizationId, AllRoles);
    Success(map id | id in devices && devices[id].organizationId == organizationId :: devices[id])
  }

  /** getById: FORBIDDEN for a non-member, whether or not the device exists;
      for a member, NOT_FOUND unless the device belongs to this organization. */
  function GetById(members: map<MemberKey, Role>, devices: map<string, Device>,
                   userId: string, organizationId: string, deviceId: string): (r: Result<Device>)
    ensures MemberKey(organizationId, userId) !in members ==>
              r == Failure(ApiError(Forbidden, OrganizationService.NotMemberMessage))
    ensures MemberKey(organizationId, userId) in members ==>
              (r.Success? <==> deviceId in devices && devices[deviceId].organizationId == organizationId)
    ensures MemberKey(organizationId, userId) in members && r.Failure? ==> r.error == ApiError(NotFound, DeviceNotFound)
    ensures r.Success? ==> r.value == devices[deviceId]
  {
    OrganizationService.RolesWiden(members, userId, organizationId, AllRoles, AllRoles);
    var _ :- OrganizationService.AssertMemberRole(members, userId, organizationId, AllRoles);
    if deviceId in devices && devices[deviceId].organizationId == organizationId then Success(devices[deviceId])
    else Failure(ApiError(NotFound, DeviceNotFound))
  }

  /** The two reads agree: a member finds by id exactly the devices the
      list shows, and a device of another organization is NOT_FOUND. */
  lemma GetByIdAgreesWithGetAll(members: map<MemberKey, Role>, devices: map<string, Device>,
                                userId: string, organizationId: string, deviceId: string)
    requires MemberKey(organizationId, userId) in members
    ensures GetById(members, devices, userId, organizationId, deviceId).Success? <==>
              deviceId in GetAll(members, devices, userId, organizationId).value
    ensures deviceId in devices && devices[deviceId].organizationId != organizationId ==>
              GetById(members, devices, userId, organizationId, deviceId) == Failure(ApiError(NotFound, DeviceNotFound))
  {
  }
}

=== FILE: ingestion.dfy ===
/** ingestionService.ingest: validate the device, find the datastream by the
    device's template and the payload's pin, encode the value, choose the
    record timestamp, then in one transaction append a telemetry row, upsert
    the device_state row and mark the device ONLINE.

    validateDevice and validateDatastream are not part of this model: their
    outcomes are parameters (a result for the device, a lookup function for the
    datastream). The clock is the parameter `now` (epoch milliseconds), the
    elapsed time is `duration`, and `commits` says whether the database
    committed the transaction. */
module Ingestion {
  import opened Common
  import opened Codec
  import opened Store

  /** The telemetry payload: pin, raw value, optional epoch seconds (a
      JavaScript number, so it may have a fraction). */
  datatype Payload = Payload(pin: string, value: JsValue, timestamp: Option<Num>)

  /** What validateDevice returns (the device's id and template). */
  datatype DeviceRecord = DeviceRecord(id: string, templateId: string)

  /** What validateDatastream returns (the datastream's id and data type). */
  datatype DatastreamRecord = DatastreamRecord(id: string, dataType: DataType)

  datatype IngestionResult = IngestionResult(
    success: bool,
    deviceId: string,
    pin: string,
    timestamp: int,
    duration: int)

  /** The three tables ingestion writes. */
  datatype Tables = Tables(
    telemetry: seq<TelemetryRow>,
    deviceState: map<StateKey, StateRow>,
    devices: map<string, Device>)

  /** Rounding toward zero, as a Date does with a fractional time value. */
  function Trunc(x: real): (n: int)
    ensures x >= 0.0 ==> n as real <= x < n as real + 1.0
    ensures x < 0.0 ==> n as real - 1.0 < x <= n as real
  {
    if x >= 0.0 then x.Floor else -((-x).Floor)
  }

  /** The largest time value, in milliseconds, a Date can hold. */
  const MaxTimeMs: real := 8640000000000000.0

  /** The payload timestamp is truthy: present, and neither 0 nor NaN. */
  predicate TimestampGiven(payloadTs: Option<Num>)
  {
    payloadTs.Some? && payloadTs.value != Finite(0.0) && payloadTs.value != NaN
  }

  /** The record timestamp in milliseconds: `new Date(seconds * 1000)` for a
      truthy payload timestamp, else the ingestion time. None is an Invalid
      Date: an infinite time, or one beyond the range of a Date. */
  function RecordTimestamp(payloadTs: Option<Num>, now: int): Option<int>
  {
    if !TimestampGiven(payloadTs) then Some(now)
    else match payloadTs.value
      case Finite(x) => if -MaxTimeMs <= x * 1000.0 <= MaxTimeMs then Some(Trunc(x * 1000.0)) else None
      case _ => None
  }

  const InvalidTime := "Invalid time value"

  /** The device_state upsert: a new row holds only the slot; on conflict the
      slot's column, updatedAt and reportedAt are overwritten and the other
      value columns are left as they were. */
  function Upsert(prev: Option<StateRow>, slot: Slot, reportedAt: int): (row: StateRow)
    ensures SlotIn(row.values, KindOf(slot)) == Some(slot)
    ensures row.updatedAt == reportedAt && row.reportedAt == Some(reportedAt)
    ensures prev.None? ==> Populated(row.values) == {KindOf(slot)}
    ensures prev.Some? ==> forall k :: k != KindOf(slot) ==> SlotIn(row.values, k) == SlotIn(prev.value.values, k)
  {
    match prev
    case None => StateRow(Columns(slot), reportedAt, Some(reportedAt))
    case Some(p) => StateRow(SetSlot(p.values, slot), reportedAt, Some(reportedAt))
  }

  function Lookup(m: map<StateKey, StateRow>, k: StateKey): Option<StateRow>
  {
    if k in m then Some(m[k]) else None
  }

  /** The three writes of the transaction, in order. */
  function Transaction(t: Tables, device: DeviceRecord, ds: DatastreamRecord, slot: Slot,
                       recordTs: int, reportedAt: int): Tables
  {
    var key := StateKey(device.id, ds.id);
    var telemetry := t.telemetry + [TelemetryRow(device.id, ds.id, Columns(slot), recordTs, reportedAt)];
    var deviceState := t.deviceState[key := Upsert(Lookup(t.deviceState, key), slot, reportedAt)];
    var devices :=
      if device.id in t.devices
      then t.devices[device.id := t.devices[device.id].(status := Some(Online), lastSeen := Some(reportedAt))]
      else t.devices;
    Tables(telemetry, deviceState, devices)
  }

  /** ingest as a transformer of the tables: every failure leaves the tables
      as they were; a success appends one row and touches one state row and
      one device. */
  function Ingest(t: Tables, deviceId: string, payload: Payload,
                  deviceCheck: Result<DeviceRecord>,
                  datastreamCheck: (string, string) -> Result<DatastreamRecord>,
                  now: int, duration: int, commits: bool): (r: (Result<IngestionResult>, Tables))
    ensures r.0.Failure? ==> r.1 == t
    ensures deviceCheck.Failure? ==> r.0 == Failure(deviceCheck.error)
    ensures deviceCheck.Success? && datastreamCheck(deviceCheck.value.templateId, payload.pin).Failure? ==>
              r.0 == Failure(datastreamCheck(deviceCheck.value.templateId, payload.pin).error)
    ensures r.0.Success? <==>
              && deviceCheck.Success?
              && datastreamCheck(deviceCheck.value.templateId, payload.pin).Success?
              && FormatValue(payload.value, TagOf(datastreamCheck(deviceCheck.value.templateId, payload.pin).value.dataType)).Success?
              && RecordTimestamp(payload.timestamp, now).Some?
              && commits
    ensures && deviceCheck.Success?
            && datastreamCheck(deviceCheck.value.templateId, payload.pin).Success?
            && FormatValue(payload.value, TagOf(datastreamCheck(deviceCheck.value.templateId, payload.pin).value.dataType)).Success?
            && RecordTimestamp(payload.timestamp, now).None? ==>
              r.0 == Failure(ApiError(RangeError, InvalidTime))
    ensures r.0.Success? ==>
              && r.0.value == IngestionResult(true, deviceId, payload.pin, RecordTimestamp(payload.timestamp, now).value, duration)
              && |r.1.telemetry| == |t.telemetry| + 1
              && r.1.telemetry[..|t.telemetry|] == t.telemetry
              && r.1.deviceState.Keys == t.deviceState.Keys + {StateKey(deviceCheck.value.id, datastreamCheck(deviceCheck.value.templateId, payload.pin).value.id)}
  {
    if deviceCheck.Failure? then (Failure(deviceCheck.error), t)
    else
      var device := deviceCheck.value;
      var dsCheck := datastreamCheck(device.templateId, payload.pin);
      if dsCheck.Failure? then (Failure(dsCheck.error), t)
      else
        var ds := dsCheck.value;
        var formatted := FormatValue(payload.value, TagOf(ds.dataType));
        if formatted.Failure? then (Failure(formatted.error), t)
        else
          var recordTs := RecordTimestamp(payload.timestamp, now);
          if recordTs.None? then (Failure(ApiError(RangeError, InvalidTime)), t)
          else if !commits then (Failure(ApiError(StorageFailure, "transaction failed")), t)
          else
            var t' := Transaction(t, device, ds, formatted.value.slot, recordTs.value, now);
            assert t'.telemetry[..|t.telemetry|] == t.telemetry;
            (Success(IngestionResult(true, deviceId, payload.pin, recordTs.value, duration)), t')
  }

  function TablesOf(db: Database): Tables
    reads db
  {
    Tables(db.telemetry, db.deviceState, db.devices)
  }

  /** ingest over the database, one write after another inside the
      transaction; when the transaction does not commit its writes are undone. */
  method IngestInto(db: Database, deviceId: string, payload: Payload,
                    deviceCheck: Result<DeviceRecord>,
                    datastreamCheck: (string, string) -> Result<DatastreamRecord>,
                    now: int, duration: int, commits: bool)
    returns (r: Result<IngestionResult>)
    modifies db
    ensures (r, TablesOf(db)) == Ingest(old(TablesOf(db)), deviceId, payload, deviceCheck, datastreamCheck, now, duration, commits)
    ensures db.organizations == old(db.organizations) && db.members == old(db.members)
    ensures db.templates == old(db.templates) && db.datastreams == old(db.datastreams)
  {
    ghost var before := TablesOf(db);
    if deviceCheck.Failure? {
      return Failure(deviceCheck.error);
    }
    var device := deviceCheck.value;
    var dsCheck := datastreamCheck(device.templateId, payload.pin);
    if dsCheck.Failure? {
      return Failure(dsCheck.error);
    }
    var ds := dsCheck.value;
    var formatted := FormatValue(payload.value, TagOf(ds.dataType));
    if formatted.Failure? {
      return Failure(formatted.error);
    }
    var slot := formatted.value.slot;
    var date := RecordTimestamp(payload.timestamp, now);
    if date.None? {
      // the insert cannot convert an Invalid Date, so nothing is written
      return Failure(ApiError(RangeError, InvalidTime));
    }
    var recordTs := date.value;
    var reportedAt := now;

    var telemetryBefore, stateBefore, devicesBefore := db.telemetry, db.deviceState, db.devices;
    WriteTransaction(db, device, ds, slot, recordTs, reportedAt);
    if !commits {
      db.telemetry, db.deviceState, db.devices := telemetryBefore, stateBefore, devicesBefore;
      return Failure(ApiError(StorageFailure, "transaction failed"));
    }
    r := Success(IngestionResult(true, deviceId, payload.pin, recordTs, duration));
    IngestCommitted(before, deviceId, payload, deviceCheck, datastreamCheck, now, duration);
  }

  /** The transaction's three writes, one after another. */
  method WriteTransaction(db: Database, device: DeviceRecord, ds: DatastreamRecord, slot: Slot,
                          recordTs: int, reportedAt: int)
    modifies db
    ensures TablesOf(db) == Transaction(old(TablesOf(db)), device, ds, slot, recordTs, reportedAt)
    ensures db.organizations == old(db.organizations) && db.members == old(db.members)
    ensures db.templates == old(db.templates) && db.datastreams == old(db.datastreams)
  {
    // insert telemetry
    db.telemetry := db.telemetry + [TelemetryRow(device.id, ds.id, Columns(slot), recordTs, reportedAt)];
    // upsert device_state on (deviceId, datastreamId)
    var key := StateKey(device.id, ds.id);
    var prev := if key in db.deviceState then Some(db.deviceState[key]) else None;
    db.deviceState := db.deviceState[key := Upsert(prev, slot, reportedAt)];
    // update the device's lastSeen and status
    if device.id in db.devices {
      db.devices := db.devices[device.id := db.devices[device.id].(status := Some(Online), lastSeen := Some(reportedAt))];
    }
  }

  /** The value of a committed ingest, for the method's final step. */
  lemma IngestCommitted(t: Tables, deviceId: string, payload: Payload,
                        deviceCheck: Result<DeviceRecord>,
                        datastreamCheck: (string, string) -> Result<DatastreamRecord>,
                        now: int, duration: int)
    requires deviceCheck.Success? && datastreamCheck(deviceCheck.value.templateId, payload.pin).Success?
    requires FormatValue(payload.value, TagOf(datastreamCheck(deviceCheck.value.templateId, payload.pin).value.dataType)).Success?
    requires RecordTimestamp(payload.timestamp, now).Some?
    ensures var ds := datastreamCheck(deviceCheck.value.templateId, payload.pin).value;
      var slot := FormatValue(payload.value, TagOf(ds.dataType)).value.slot;
      var recordTs := RecordTimestamp(payload.timestamp, now).value;
      Ingest(t, deviceId, payload, deviceCheck, datastreamCheck, now, duration, true) ==
        (Success(IngestionResult(true, deviceId, payload.pin, recordTs, duration)),
         Transaction(t, deviceCheck.value, ds, slot, recordTs, now))
  {
  }

  /** A truthy payload timestamp is taken in seconds and cut toward zero to
      whole milliseconds, so whole seconds give exactly a thousand times as
      many milliseconds; an absent one, 0 and NaN fall back to the ingestion
      time. The written row carries the record timestamp and the ingestion
      time as reportedAt. */
  lemma TimestampRule(t: Tables, deviceId: string, payload: Payload,
                      deviceCheck: Result<DeviceRecord>,
                      datastreamCheck: (string, string) -> Result<DatastreamRecord>,
                      now: int, duration: int)
    requires Ingest(t, deviceId, payload, deviceCheck, datastreamCheck, now, duration, true).0.Success?
    ensures var (r, t') := Ingest(t, deviceId, payload, deviceCheck, datastreamCheck, now, duration, true);
      && (!TimestampGiven(payload.timestamp) ==> r.value.timestamp == now)
      && (payload.timestamp == Some(Finite(0.0)) ==> r.value.timestamp == now)
      && (forall x :: payload.timestamp == Some(Finite(x)) && x != 0.0 ==>
            && (x >= 0.0 ==> r.value.timestamp as real <= x * 1000.0 < r.value.timestamp as real + 1.0)
            && (x < 0.0 ==> r.value.timestamp as real - 1.0 < x * 1000.0 <= r.value.timestamp as real))
      && (forall k: int :: k != 0 && payload.timestamp == Some(Finite(k as real)) ==> r.value.timestamp == k * 1000)
      && t'.telemetry[|t.telemetry|].timestamp == r.value.timestamp
      && t'.telemetry[|t.telemetry|].reportedAt == now
  {
  }

  /** A successful ingest writes the encoded value into the new history row
      and into the (deviceId, datastreamId) state row, leaves every other
      state row alone, and marks a known device ONLINE, last seen now. */
  lemma IngestEffects(t: Tables, deviceId: string, payload: Payload,
                      deviceCheck: Result<DeviceRecord>,
                      datastreamCheck: (string, string) -> Result<DatastreamRecord>,
                      now: int, duration: int)
    requires Ingest(t, deviceId, payload, deviceCheck, datastreamCheck, now, duration, true).0.Success?
    ensures
      var t' := Ingest(t, deviceId, payload, deviceCheck, datastreamCheck, now, duration, true).1;
      var dev := deviceCheck.value;
      var ds := datastreamCheck(dev.templateId, payload.pin).value;
      var slot := FormatValue(payload.value, TagOf(ds.dataType)).value.slot;
      var key := StateKey(dev.id, ds.id);
      && t'.telemetry[|t.telemetry|] == TelemetryRow(dev.id, ds.id, Columns(slot), RecordTimestamp(payload.timestamp, now).value, now)
      && key in t'.deviceState
      && SlotIn(t'.deviceState[key].values, KindOf(slot)) == Some(slot)
      && (forall k :: k in t.deviceState && k != key ==> k in t'.deviceState && t'.deviceState[k] == t.deviceState[k])
      && (dev.id in t.devices ==> t'.devices[dev.id].status == Some(Online) && t'.devices[dev.id].lastSeen == Some(now))
      && (forall d :: d in t.devices && d != dev.id ==> d in t'.devices && t'.devices[d] == t.devices[d])
      && t'.devices.Keys == t.devices.Keys
  {
  }

  /** ingest is not idempotent: the same payload ingested twice at the same
      time leaves two new history rows but the same state table as one ingest. */
  lemma {:induction false} TwiceGivesTwoRowsOneState(t: Tables, deviceId: string, payload: Payload,
                      deviceCheck: Result<DeviceRecord>,
                      datastreamCheck: (string, string) -> Result<DatastreamRecord>,
                      now: int, duration: int)
    requires Ingest(t, deviceId, payload, deviceCheck, datastreamCheck, now, duration, true).0.Success?
    ensures
      var once := Ingest(t, deviceId, payload, deviceCheck, datastreamCheck, now, duration, true).1;
      var twice := Ingest(once, deviceId, payload, deviceCheck, datastreamCheck, now, duration, true).1;
      && |twice.telemetry| == |t.telemetry| + 2
      && twice.telemetry[|t.telemetry|] == twice.telemetry[|t.telemetry| + 1]
      && twice.deviceState == once.deviceState
  {
    var once := Ingest(t, deviceId, payload, deviceCheck, datastreamCheck, now, duration, true).1;
    var dev := deviceCheck.value;
    var ds := datastreamCheck(dev.templateId, payload.pin).value;
    var slot := FormatValue(payload.value, TagOf(ds.dataType)).value.slot;
    var key := StateKey(dev.id, ds.id);
    IngestEffects(t, deviceId, payload, deviceCheck, datastreamCheck, now, duration);
    var row := once.deviceState[key];
    assert Upsert(Some(row), slot, now) == row by {
      SetSlotTwice(Lookup(t.deviceState, key), slot, now);
    }
    var twice := Ingest(once, deviceId, payload, deviceCheck, datastreamCheck, now, duration, true).1;
    assert twice.deviceState == once.deviceState[key := row];
  }

  /** Writing the same slot at the same time twice gives the row of one write. */
  lemma SetSlotTwice(prev: Option<StateRow>, slot: Slot, at: int)
    ensures Upsert(Some(Upsert(prev, slot, at)), slot, at) == Upsert(prev, slot, at)
  {
  }
}

=== FILE: mqtt_worker.dfy ===
/** The MQTT worker: devices publish on `artery/device/{deviceId}/{type}`;
    the worker splits the topic, dispatches telemetry to ingestion and, once
    ingestion has returned, broadcasts the value to the realtime hub. Commands
    go back to a device on `artery/device/{deviceId}/command`.

    The broker connection is a value (`Broker`); connecting, subscribing,
    reconnect events and logging are not modelled. The body of an MQTT
    message after JSON.parse is a `Body`. */
module MqttWorker {
  import opened Common
  import opened Codec
  import opened Store
  import opened Ingestion
  import opened RealtimeHub

  // ---- topics ----

  /** The parts joined with the separator between them (the inverse of Split). */
  function Join(parts: seq<string>, sep: char): string
    requires |parts| >= 1
  {
    if |parts| == 1 then parts[0] else parts[0] + [sep] + Join(parts[1..], sep)
  }

  /** String.prototype.split with a one-character separator: never empty, no
      part holds the separator, and joining the parts gives the string back. */
  function Split(s: string, sep: char): (parts: seq<string>)
    ensures |parts| >= 1
    ensures forall i :: 0 <= i < |parts| ==> sep !in parts[i]
    ensures Join(parts, sep) == s
  {
    if s == [] then [""]
    else
      var rest := Split(s[1..], sep);
      if s[0] == sep then
        assert s == [sep] + s[1..];
        [""] + rest
      else
        var parts := [[s[0]] + rest[0]] + rest[1..];
        assert parts[1..] == rest[1..];
        assert s == [s[0]] + s[1..];
        parts
  }

  lemma {:induction false} SplitPrefix(p: string, x: string, sep: char)
    requires sep !in p
    ensures Split(p + x, sep) == [p + Split(x, sep)[0]] + Split(x, sep)[1..]
  {
    if p != [] {
      var sx := Split(x, sep);
      assert p[0] in p;
      SplitPrefix(p[1..], x, sep);
      assert (p + x)[0] == p[0] && (p + x)[1..] == p[1..] + x;
      var rest := Split(p[1..] + x, sep);
      assert rest == [p[1..] + sx[0]] + sx[1..];
      assert rest[0] == p[1..] + sx[0] && rest[1..] == sx[1..];
      assert Split(p + x, sep) == [[p[0]] + rest[0]] + rest[1..];
      assert [p[0]] + (p[1..] + sx[0]) == p + sx[0] by {
        assert p == [p[0]] + p[1..];
      }
      assert [p[0]] + rest[0] == p + sx[0];
    } else {
      var sx := Split(x, sep);
      assert p + x == x && p + sx[0] == sx[0];
      assert sx == [sx[0]] + sx[1..];
    }
  }

  /** Splitting a join of separator-free parts gives the parts back. */
  lemma SplitAfterSep(tail: string, sep: char)
    ensures Split([sep] + tail, sep) == [""] + Split(tail, sep)
  {
    assert ([sep] + tail)[0] == sep && ([sep] + tail)[1..] == tail;
  }

  /** Splitting a join of separator-free parts gives the parts back. */
  lemma {:induction false} SplitJoin(parts: seq<string>, sep: char)
    requires |parts| >= 1
    requires forall i :: 0 <= i < |parts| ==> sep !in parts[i]
    ensures Split(Join(parts, sep), sep) == parts
  {
    if |parts| == 1 {
      SplitPrefix(parts[0], "", sep);
      assert parts[0] + "" == parts[0];
    } else {
      var head, rest := parts[0], parts[1..];
      var tail := Join(rest, sep);
      assert Join(parts, sep) == head + ([sep] + tail);
      SplitJoin(rest, sep);
      SplitAfterSep(tail, sep);
      var after := Split([sep] + tail, sep);
      assert after == [""] + rest;
      SplitPrefix(head, [sep] + tail, sep);
      assert after[0] == "" && after[1..] == rest;
      assert head + "" == head;
      assert parts == [head] + rest;
    }
  }

  /** Where a message goes. */
  datatype Route = ToTelemetry(deviceId: string) | ToStatus(deviceId: string) | UnknownType(deviceId: string, messageType: string) | InvalidTopic

  /** handleMessage's topic check and dispatch: exactly four parts, the first
      two "artery" and "device"; then the message type picks the handler. */
  function ParseTopic(topic: string): (r: Route)
    ensures r != InvalidTopic <==>
      var parts := Split(topic, '/');
      |parts| == 4 && parts[0] == "artery" && parts[1] == "device"
  {
    var parts := Split(topic, '/');
    if |parts| != 4 || parts[0] != "artery" || parts[1] != "device" then InvalidTopic
    else if parts[3] == "telemetry" then ToTelemetry(parts[2])
    else if parts[3] == "status" then ToStatus(parts[2])
    else UnknownType(parts[2], parts[3])
  }

  function DeviceTopic(deviceId: string, messageType: string): string
  {
    "artery/device/" + deviceId + "/" + messageType
  }

  /** publishToDevice's topic. */
  function CommandTopic(deviceId: string): string
  {
    DeviceTopic(deviceId, "command")
  }

  lemma DeviceTopicIsJoin(deviceId: string, messageType: string)
    ensures DeviceTopic(deviceId, messageType) == Join(["artery", "device", deviceId, messageType], '/')
  {
    var parts := ["artery", "device", deviceId, messageType];
    assert parts[1..][1..][1..] == [messageType];
    assert parts[1..][1..] == [deviceId, messageType];
    assert parts[1..] == ["device", deviceId, messageType];
    assert Join(parts[1..][1..][1..], '/') == messageType;
    assert Join(parts[1..][1..], '/') == deviceId + ['/'] + messageType;
    assert Join(parts[1..], '/') == "device" + ['/'] + (deviceId + ['/'] + messageType);
    assert Join(parts, '/') == "artery" + ['/'] + ("device" + ['/'] + (deviceId + ['/'] + messageType));
    assert "artery/device/" == "artery" + ['/'] + "device" + ['/'];
  }

  /** A topic built for a device id and a type without '/' routes back to
      that device and type. */
  lemma TopicRoundTrip(deviceId: string, messageType: string)
    requires '/' !in deviceId && '/' !in messageType
    ensures ParseTopic(DeviceTopic(deviceId, messageType)) ==
      if messageType == "telemetry" then ToTelemetry(deviceId)
      else if messageType == "status" then ToStatus(deviceId)
      else UnknownType(deviceId, messageType)
  {
    DeviceTopicIsJoin(deviceId, messageType);
    SplitJoin(["artery", "device", deviceId, messageType], '/');
  }

  /** Every accepted topic is such a topic. */
  lemma AcceptedTopicShape(topic: string)
    requires ParseTopic(topic) != InvalidTopic
    ensures ParseTopic(topic).ToTelemetry? ==> topic == DeviceTopic(ParseTopic(topic).deviceId, "telemetry")
    ensures ParseTopic(topic).ToStatus? ==> topic == DeviceTopic(ParseTopic(topic).deviceId, "status")
    ensures ParseTopic(topic).UnknownType? ==> topic == DeviceTopic(ParseTopic(topic).deviceId, ParseTopic(topic).messageType)
  {
    var parts := Split(topic, '/');
    DeviceTopicIsJoin(parts[2], parts[3]);
    assert parts == ["artery", "device", parts[2], parts[3]];
  }

  /** The worker does not act on the command topics it publishes to. */
  lemma CommandTopicIgnored(deviceId: string)
    requires '/' !in deviceId
    ensures ParseTopic(CommandTopic(deviceId)) == UnknownType(deviceId, "command")
  {
    TopicRoundTrip(deviceId, "command");
  }

  // ---- handling a message ----

  /** A message body after JSON.parse; a telemetry body carries a payload. */
  datatype Body = Malformed | Json(payload: Payload)

  datatype Handled = Dropped | Ignored | StatusLogged | TelemetryFailed | TelemetryBroadcast

  /** The effect of one message on the ingestion tables and the hub.
      `broadcastAt` is the clock read when the broadcast event is built. */
  function HandleSpec(topic: string, body: Body, t: Tables, hub: HubState,
                      deviceCheck: Result<DeviceRecord>,
                      datastreamCheck: (string, string) -> Result<DatastreamRecord>,
                      now: int, duration: int, commits: bool, broadcastAt: int, env: Sockets): (Handled, Tables, HubState)
  {
    match ParseTopic(topic)
    case InvalidTopic => (Dropped, t, hub)
    case UnknownType(_, _) => (Ignored, t, hub)
    case ToStatus(_) => (StatusLogged, t, hub)
    case ToTelemetry(deviceId) =>
      match body
      case Malformed => (TelemetryFailed, t, hub)
      case Json(p) =>
        var (res, t') := Ingest(t, deviceId, p, deviceCheck, datastreamCheck, now, duration, commits);
        if res.Failure? then (TelemetryFailed, t', hub)
        else (TelemetryBroadcast, t', AfterBroadcast(hub, TelemetryData(deviceId, p.pin, broadcastAt, p.value), env))
  }

  /** Only a telemetry topic changes anything: an invalid topic, an unknown
      type and a status message (whose database update is not written) leave
      the tables and the hub as they were. */
  lemma OnlyTelemetryChangesState(topic: string, body: Body, t: Tables, hub: HubState,
                                  deviceCheck: Result<DeviceRecord>,
                                  datastreamCheck: (string, string) -> Result<DatastreamRecord>,
                                  now: int, duration: int, commits: bool, broadcastAt: int, env: Sockets)
    requires !ParseTopic(topic).ToTelemetry?
    ensures var (_, t', hub') := HandleSpec(topic, body, t, hub, deviceCheck, datastreamCheck, now, duration, commits, broadcastAt, env);
      t' == t && hub' == hub
  {
  }

  /** The broadcast happens after ingestion and only when it succeeded: a
      failed ingest (or a body that does not parse) writes nothing and
      broadcasts nothing; a successful one broadcasts an event whose
      datastreamId is the payload's pin, with the broadcast time and the raw
      value, to the device's subscribers. */
  lemma BroadcastAfterIngest(deviceId: string, body: Body, t: Tables, hub: HubState,
                             deviceCheck: Result<DeviceRecord>,
                             datastreamCheck: (string, string) -> Result<DatastreamRecord>,
                             now: int, duration: int, commits: bool, broadcastAt: int, env: Sockets)
    requires '/' !in deviceId
    requires Inv(hub)
    ensures var (h, t', hub') := HandleSpec(DeviceTopic(deviceId, "telemetry"), body, t, hub, deviceCheck, datastreamCheck, now, duration, commits, broadcastAt, env);
      && (h == TelemetryBroadcast <==> body.Json? && Ingest(t, deviceId, body.payload, deviceCheck, datastreamCheck, now, duration, commits).0.Success?)
      && (h != TelemetryBroadcast ==> t' == t && hub' == hub)
      && (h == TelemetryBroadcast ==>
            t' == Ingest(t, deviceId, body.payload, deviceCheck, datastreamCheck, now, duration, commits).1
            && (StrKey(deviceId) in hub.subscriptions ==>
                  hub'.outbox == hub.outbox + Pairs(Drop(hub.subscriptions[StrKey(deviceId)], env.failing),
                                                    TelemetryMsg(deviceId, body.payload.pin, broadcastAt, body.payload.value)))
            && (StrKey(deviceId) !in hub.subscriptions ==> hub' == hub))
  {
    TopicRoundTrip(deviceId, "telemetry");
    if body.Json? && Ingest(t, deviceId, body.payload, deviceCheck, datastreamCheck, now, duration, commits).0.Success? {
      var data := TelemetryData(deviceId, body.payload.pin, broadcastAt, body.payload.value);
      if StrKey(deviceId) in hub.subscriptions {
        BroadcastFanout(hub, data, env);
      }
    }
  }

  // ---- the worker object ----

  /** The broker connection (mqtt.connect's client). */
  datatype Broker = Broker(brokerUrl: string)

  /** A command as published: its pin and value. */
  datatype Command = Command(pin: string, value: JsValue)

  class Worker {
    var client: Option<Broker>
    /** The commands the broker acknowledged, with their topics. */
    var published: seq<(string, Command)>

    constructor ()
      ensures client == None && published == []
    {
      client := None;
      published := [];
    }

    method Start(brokerUrl: string)
      modifies this
      ensures client == Some(Broker(brokerUrl)) && published == old(published)
    {
      client := Some(Broker(brokerUrl));
    }

    method Stop()
      modifies this
      ensures client == None && published == old(published)
    {
      if client.Some? {
        client := None;
      }
    }

    /** publishToDevice: fails without a client; otherwise publishes
        {pin, value} on the device's command topic, and the promise settles
        with the broker's answer (`acknowledged`). */
    method PublishToDevice(deviceId: string, pin: string, value: JsValue, acknowledged: bool) returns (r: Outcome)
      modifies this
      ensures client == old(client)
      ensures old(client).None? ==> r == Fail(ApiError(InternalServerError, "MQTT client not connected")) && published == old(published)
      ensures old(client).Some? && acknowledged ==> r == Pass && published == old(published) + [(CommandTopic(deviceId), Command(pin, value))]
      ensures old(client).Some? && !acknowledged ==> r.Fail? && published == old(published)
    {
      if client.None? {
        return Fail(ApiError(InternalServerError, "MQTT client not connected"));
      }
      var topic := "artery/device/" + deviceId + "/command";
      assert topic == CommandTopic(deviceId);
      if acknowledged {
        published := published + [(topic, Command(pin, value))];
        r := Pass;
      } else {
        r := Fail(ApiError(InternalServerError, "publish failed"));
      }
    }

    /** handleMessage and its handlers, over the database and the hub. */
    method HandleMessage(topic: string, body: Body, db: Database, hub: WebSocketService,
                         deviceCheck: Result<DeviceRecord>,
                         datastreamCheck: (string, string) -> Result<DatastreamRecord>,
                         now: int, duration: int, commits: bool, broadcastAt: int, env: Sockets)
      returns (h: Handled)
      requires hub.Valid()
      modifies db, hub
      ensures hub.Valid()
      ensures (h, TablesOf(db), hub.State()) ==
        HandleSpec(topic, body, old(TablesOf(db)), old(hub.State()), deviceCheck, datastreamCheck, now, duration, commits, broadcastAt, env)
      ensures db.organizations == old(db.organizations) && db.members == old(db.members)
      ensures db.templates == old(db.templates) && db.datastreams == old(db.datastreams)
    {
      ghost var t0, hub0 := TablesOf(db), hub.State();
      var parts := Split(topic, '/');
      if |parts| != 4 || parts[0] != "artery" || parts[1] != "device" {
        return Dropped;
      }
      var deviceId, messageType := parts[2], parts[3];
      if messageType == "telemetry" {
        assert ParseTopic(topic) == ToTelemetry(deviceId);
        if body.Malformed? {
          return TelemetryFailed;
        }
        var payload := body.payload;
        var result := IngestInto(db, deviceId, payload, deviceCheck, datastreamCheck, now, duration, commits);
        if result.Failure? {
          return TelemetryFailed;
        }
        hub.BroadcastTelemetry(TelemetryData(deviceId, payload.pin, broadcastAt, payload.value), env);
        assert hub.State() == AfterBroadcast(hub0, TelemetryData(deviceId, payload.pin, broadcastAt, payload.value), env);
        h := TelemetryBroadcast;
      } else if messageType == "status" {
        h := StatusLogged;
      } else {
        h := Ignored;
      }
    }
  }
}

=== FILE: organization.dfy ===
/** organizationService and the membership check every other service uses:
    who may read, change or delete an organization, and the two inserts of
    creating one. */
module OrganizationService {
  import opened Common
  import opened Store

  const NotMemberMessage := "Organization not found or you're not a member."
  const NoPermissionMessage := "You do not have permission to perform this action."

  /** assertMemberRole: FORBIDDEN without a membership row for the user in the
      organization, FORBIDDEN again when the member's role is not one of
      `required`; otherwise the member's role. */
  function AssertMemberRole(members: map<MemberKey, Role>, userId: string, organizationId: string,
                            required: seq<Role>): (r: Result<Role>)
    ensures var key := MemberKey(organizationId, userId);
      && (r.Success? <==> key in members && members[key] in required)
      && (r.Success? ==> r.value == members[key])
      && (r.Failure? ==> r.error.code == Forbidden)
      && (key !in members ==> r.error.message == NotMemberMessage)
      && (key in members && members[key] !in required ==> r.error.message == NoPermissionMessage)
  {
    var key := MemberKey(organizationId, userId);
    if key !in members then Failure(ApiError(Forbidden, NotMemberMessage))
    else if members[key] !in required then Failure(ApiError(Forbidden, NoPermissionMessage))
    else Success(members[key])
  }

  /** Widening the accepted roles never turns an allowed call into a refused
      one, and every member passes the check for all roles. */
  lemma RolesWiden(members: map<MemberKey, Role>, userId: string, organizationId: string,
                   required: seq<Role>, wider: seq<Role>)
    requires forall x :: x in required ==> x in wider
    ensures AssertMemberRole(members, userId, organizationId, required).Success? ==>
              AssertMemberRole(members, userId, organizationId, wider).Success?
    ensures AssertMemberRole(members, userId, organizationId, AllRoles).Success? <==>
              MemberKey(organizationId, userId) in members
  {
    var key := MemberKey(organizationId, userId);
    if key in members {
      match members[key]
      case Owner => assert AllRoles[0] == Owner;
      case Admin => assert AllRoles[1] == Admin;
      case Member => assert AllRoles[2] == Member;
    }
  }

  /** The role gates of this service: update for owners and admins, delete
      for owners only. */
  lemma RoleGates(members: map<MemberKey, Role>, userId: string, organizationId: string)
    requires MemberKey(organizationId, userId) in members
    ensures var role := members[MemberKey(organizationId, userId)];
      && (AssertMemberRole(members, userId, organizationId, OwnerOrAdmin).Success? <==> role != Member)
      && (AssertMemberRole(members, userId, organizationId, OwnerOnly).Success? <==> role == Owner)
  {
  }

  /** The create schema: name and slug of at least five characters. */
  datatype OrganizationInput = OrganizationInput(
    name: string,
    slug: string,
    description: Option<string>,
    logo: Option<string>)

  function ValidateInput(data: OrganizationInput): (r: Outcome)
    ensures r.Pass? <==> |data.name| >= 5 && |data.slug| >= 5
    ensures r.Fail? ==> r.error.code == BadRequest
  {
    if |data.name| < 5 then Fail(ApiError(BadRequest, "Organization name is required"))
    else if |data.slug| < 5 then Fail(ApiError(BadRequest, "Slug is required"))
    else Pass
  }

  /** getAll: the user's memberships, each with its role and organization. */
  function GetAll(organizations: map<string, Organization>, members: map<MemberKey, Role>,
                  userId: string): (r: map<string, (Role, Organization)>)
    ensures forall o :: o in r <==> MemberKey(o, userId) in members && o in organizations
    ensures forall o :: o in r ==> r[o] == (members[MemberKey(o, userId)], organizations[o])
  {
    map o | o in organizations && MemberKey(o, userId) in members :: (members[MemberKey(o, userId)], organizations[o])
  }

  /** getById: any member reads the organization; anyone else gets FORBIDDEN,
      whether or not the organization exists. */
  function GetById(organizations: map<string, Organization>, members: map<MemberKey, Role>,
                   userId: string, organizationId: string): (r: Result<Organization>)
    ensures r.Success? <==> MemberKey(organizationId, userId) in members && organizationId in organizations
    ensures r.Success? ==> r.value == organizations[organizationId]
    ensures r.Failure? ==> r.error == ApiError(Forbidden, NotMemberMessage)
  {
    if MemberKey(organizationId, userId) in members && organizationId in organizations
    then Success(organizations[organizationId])
    else Failure(ApiError(Forbidden, NotMemberMessage))
  }

  /** getById reads exactly what getAll lists. */
  lemma GetByIdAgreesWithGetAll(organizations: map<string, Organization>, members: map<MemberKey, Role>,
                                userId: string, organizationId: string)
    ensures GetById(organizations, members, userId, organizationId).Success? <==>
              organizationId in GetAll(organizations, members, userId)
    ensures organizationId in GetAll(organizations, members, userId) ==>
              GetAll(organizations, members, userId)[organizationId].1 == GetById(organizations, members, userId, organizationId).value
  {
  }

  // ---- the writes ----

  /** The two tables this service writes. */
  datatype OrgTables = OrgTables(organizations: map<string, Organization>, members: map<MemberKey, Role>)

  function OrgTablesOf(db: Database): OrgTables
    reads db
  {
    OrgTables(db.organizations, db.members)
  }

  function SlugTaken(organizations: map<string, Organization>, slug: string, except: Option<string>): (b: bool)
    ensures b <==> exists o :: o in organizations && organizations[o].slug == slug && except != Some(o)
  {
    exists o :: o in organizations && organizations[o].slug == slug && except != Some(o)
  }

  const ConstraintMessage := "duplicate key value violates unique constraint"

  /** create: in one transaction, the organization owned by the user and the
      user's OWNER membership. `newId` is the identifier the schema's default
      generates; a key or slug already taken makes the database refuse the
      transaction. */
  function Create(t: OrgTables, userId: string, data: OrganizationInput, newId: string): (r: (Result<Organization>, OrgTables))
    ensures r.0.Failure? ==> r.1 == t && r.0.error.code == ConstraintViolation
    ensures r.0.Failure? <==> newId in t.organizations || SlugTaken(t.organizations, data.slug, None)
                               || MemberKey(newId, userId) in t.members
    ensures r.0.Success? ==>
              && r.0.value == Organization(data.name, data.slug, data.description, data.logo, userId)
              && r.1.organizations == t.organizations[newId := r.0.value]
              && r.1.members == t.members[MemberKey(newId, userId) := Owner]
  {
    if newId in t.organizations || SlugTaken(t.organizations, data.slug, None) || MemberKey(newId, userId) in t.members
    then (Failure(ApiError(ConstraintViolation, ConstraintMessage)), t)
    else
      var row := Organization(data.name, data.slug, data.description, data.logo, userId);
      (Success(row), OrgTables(t.organizations[newId := row], t.members[MemberKey(newId, userId) := Owner]))
  }

  /** The creator owns what they created: they pass every role gate of the
      new organization, and the slug constraint still holds. */
  lemma CreatorIsOwner(t: OrgTables, userId: string, data: OrganizationInput, newId: string)
    requires SlugsUnique(t.organizations)
    requires Create(t, userId, data, newId).0.Success?
    ensures var t' := Create(t, userId, data, newId).1;
      && AssertMemberRole(t'.members, userId, newId, OwnerOnly) == Success(Owner)
      && GetById(t'.organizations, t'.members, userId, newId) == Success(Create(t, userId, data, newId).0.value)
      && SlugsUnique(t'.organizations)
  {
  }

  /** update: owners and admins only; then name and slug are replaced, and
      description and logo when given. No row to update answers None. */
  function Update(t: OrgTables, userId: string, organizationId: string, data: OrganizationInput): (r: (Result<Option<Organization>>, OrgTables))
    ensures r.0.Failure? ==> r.1 == t
    ensures AssertMemberRole(t.members, userId, organizationId, OwnerOrAdmin).Failure? ==>
              r.0 == Failure(AssertMemberRole(t.members, userId, organizationId, OwnerOrAdmin).error)
    ensures r.0.Success? <==> AssertMemberRole(t.members, userId, organizationId, OwnerOrAdmin).Success?
                               && !(organizationId in t.organizations && SlugTaken(t.organizations, data.slug, Some(organizationId)))
    ensures r.0 == Success(None) <==> AssertMemberRole(t.members, userId, organizationId, OwnerOrAdmin).Success?
                                       && organizationId !in t.organizations
    ensures AssertMemberRole(t.members, userId, organizationId, OwnerOrAdmin).Success? && organizationId in t.organizations
              && SlugTaken(t.organizations, data.slug, Some(organizationId)) ==>
              r.0 == Failure(ApiError(ConstraintViolation, ConstraintMessage))
    ensures r.1.members == t.members && r.1.organizations.Keys == t.organizations.Keys
    ensures forall o :: o in t.organizations && o != organizationId ==> r.1.organizations[o] == t.organizations[o]
    ensures r.0.Success? && r.0.value.Some? ==>
              && organizationId in t.organizations
              && r.1.organizations[organizationId] == r.0.value.value
              && r.0.value.value.name == data.name && r.0.value.value.slug == data.slug
              && r.0.value.value.ownerId == t.organizations[organizationId].ownerId
              && r.0.value.value.description == (if data.description.Some? then data.description else t.organizations[organizationId].description)
              && r.0.value.value.logo == (if data.logo.Some? then data.logo else t.organizations[organizationId].logo)
  {
    var gate := AssertMemberRole(t.members, userId, organizationId, OwnerOrAdmin);
    if gate.Failure? then (Failure(gate.error), t)
    else if organizationId !in t.organizations then (Success(None), t)
    else if SlugTaken(t.organizations, data.slug, Some(organizationId)) then
      (Failure(ApiError(ConstraintViolation, ConstraintMessage)), t)
    else
      var old_ := t.organizations[organizationId];
      var row := Organization(data.name, data.slug,
                              if data.description.Some? then data.description else old_.description,
                              if data.logo.Some? then data.logo else old_.logo,
                              old_.ownerId);
      (Success(Some(row)), OrgTables(t.organizations[organizationId := row], t.members))
  }

  /** An update keeps slugs unique. */
  lemma UpdateKeepsSlugsUnique(t: OrgTables, userId: string, organizationId: string, data: OrganizationInput)
    requires SlugsUnique(t.organizations)
    ensures SlugsUnique(Update(t, userId, organizationId, data).1.organizations)
  {
  }

  const DeleteFailedMessage := "Failed to delete"

  /** delete: owners only; the row goes and, by the schema's cascade, every
      membership of it; no row to delete is an internal error. */
  function Delete(t: OrgTables, userId: string, organizationId: string): (r: (Result<Organization>, OrgTables))
    ensures r.0.Failure? ==> r.1 == t
    ensures r.0.Success? <==> AssertMemberRole(t.members, userId, organizationId, OwnerOnly).Success? && organizationId in t.organizations
    ensures AssertMemberRole(t.members, userId, organizationId, OwnerOnly).Failure? ==>
              r.0 == Failure(AssertMemberRole(t.members, userId, organizationId, OwnerOnly).error)
    ensures AssertMemberRole(t.members, userId, organizationId, OwnerOnly).Success? && organizationId !in t.organizations ==>
              r.0 == Failure(ApiError(InternalServerError, DeleteFailedMessage))
    ensures r.0.Success? ==>
              && r.0.value == t.organizations[organizationId]
              && r.1.organizations == t.organizations - {organizationId}
              && (forall k :: k in r.1.members <==> k in t.members && k.organizationId != organizationId)
              && (forall k :: k in r.1.members ==> r.1.members[k] == t.members[k])
  {
    var gate := AssertMemberRole(t.members, userId, organizationId, OwnerOnly);
    if gate.Failure? then (Failure(gate.error), t)
    else if organizationId !in t.organizations then (Failure(ApiError(InternalServerError, DeleteFailedMessage)), t)
    else
      (Success(t.organizations[organizationId]), OrgTables(t.organizations - {organizationId}, KeepMembers(t.members, {organizationId})))
  }

  /** After a delete nobody is a member any more, so every later check on
      that organization is FORBIDDEN. */
  lemma DeletedIsForbidden(t: OrgTables, userId: string, organizationId: string, anyone: string, required: seq<Role>)
    requires Delete(t, userId, organizationId).0.Success?
    ensures AssertMemberRole(Delete(t, userId, organizationId).1.members, anyone, organizationId, required)
              == Failure(ApiError(Forbidden, NotMemberMessage))
  {
  }

  /** The service calls over the database. */
  method CreateIn(db: Database, userId: string, data: OrganizationInput, newId: string) returns (r: Result<Organization>)
    modifies db
    ensures (r, OrgTablesOf(db)) == Create(old(OrgTablesOf(db)), userId, data, newId)
    ensures db.templates == old(db.templates) && db.datastreams == old(db.datastreams) && db.devices == old(db.devices)
    ensures db.telemetry == old(db.telemetry) && db.deviceState == old(db.deviceState)
  {
    if newId in db.organizations || SlugTaken(db.organizations, data.slug, None) || MemberKey(newId, userId) in db.members {
      return Failure(ApiError(ConstraintViolation, ConstraintMessage));
    }
    var row := Organization(data.name, data.slug, data.description, data.logo, userId);
    db.organizations := db.organizations[newId := row];
    db.members := db.members[MemberKey(newId, userId) := Owner];
    r := Success(row);
  }

  method UpdateIn(db: Database, userId: string, organizationId: string, data: OrganizationInput)
    returns (r: Result<Option<Organization>>)
    modifies db
    ensures (r, OrgTablesOf(db)) == Update(old(OrgTablesOf(db)), userId, organizationId, data)
    ensures db.templates == old(db.templates) && db.datastreams == old(db.datastreams) && db.devices == old(db.devices)
    ensures db.telemetry == old(db.telemetry) && db.deviceState == old(db.deviceState)
  {
    var gate := AssertMemberRole(db.members, userId, organizationId, OwnerOrAdmin);
    if gate.Failure? {
      return Failure(gate.error);
    }
    if organizationId !in db.organizations {
      return Success(None);
    }
    if SlugTaken(db.organizations, data.slug, Some(organizationId)) {
      return Failure(ApiError(ConstraintViolation, ConstraintMessage));
    }
    var current := db.organizations[organizationId];
    var row := Organization(data.name, data.slug,
                            if data.description.Some? then data.description else current.description,
                            if data.logo.Some? then data.logo else current.logo,
                            current.ownerId);
    db.organizations := db.organizations[organizationId := row];
    r := Success(Some(row));
  }

  /** The delete, with the schema's cascades: the organization's members,
      templates and devices go, and with them the templates' datastreams and
      every telemetry and device_state row of a removed device or datastream. */
  method DeleteIn(db: Database, userId: string, organizationId: string) returns (r: Result<Organization>)
    modifies db
    ensures (r, OrgTablesOf(db)) == Delete(old(OrgTablesOf(db)), userId, organizationId)
    ensures r.Success? ==> db.Tables() == Cascade(old(db.Tables()), {organizationId}, {}, {})
    ensures r.Failure? ==> db.Tables() == old(db.Tables())
    ensures ReferencesIntact(old(db.Tables())) ==> ReferencesIntact(db.Tables())
  {
    var gate := AssertMemberRole(db.members, userId, organizationId, OwnerOnly);
    if gate.Failure? {
      return Failure(gate.error);
    }
    if organizationId !in db.organizations {
      return Failure(ApiError(InternalServerError, DeleteFailedMessage));
    }
    r := Success(db.organizations[organizationId]);
    var before := db.Tables();
    CascadeKeepsReferences(before, {organizationId}, {}, {});
    CascadeRemovesParents(before, {organizationId}, {}, {});
    db.SetTables(Cascade(before, {organizationId}, {}, {}));
  }
}

=== FILE: realtime_hub.dfy ===
/** The realtime hub (WebSocketService): the set of open connections, and for
    every device the connections subscribed to it. A JavaScript Set keeps
    insertion order, so a device's subscribers are a sequence without
    duplicates. What the sockets do is an input: `Sockets.open` are the
    connections whose readyState is OPEN, `Sockets.failing` those whose send
    throws. Messages handed to a successful send are appended to `outbox`;
    JSON serialization is not modelled, so the outbox holds the message itself
    (one message value per broadcast, as the source stringifies it once). */
module RealtimeHub {
  import opened Common
  import opened Codec

  datatype Conn = Conn(id: nat)

  datatype Sockets = Sockets(open: set<Conn>, failing: set<Conn>)

  /** A telemetry event; the timestamp is in epoch milliseconds. */
  datatype TelemetryData = TelemetryData(deviceId: string, datastreamId: string, timestamp: int, value: JsValue)

  /** The messages the hub sends (types "telemetry", "subscription", "error"). */
  datatype OutMsg =
    | TelemetryMsg(deviceId: string, datastreamId: string, timestamp: int, value: JsValue)
    | SubscriptionMsg(message: string)
    | ErrorMsg(message: string)

  /** An inbound text message after JSON.parse: not JSON at all, the JSON
      literal null (reading `.type` of it throws), or a value whose `type`
      field (None when absent or not a string, which `=== "subscribe"` never
      matches) and `deviceId` field (None when absent) are read. */
  datatype Inbound = Unparseable | ParsedNull | Parsed(msgType: Option<string>, deviceId: Option<Json>)

  /** A key of the deviceSubscriptions Map. A Map compares keys by
      SameValueZero: strings, numbers and booleans by value, null as itself
      and objects by identity, so the number 42 and the string "42" are two
      keys. */
  datatype DeviceKey = StrKey(s: string) | NumKey(n: Num) | BoolKey(b: bool) | NullKey | ObjKey(ref: nat)

  function KeyOf(v: Json): (k: DeviceKey)
    ensures k.StrKey? <==> v.JText?
    ensures forall d :: k == StrKey(d) <==> v == JText(d)
  {
    match v
    case JText(s) => StrKey(s)
    case JNum(n, _) => NumKey(n)
    case JBool(b) => BoolKey(b)
    case JNull => NullKey
    case JObject(r, _) => ObjKey(r)
  }

  datatype HubState = HubState(
    connections: set<Conn>,
    subscriptions: map<DeviceKey, seq<Conn>>,
    outbox: seq<(Conn, OutMsg)>)

  datatype Stats = Stats(totalConnections: nat, deviceSubscriptions: map<DeviceKey, nat>)

  ghost predicate NoDup(s: seq<Conn>)
  {
    forall i, j :: 0 <= i < j < |s| ==> s[i] != s[j]
  }

  /** No stored subscriber set is empty, and none holds a connection twice. */
  ghost predicate WellFormed(m: map<DeviceKey, seq<Conn>>)
  {
    forall d :: d in m ==> m[d] != [] && NoDup(m[d])
  }

  ghost predicate Inv(s: HubState)
  {
    WellFormed(s.subscriptions)
  }

  /** The subscribers that are not in `gone`, in their order. */
  function Drop(s: seq<Conn>, gone: set<Conn>): (r: seq<Conn>)
    ensures forall x :: x in r <==> x in s && x !in gone
    ensures |r| <= |s|
  {
    if s == [] then []
    else Drop(s[..|s| - 1], gone) + (if s[|s| - 1] in gone then [] else [s[|s| - 1]])
  }

  lemma DropSnoc(s: seq<Conn>, c: Conn, gone: set<Conn>)
    ensures Drop(s + [c], gone) == Drop(s, gone) + (if c in gone then [] else [c])
  {
    assert (s + [c])[..|s|] == s;
  }

  lemma {:induction false} DropNoDup(s: seq<Conn>, gone: set<Conn>)
    requires NoDup(s)
    ensures NoDup(Drop(s, gone))
  {
    if s != [] {
      DropNoDup(s[..|s| - 1], gone);
    }
  }

  lemma {:induction false} DropNothing(s: seq<Conn>, gone: set<Conn>)
    requires forall x :: x in s ==> x !in gone
    ensures Drop(s, gone) == s
  {
    if s != [] {
      DropNothing(s[..|s| - 1], gone);
      SnocSplit(s);
    }
  }

  lemma {:induction false} DropDrop(s: seq<Conn>, a: set<Conn>, b: set<Conn>)
    ensures Drop(Drop(s, a), b) == Drop(s, a + b)
  {
    if s != [] {
      var init, last := s[..|s| - 1], s[|s| - 1];
      DropDrop(init, a, b);
      assert Drop(s, a + b) == Drop(init, a + b) + (if last in a + b then [] else [last]);
      if last in a {
        assert Drop(s, a) == Drop(init, a);
      } else {
        assert Drop(s, a) == Drop(init, a) + [last];
        DropSnoc(Drop(init, a), last, b);
      }
    }
  }

  /** Every subscriber set with the connections in `gone` deleted; a set that
      becomes empty has its entry deleted. */
  function PruneMap(m: map<DeviceKey, seq<Conn>>, gone: set<Conn>): map<DeviceKey, seq<Conn>>
  {
    map d | d in m && Drop(m[d], gone) != [] :: Drop(m[d], gone)
  }

  /** A map built entry by entry that agrees with PruneMap everywhere is it. */
  lemma PrunedIs(m: map<DeviceKey, seq<Conn>>, gone: set<Conn>, r: map<DeviceKey, seq<Conn>>)
    requires forall d :: d in r <==> d in m && Drop(m[d], gone) != []
    requires forall d :: d in r ==> r[d] == Drop(m[d], gone)
    ensures r == PruneMap(m, gone)
  {
  }

  lemma PruneKeepsWellFormed(m: map<DeviceKey, seq<Conn>>, gone: set<Conn>)
    requires WellFormed(m)
    ensures WellFormed(PruneMap(m, gone))
  {
    forall d | d in PruneMap(m, gone)
      ensures NoDup(PruneMap(m, gone)[d])
    {
      DropNoDup(m[d], gone);
    }
  }

  lemma PruneMapTwice(m: map<DeviceKey, seq<Conn>>, a: set<Conn>, b: set<Conn>)
    ensures PruneMap(PruneMap(m, a), b) == PruneMap(m, a + b)
  {
    forall d | d in m {
      DropDrop(m[d], a, b);
    }
  }

  lemma PruneMapNothing(m: map<DeviceKey, seq<Conn>>)
    requires WellFormed(m)
    ensures PruneMap(m, {}) == m
  {
    forall d | d in m {
      DropNothing(m[d], {});
    }
  }

  /** Each subscriber list after adding `ws` to device `d` and dropping it again. */
  lemma DropAfterAdd(m: map<DeviceKey, seq<Conn>>, d: DeviceKey, ws: Conn)
    requires forall e :: e in m ==> ws !in m[e]
    ensures var m' := m[d := (if d in m then m[d] else []) + [ws]];
      forall e :: e in m' ==> Drop(m'[e], {ws}) == (if e in m then m[e] else [])
  {
    var subs := if d in m then m[d] else [];
    var m' := m[d := subs + [ws]];
    forall e | e in m'
      ensures Drop(m'[e], {ws}) == (if e in m then m[e] else [])
    {
      if e == d {
        DropSnoc(subs, ws, {ws});
        DropNothing(subs, {ws});
      } else {
        DropNothing(m[e], {ws});
      }
    }
  }

  /** Adding a connection that is nowhere else and pruning it again gives the
      map back. */
  lemma PruneAfterAdd(m: map<DeviceKey, seq<Conn>>, d: DeviceKey, ws: Conn)
    requires forall e :: e in m ==> m[e] != [] && ws !in m[e]
    ensures PruneMap(m[d := (if d in m then m[d] else []) + [ws]], {ws}) == m
  {
    var r := PruneMap(m[d := (if d in m then m[d] else []) + [ws]], {ws});
    DropAfterAdd(m, d, ws);
    forall e | e in m
      ensures e in r && r[e] == m[e]
    {
    }
    SameMap(r, m);
  }

  lemma SameMap(a: map<DeviceKey, seq<Conn>>, b: map<DeviceKey, seq<Conn>>)
    requires forall k :: k in b ==> k in a && a[k] == b[k]
    requires forall k :: k in a ==> k in b
    ensures a == b
  {
  }

  // ---- the operations, as functions of the hub state ----

  function WithConnection(s: HubState, ws: Conn): HubState
  {
    s.(connections := s.connections + {ws})
  }

  function WithoutConnection(s: HubState, ws: Conn): HubState
  {
    s.(connections := s.connections - {ws}, subscriptions := PruneMap(s.subscriptions, {ws}))
  }

  /** sendToConnection: only an OPEN connection is sent to; a send that throws
      removes the connection. */
  function AfterSend(s: HubState, ws: Conn, msg: OutMsg, env: Sockets): HubState
  {
    if ws !in env.open then s
    else if ws in env.failing then WithoutConnection(s, ws)
    else s.(outbox := s.outbox + [(ws, msg)])
  }

  function AckText(deviceId: string): string
  {
    "Subscribed to device: " + deviceId
  }

  /** The subscribers of a device, whose id in a broadcast is a string. */
  function Subscribers(s: HubState, deviceId: string): seq<Conn>
  {
    if StrKey(deviceId) in s.subscriptions then s.subscriptions[StrKey(deviceId)] else []
  }

  /** subscribeToDevice with whatever value the message's deviceId held: the
      Map key is that value, the acknowledgement its text. */
  function AfterSubscribe(s: HubState, ws: Conn, deviceId: Json, env: Sockets): HubState
  {
    AfterSend(s.(subscriptions := AddSubscriber(s.subscriptions, ws, KeyOf(deviceId))), ws, SubscriptionMsg(AckText(TextOf(deviceId))), env)
  }

  /** One send of the broadcast loop: broadcast does not look at readyState. */
  function DeliverOne(s: HubState, ws: Conn, msg: OutMsg, env: Sockets): HubState
  {
    if ws in env.failing then WithoutConnection(s, ws) else s.(outbox := s.outbox + [(ws, msg)])
  }

  function Deliver(s: HubState, targets: seq<Conn>, msg: OutMsg, env: Sockets): HubState
  {
    if targets == [] then s
    else DeliverOne(Deliver(s, targets[..|targets| - 1], msg, env), targets[|targets| - 1], msg, env)
  }

  function TelemetryMessage(data: TelemetryData): OutMsg
  {
    TelemetryMsg(data.deviceId, data.datastreamId, data.timestamp, data.value)
  }

  function AfterBroadcast(s: HubState, data: TelemetryData, env: Sockets): HubState
  {
    var subs := Subscribers(s, data.deviceId);
    if subs == [] then s else Deliver(s, subs, TelemetryMessage(data), env)
  }

  const InvalidFormat := "Invalid message format"

  function AfterHandleMessage(s: HubState, ws: Conn, inbound: Inbound, env: Sockets): HubState
  {
    match inbound
    case Parsed(t, d) =>
      if t == Some("subscribe") && Truthy(d) then AfterSubscribe(s, ws, d.value, env) else s
    case _ => AfterSend(s, ws, ErrorMsg(InvalidFormat), env)
  }

  /** The messages a broadcast hands to the sockets: one per subscriber whose
      send does not throw, in subscription order. */
  function Pairs(cs: seq<Conn>, msg: OutMsg): (r: seq<(Conn, OutMsg)>)
    ensures |r| == |cs| && forall i :: 0 <= i < |cs| ==> r[i] == (cs[i], msg)
  {
    if cs == [] then [] else Pairs(cs[..|cs| - 1], msg) + [(cs[|cs| - 1], msg)]
  }

  function Elems(s: seq<Conn>): set<Conn>
  {
    set c | c in s
  }

  // ---- properties ----

  /** removeConnection deletes the connection everywhere and nothing else:
      every other connection keeps every subscription it had, and no empty
      subscriber set is left behind. */
  lemma RemoveConnectionOnly(s: HubState, ws: Conn)
    requires Inv(s)
    ensures var r := WithoutConnection(s, ws);
      && Inv(r)
      && r.connections == s.connections - {ws}
      && r.outbox == s.outbox
      && (forall d :: d in r.subscriptions ==> ws !in r.subscriptions[d])
      && (forall d, c :: c != ws ==> (d in s.subscriptions && c in s.subscriptions[d] <==> d in r.subscriptions && c in r.subscriptions[d]))
  {
    var r := WithoutConnection(s, ws);
    PruneKeepsWellFormed(s.subscriptions, {ws});
    forall d, c | c != ws && d in s.subscriptions && c in s.subscriptions[d]
      ensures d in r.subscriptions && c in r.subscriptions[d]
    {
      assert c in Drop(s.subscriptions[d], {ws});
    }
  }

  /** addConnection changes the connection set only. */
  lemma AddConnectionOnly(s: HubState, ws: Conn)
    ensures var r := WithConnection(s, ws);
      r.connections == s.connections + {ws} && r.subscriptions == s.subscriptions && r.outbox == s.outbox
  {
  }

  /** The subscriber sets right after the add of subscribeToDevice. */
  function AddSubscriber(m: map<DeviceKey, seq<Conn>>, ws: Conn, key: DeviceKey): map<DeviceKey, seq<Conn>>
  {
    var subs := if key in m then m[key] else [];
    m[key := if ws in subs then subs else subs + [ws]]
  }

  lemma AddSubscriberWellFormed(m: map<DeviceKey, seq<Conn>>, ws: Conn, key: DeviceKey)
    requires WellFormed(m)
    ensures WellFormed(AddSubscriber(m, ws, key))
  {
  }

  /** subscribeToDevice keeps the invariant. */
  lemma SubscribeKeepsInv(s: HubState, ws: Conn, deviceId: Json, env: Sockets)
    requires Inv(s)
    ensures Inv(AfterSubscribe(s, ws, deviceId, env))
  {
    AddSubscriberWellFormed(s.subscriptions, ws, KeyOf(deviceId));
    PruneKeepsWellFormed(AddSubscriber(s.subscriptions, ws, KeyOf(deviceId)), {ws});
  }

  lemma AddSubscriberAgain(m: map<DeviceKey, seq<Conn>>, ws: Conn, key: DeviceKey)
    ensures key in AddSubscriber(m, ws, key) && ws in AddSubscriber(m, ws, key)[key]
    ensures AddSubscriber(AddSubscriber(m, ws, key), ws, key) == AddSubscriber(m, ws, key)
  {
  }

  /** Subscribing is idempotent on the subscriptions: a second identical
      subscribe leaves the same subscriber sets and connections (it only sends
      a second acknowledgement). A connection whose send does not throw is in
      the device's set exactly once. */
  lemma SubscribeIdempotent(s: HubState, ws: Conn, deviceId: Json, env: Sockets)
    requires Inv(s)
    ensures var once := AfterSubscribe(s, ws, deviceId, env);
      var twice := AfterSubscribe(once, ws, deviceId, env);
      && twice.subscriptions == once.subscriptions
      && twice.connections == once.connections
    ensures ws !in env.failing ==>
      var subs := AfterSubscribe(s, ws, deviceId, env).subscriptions[KeyOf(deviceId)];
      ws in subs && forall i, j :: 0 <= i < |subs| && 0 <= j < |subs| && subs[i] == ws && subs[j] == ws ==> i == j
  {
    if ws in env.open && ws in env.failing {
      SubscribeAgainDropped(s, ws, deviceId, env);
    } else {
      SubscribeAgainKept(s, ws, deviceId, env);
    }
  }

  /** A subscriber whose acknowledgement throws is removed at once, so a
      second subscribe adds and removes it again. */
  lemma SubscribeAgainDropped(s: HubState, ws: Conn, deviceId: Json, env: Sockets)
    requires Inv(s)
    requires ws in env.open && ws in env.failing
    ensures var once := AfterSubscribe(s, ws, deviceId, env);
      var twice := AfterSubscribe(once, ws, deviceId, env);
      twice.subscriptions == once.subscriptions && twice.connections == once.connections
  {
    var key := KeyOf(deviceId);
    var added := AddSubscriber(s.subscriptions, ws, key);
    var once := AfterSubscribe(s, ws, deviceId, env);
    var twice := AfterSubscribe(once, ws, deviceId, env);
    assert once.subscriptions == PruneMap(added, {ws});
    assert twice.subscriptions == PruneMap(AddSubscriber(once.subscriptions, ws, key), {ws});
    forall e | e in once.subscriptions
      ensures once.subscriptions[e] != [] && ws !in once.subscriptions[e]
    {
      assert once.subscriptions[e] == Drop(added[e], {ws});
    }
    PruneAfterAdd(once.subscriptions, key, ws);
  }

  /** A subscriber that stays keeps its one place in the device's list. */
  lemma SubscribeAgainKept(s: HubState, ws: Conn, deviceId: Json, env: Sockets)
    requires Inv(s)
    requires !(ws in env.open && ws in env.failing)
    ensures var once := AfterSubscribe(s, ws, deviceId, env);
      var twice := AfterSubscribe(once, ws, deviceId, env);
      twice.subscriptions == once.subscriptions && twice.connections == once.connections
    ensures var subs := AfterSubscribe(s, ws, deviceId, env).subscriptions[KeyOf(deviceId)];
      ws in subs && forall i, j :: 0 <= i < |subs| && 0 <= j < |subs| && subs[i] == ws && subs[j] == ws ==> i == j
  {
    var added := AddSubscriber(s.subscriptions, ws, KeyOf(deviceId));
    AddSubscriberWellFormed(s.subscriptions, ws, KeyOf(deviceId));
    AddSubscriberAgain(s.subscriptions, ws, KeyOf(deviceId));
    assert AfterSubscribe(s, ws, deviceId, env).subscriptions == added;
  }

  /** The acknowledgement goes to the subscribing connection only, and only
      when it is OPEN and its send succeeds. */
  lemma AckToSubscriberOnly(s: HubState, ws: Conn, deviceId: Json, env: Sockets)
    ensures var r := AfterSubscribe(s, ws, deviceId, env);
      r.outbox == s.outbox + (if ws in env.open && ws !in env.failing then [(ws, SubscriptionMsg("Subscribed to device: " + TextOf(deviceId)))] else [])
  {
  }

  /** A subscribe whose deviceId is not a string (the number 42, true, an
      object) is acknowledged with the value's text like any other, but it
      files the connection under a key no broadcast looks up, since a
      broadcast names its device by a string: the subscribers of every
      device stay as they were. */
  lemma NonStringSubscribeReachesNoDevice(s: HubState, ws: Conn, deviceId: Json, env: Sockets)
    requires !deviceId.JText?
    requires !(ws in env.open && ws in env.failing)
    ensures var r := AfterSubscribe(s, ws, deviceId, env);
      && KeyOf(deviceId) in r.subscriptions && ws in r.subscriptions[KeyOf(deviceId)]
      && forall d: string :: Subscribers(r, d) == Subscribers(s, d)
  {
    var r := AfterSubscribe(s, ws, deviceId, env);
    assert r.subscriptions == AddSubscriber(s.subscriptions, ws, KeyOf(deviceId));
    forall d: string
      ensures Subscribers(r, d) == Subscribers(s, d)
    {
      assert StrKey(d) != KeyOf(deviceId);
    }
  }

  /** What a run of sends to `targets` leaves behind, starting from `s`. */
  ghost predicate DeliveredFrom(s: HubState, targets: seq<Conn>, msg: OutMsg, failing: set<Conn>, r: HubState)
  {
    && r.outbox == s.outbox + Pairs(Drop(targets, failing), msg)
    && r.connections == s.connections - (Elems(targets) * failing)
    && r.subscriptions == PruneMap(s.subscriptions, Elems(targets) * failing)
  }

  /** The failed connections of a run of sends, one target longer. */
  lemma FailedSnoc(init: seq<Conn>, last: Conn, failing: set<Conn>)
    ensures last in failing ==> Elems(init + [last]) * failing == Elems(init) * failing + {last}
    ensures last !in failing ==> Elems(init + [last]) * failing == Elems(init) * failing
  {
    assert Elems(init + [last]) == Elems(init) + {last};
  }

  lemma DeliverStepFailing(s: HubState, init: seq<Conn>, last: Conn, msg: OutMsg, failing: set<Conn>, mid: HubState)
    requires DeliveredFrom(s, init, msg, failing, mid)
    requires last in failing
    ensures DeliveredFrom(s, init + [last], msg, failing, WithoutConnection(mid, last))
  {
    var targets := init + [last];
    var r := WithoutConnection(mid, last);
    var gone := Elems(init) * failing;
    assert r.outbox == s.outbox + Pairs(Drop(targets, failing), msg) by {
      assert targets[..|targets| - 1] == init;
    }
    FailedSnoc(init, last, failing);
    PruneMapTwice(s.subscriptions, gone, {last});
  }

  lemma DeliverStepSent(s: HubState, init: seq<Conn>, last: Conn, msg: OutMsg, failing: set<Conn>, mid: HubState)
    requires DeliveredFrom(s, init, msg, failing, mid)
    requires last !in failing
    ensures DeliveredFrom(s, init + [last], msg, failing, mid.(outbox := mid.outbox + [(last, msg)]))
  {
    SentSnoc(s.outbox, mid.outbox, init, last, msg, failing);
    FailedSnoc(init, last, failing);
  }

  /** The outbox of a run of sends, one successful send longer. */
  lemma SentSnoc(start: seq<(Conn, OutMsg)>, outbox: seq<(Conn, OutMsg)>, init: seq<Conn>, last: Conn, msg: OutMsg, failing: set<Conn>)
    requires outbox == start + Pairs(Drop(init, failing), msg)
    requires last !in failing
    ensures outbox + [(last, msg)] == start + Pairs(Drop(init + [last], failing), msg)
  {
    var sent := Pairs(Drop(init, failing), msg);
    DropSnoc(init, last, failing);
    PairsSnoc(Drop(init, failing), last, msg);
    assert (start + sent) + [(last, msg)] == start + (sent + [(last, msg)]);
  }

  lemma PairsSnoc(cs: seq<Conn>, c: Conn, msg: OutMsg)
    ensures Pairs(cs + [c], msg) == Pairs(cs, msg) + [(c, msg)]
  {
    assert (cs + [c])[..|cs|] == cs;
  }

  /** The effect of a run of sends: the messages of the sends that do not
      throw, and the removal of the connections whose send throws. */
  lemma {:induction false} DeliverEffect(s: HubState, targets: seq<Conn>, msg: OutMsg, env: Sockets)
    requires Inv(s)
    ensures DeliveredFrom(s, targets, msg, env.failing, Deliver(s, targets, msg, env))
  {
    if targets == [] {
      PruneMapNothing(s.subscriptions);
      assert Elems(targets) * env.failing == {};
    } else {
      var init, last := targets[..|targets| - 1], targets[|targets| - 1];
      assert targets == init + [last];
      DeliverEffect(s, init, msg, env);
      if last in env.failing {
        DeliverStepFailing(s, init, last, msg, env.failing, Deliver(s, init, msg, env));
      } else {
        DeliverStepSent(s, init, last, msg, env.failing, Deliver(s, init, msg, env));
      }
    }
  }

  /** broadcastTelemetry to a device without subscribers changes nothing. */
  lemma BroadcastWithoutSubscribers(s: HubState, data: TelemetryData, env: Sockets)
    requires StrKey(data.deviceId) !in s.subscriptions || s.subscriptions[StrKey(data.deviceId)] == []
    ensures AfterBroadcast(s, data, env) == s
  {
  }

  /** Otherwise every subscriber whose send does not throw receives the same
      telemetry message exactly once, in subscription order; a subscriber
      whose send throws is removed, and no other connection loses anything. */
  lemma BroadcastFanout(s: HubState, data: TelemetryData, env: Sockets)
    requires Inv(s)
    requires StrKey(data.deviceId) in s.subscriptions
    ensures var subs := s.subscriptions[StrKey(data.deviceId)];
      var failed := Elems(subs) * env.failing;
      var r := AfterBroadcast(s, data, env);
      && Inv(r)
      && r.outbox == s.outbox + Pairs(Drop(subs, env.failing), TelemetryMsg(data.deviceId, data.datastreamId, data.timestamp, data.value))
      && NoDup(Drop(subs, env.failing))
      && r.connections == s.connections - failed
      && (forall d, c :: c !in failed ==> (d in s.subscriptions && c in s.subscriptions[d] <==> d in r.subscriptions && c in r.subscriptions[d]))
      && (forall d, c :: c in failed ==> !(d in r.subscriptions && c in r.subscriptions[d]))
  {
    var subs := s.subscriptions[StrKey(data.deviceId)];
    var failed := Elems(subs) * env.failing;
    DeliverEffect(s, subs, TelemetryMessage(data), env);
    PruneKeepsWellFormed(s.subscriptions, failed);
    DropNoDup(subs, env.failing);
    var r := AfterBroadcast(s, data, env);
    forall d, c | c !in failed && d in s.subscriptions && c in s.subscriptions[d]
      ensures d in r.subscriptions && c in r.subscriptions[d]
    {
      assert c in Drop(s.subscriptions[d], failed);
    }
  }

  /** handleMessage subscribes only for a "subscribe" message with a truthy
      deviceId, of whatever type; any other parsed message changes nothing; a
      message that cannot be parsed gets one "Invalid message format" error,
      sent to its own connection only. */
  lemma HandleMessageCases(s: HubState, ws: Conn, inbound: Inbound, env: Sockets)
    ensures inbound.Parsed? && inbound.msgType == Some("subscribe") && Truthy(inbound.deviceId) ==>
              AfterHandleMessage(s, ws, inbound, env) == AfterSubscribe(s, ws, inbound.deviceId.value, env)
    ensures inbound.Parsed? && !(inbound.msgType == Some("subscribe") && Truthy(inbound.deviceId)) ==>
              AfterHandleMessage(s, ws, inbound, env) == s
    ensures !inbound.Parsed? && ws in env.open && ws !in env.failing ==>
              AfterHandleMessage(s, ws, inbound, env) == s.(outbox := s.outbox + [(ws, ErrorMsg("Invalid message format"))])
    ensures AfterHandleMessage(s, ws, inbound, env).outbox[..|s.outbox|] == s.outbox
  {
  }

  // ---- the hub object ----

  class WebSocketService {
    var connections: set<Conn>
    var deviceSubscriptions: map<DeviceKey, seq<Conn>>
    var outbox: seq<(Conn, OutMsg)>

    function State(): HubState
      reads this
    {
      HubState(connections, deviceSubscriptions, outbox)
    }

    ghost predicate Valid()
      reads this
    {
      Inv(State())
    }

    constructor ()
      ensures Valid() && State() == HubState({}, map[], [])
    {
      connections, deviceSubscriptions, outbox := {}, map[], [];
    }

    method AddConnection(ws: Conn)
      modifies this
      ensures State() == WithConnection(old(State()), ws)
    {
      connections := connections + {ws};
    }

    /** Deletes the connection, then walks the device entries, deleting it
        from each subscriber set and deleting the entries left empty. */
    method RemoveConnection(ws: Conn)
      modifies this
      ensures State() == WithoutConnection(old(State()), ws)
    {
      connections := connections - {ws};
      var subscriptions := deviceSubscriptions;
      var result: map<DeviceKey, seq<Conn>> := map[];
      var remaining := subscriptions.Keys;
      while remaining != {}
        invariant remaining <= subscriptions.Keys
        invariant forall d :: d in result <==> d in subscriptions && d !in remaining && Drop(subscriptions[d], {ws}) != []
        invariant forall d :: d in result ==> result[d] == Drop(subscriptions[d], {ws})
        decreases remaining
      {
        var d :| d in remaining;
        var rest := Drop(subscriptions[d], {ws});
        if rest != [] {
          result := result[d := rest];
        }
        remaining := remaining - {d};
      }
      PrunedIs(subscriptions, {ws}, result);
      deviceSubscriptions := result;
    }

    method SendToConnection(ws: Conn, msg: OutMsg, env: Sockets)
      modifies this
      ensures State() == AfterSend(old(State()), ws, msg, env)
    {
      if ws in env.open {
        if ws in env.failing {
          RemoveConnection(ws);
        } else {
          outbox := outbox + [(ws, msg)];
        }
      }
    }

    method SubscribeToDevice(ws: Conn, deviceId: Json, env: Sockets)
      requires Valid()
      modifies this
      ensures Valid()
      ensures State() == AfterSubscribe(old(State()), ws, deviceId, env)
    {
      SubscribeKeepsInv(State(), ws, deviceId, env);
      var key := KeyOf(deviceId);
      var subs := if key in deviceSubscriptions then deviceSubscriptions[key] else [];
      if ws !in subs {
        subs := subs + [ws];
      }
      deviceSubscriptions := deviceSubscriptions[key := subs];
      SendToConnection(ws, SubscriptionMsg("Subscribed to device: " + TextOf(deviceId)), env);
    }

    /** Sends the one telemetry message to each subscriber in turn; a send
        that throws removes that connection and the loop goes on. */
    method BroadcastTelemetry(data: TelemetryData, env: Sockets)
      requires Valid()
      modifies this
      ensures Valid()
      ensures State() == AfterBroadcast(old(State()), data, env)
    {
      if StrKey(data.deviceId) !in deviceSubscriptions || deviceSubscriptions[StrKey(data.deviceId)] == [] {
        return;
      }
      var subscribers := deviceSubscriptions[StrKey(data.deviceId)];
      var message := TelemetryMsg(data.deviceId, data.datastreamId, data.timestamp, data.value);
      ghost var start := State();
      var i := 0;
      while i < |subscribers|
        invariant 0 <= i <= |subscribers|
        invariant State() == Deliver(start, subscribers[..i], message, env)
      {
        var ws := subscribers[i];
        assert subscribers[..i + 1][..i] == subscribers[..i];
        if ws in env.failing {
          RemoveConnection(ws);
        } else {
          outbox := outbox + [(ws, message)];
        }
        i := i + 1;
      }
      assert subscribers[..i] == subscribers;
      DeliverEffect(start, subscribers, message, env);
      PruneKeepsWellFormed(start.subscriptions, Elems(subscribers) * env.failing);
    }

    method HandleMessage(ws: Conn, inbound: Inbound, env: Sockets)
      requires Valid()
      modifies this
      ensures Valid()
      ensures State() == AfterHandleMessage(old(State()), ws, inbound, env)
    {
      match inbound {
        case Parsed(t, d) =>
          if t == Some("subscribe") && Truthy(d) {
            SubscribeToDevice(ws, d.value, env);
          }
        case _ =>
          RemoveConnectionOnly(State(), ws);
          SendToConnection(ws, ErrorMsg(InvalidFormat), env);
      }
    }

    /** getStats: the number of connections and, per device, the size of its
        subscriber set (at least one, by the invariant). */
    method GetStats() returns (stats: Stats)
      requires Valid()
      ensures stats.totalConnections == |connections|
      ensures stats.deviceSubscriptions.Keys == deviceSubscriptions.Keys
      ensures forall d :: d in deviceSubscriptions ==>
                stats.deviceSubscriptions[d] == |deviceSubscriptions[d]| && stats.deviceSubscriptions[d] >= 1
    {
      var counts := map d | d in deviceSubscriptions :: |deviceSubscriptions[d]|;
      stats := Stats(|connections|, counts);
    }
  }
}

=== FILE: store.dfy ===
/** The relational schema the services read and write: one row type per
    table, keyed the way the schema keys it, and a Database object holding
    every table. Row identifiers are the keys of the maps. */
module Store {
  import opened Common
  import opened Codec

  /** The `device_status` enum. */
  datatype DeviceStatus = Online | Offline

  datatype Organization = Organization(
    name: string,
    slug: string,
    description: Option<string>,
    logo: Option<string>,
    ownerId: string)

  /** organization_member is unique on (organizationId, userId). */
  datatype MemberKey = MemberKey(organizationId: string, userId: string)

  datatype Template = Template(
    organizationId: string,
    name: string,
    hardwarePlatform: string,
    connectionType: string,
    description: Option<string>,
    createdBy: string,
    updatedBy: string)

  datatype Datastream = Datastream(
    templateId: string,
    name: string,
    pin: string,
    dataType: DataType,
    min: Option<real>,
    max: Option<real>,
    defaultValue: Option<string>)

  datatype Device = Device(
    organizationId: string,
    templateId: string,
    name: string,
    status: Option<DeviceStatus>,
    lastSeen: Option<int>)

  /** A row of the append-only telemetry history; times are epoch milliseconds. */
  datatype TelemetryRow = TelemetryRow(
    deviceId: string,
    datastreamId: string,
    values: ValueColumns,
    timestamp: int,
    reportedAt: int)

  /** device_state has the composite primary key (deviceId, datastreamId). */
  datatype StateKey = StateKey(deviceId: string, datastreamId: string)

  datatype StateRow = StateRow(values: ValueColumns, updatedAt: int, reportedAt: Option<int>)

  /** The unique index on datastream (templateId, pin). */
  ghost predicate PinsUnique(ds: map<string, Datastream>)
  {
    forall a, b :: a in ds && b in ds && a != b && ds[a].templateId == ds[b].templateId ==> ds[a].pin != ds[b].pin
  }

  /** datastream.pin is a varchar(50); PostgreSQL counts its characters. */
  const PinMaxLength := 50

  ghost predicate PinsFit(ds: map<string, Datastream>)
  {
    forall id :: id in ds ==> |ds[id].pin| <= PinMaxLength
  }

  /** The unique constraint on organization.slug. */
  ghost predicate SlugsUnique(orgs: map<string, Organization>)
  {
    forall a, b :: a in orgs && b in orgs && a != b ==> orgs[a].slug != orgs[b].slug
  }

  // ---- the cascading deletes of the schema ----

  /** Every table, as values. */
  datatype Snapshot = Snapshot(
    organizations: map<string, Organization>,
    members: map<MemberKey, Role>,
    templates: map<string, Template>,
    datastreams: map<string, Datastream>,
    devices: map<string, Device>,
    telemetry: seq<TelemetryRow>,
    deviceState: map<StateKey, StateRow>)

  /** Every foreign key of the schema points at an existing row. */
  ghost predicate ReferencesIntact(s: Snapshot)
  {
    ParentsReferenced(s) && RowsReferenced(s)
  }

  /** The references of members, templates, datastreams and devices. */
  ghost predicate ParentsReferenced(s: Snapshot)
  {
    && (forall k :: k in s.members ==> k.organizationId in s.organizations)
    && (forall t :: t in s.templates ==> s.templates[t].organizationId in s.organizations)
    && (forall d :: d in s.datastreams ==> s.datastreams[d].templateId in s.templates)
    && (forall v :: v in s.devices ==> s.devices[v].organizationId in s.organizations && s.devices[v].templateId in s.templates)
  }

  /** The references of telemetry and device_state rows. */
  ghost predicate RowsReferenced(s: Snapshot)
  {
    && (forall i :: 0 <= i < |s.telemetry| ==> s.telemetry[i].deviceId in s.devices && s.telemetry[i].datastreamId in s.datastreams)
    && (forall k :: k in s.deviceState ==> k.deviceId in s.devices && k.datastreamId in s.datastreams)
  }

  /** The telemetry rows that name none of the deleted devices and datastreams,
      in their order, each as often as before. */
  function KeepRows(rows: seq<TelemetryRow>, devicesGone: set<string>, datastreamsGone: set<string>): (r: seq<TelemetryRow>)
    ensures forall x :: x in r <==> x in rows && x.deviceId !in devicesGone && x.datastreamId !in datastreamsGone
    ensures forall x :: multiset(r)[x] == if x.deviceId !in devicesGone && x.datastreamId !in datastreamsGone then multiset(rows)[x] else 0
  {
    if rows == [] then []
    else
      assert rows == [rows[0]] + rows[1..];
      (if rows[0].deviceId !in devicesGone && rows[0].datastreamId !in datastreamsGone then [rows[0]] else [])
        + KeepRows(rows[1..], devicesGone, datastreamsGone)
  }

  /** The memberships of the organizations not in `orgs`. */
  function KeepMembers(members: map<MemberKey, Role>, orgs: set<string>): (r: map<MemberKey, Role>)
    ensures forall k :: k in r <==> k in members && k.organizationId !in orgs
    ensures forall k :: k in r ==> r[k] == members[k]
  {
    map k | k in members && k.organizationId !in orgs :: members[k]
  }

  /** The device_state rows of no removed device and no removed datastream. */
  function KeepStates(state: map<StateKey, StateRow>, devicesGone: set<string>, datastreamsGone: set<string>): (r: map<StateKey, StateRow>)
    ensures forall k :: k in r <==> k in state && k.deviceId !in devicesGone && k.datastreamId !in datastreamsGone
    ensures forall k :: k in r ==> r[k] == state[k]
  {
    map k | k in state && k.deviceId !in devicesGone && k.datastreamId !in datastreamsGone :: state[k]
  }

  /** The templates a delete removes: those named, and those of a deleted
      organization (template.organization_id cascades). */
  function TemplatesGone(s: Snapshot, orgs: set<string>, templates: set<string>): set<string>
  {
    set t | t in s.templates && (t in templates || s.templates[t].organizationId in orgs)
  }

  /** The datastreams a delete removes: those named, and those of a removed
      template (datastream.template_id cascades). */
  function DatastreamsGone(s: Snapshot, orgs: set<string>, templates: set<string>, datastreams: set<string>): set<string>
  {
    set d | d in s.datastreams && (d in datastreams || s.datastreams[d].templateId in TemplatesGone(s, orgs, templates))
  }

  /** The devices a delete removes: those of a deleted organization or of a
      removed template (both of device's references cascade). */
  function DevicesGone(s: Snapshot, orgs: set<string>, templates: set<string>): set<string>
  {
    set v | v in s.devices && (s.devices[v].organizationId in orgs || s.devices[v].templateId in TemplatesGone(s, orgs, templates))
  }

  /** The tables after deleting the organizations `orgs`, the templates
      `templates` and the datastreams `datastreams`, with every ON DELETE
      CASCADE of the schema followed. Nothing is added and no kept row
      changes; CascadeRemovesParents and CascadeRemovesRows say which rows go. */
  function Cascade(s: Snapshot, orgs: set<string>, templates: set<string>, datastreams: set<string>): (r: Snapshot)
    ensures r.organizations.Keys <= s.organizations.Keys && r.members.Keys <= s.members.Keys
    ensures r.templates.Keys <= s.templates.Keys && r.datastreams.Keys <= s.datastreams.Keys
    ensures r.devices.Keys <= s.devices.Keys && r.deviceState.Keys <= s.deviceState.Keys
    ensures forall o :: o in r.organizations ==> r.organizations[o] == s.organizations[o]
    ensures forall k :: k in r.members ==> r.members[k] == s.members[k]
    ensures forall t :: t in r.templates ==> r.templates[t] == s.templates[t]
    ensures forall d :: d in r.datastreams ==> r.datastreams[d] == s.datastreams[d]
    ensures forall v :: v in r.devices ==> r.devices[v] == s.devices[v]
    ensures forall k :: k in r.deviceState ==> r.deviceState[k] == s.deviceState[k]
    ensures multiset(r.telemetry) <= multiset(s.telemetry)
  {
    var tGone := TemplatesGone(s, orgs, templates);
    var dsGone := DatastreamsGone(s, orgs, templates, datastreams);
    var devGone := DevicesGone(s, orgs, templates);
    Snapshot(
      s.organizations - orgs,
      KeepMembers(s.members, orgs),
      s.templates - tGone,
      s.datastreams - dsGone,
      s.devices - devGone,
      KeepRows(s.telemetry, devGone, dsGone),
      KeepStates(s.deviceState, devGone, dsGone))
  }

  /** The rows of the parent tables that a cascade removes: exactly those
      named, and those whose referenced row was removed. */
  lemma CascadeRemovesParents(s: Snapshot, orgs: set<string>, templates: set<string>, datastreams: set<string>)
    ensures var r := Cascade(s, orgs, templates, datastreams);
      && r.organizations == s.organizations - orgs
      && (forall k :: k in r.members <==> k in s.members && k.organizationId !in orgs)
      && (forall t :: t in r.templates <==> t in s.templates && t !in templates && s.templates[t].organizationId !in orgs)
      && (forall d :: d in r.datastreams <==>
            d in s.datastreams && d !in datastreams && s.datastreams[d].templateId !in s.templates.Keys - r.templates.Keys)
      && (forall v :: v in r.devices <==>
            v in s.devices && s.devices[v].organizationId !in orgs && s.devices[v].templateId !in s.templates.Keys - r.templates.Keys)
  {
  }

  /** The telemetry and device_state rows a cascade removes: exactly those of
      a removed device or a removed datastream. Telemetry keeps its order and
      every kept row as often as before. */
  lemma CascadeRemovesRows(s: Snapshot, orgs: set<string>, templates: set<string>, datastreams: set<string>)
    ensures var r := Cascade(s, orgs, templates, datastreams);
      var devicesGone := s.devices.Keys - r.devices.Keys;
      var datastreamsGone := s.datastreams.Keys - r.datastreams.Keys;
      && r.telemetry == KeepRows(s.telemetry, devicesGone, datastreamsGone)
      && (forall k :: k in r.deviceState <==>
            k in s.deviceState && k.deviceId !in devicesGone && k.datastreamId !in datastreamsGone)
  {
    var r := Cascade(s, orgs, templates, datastreams);
    assert s.devices.Keys - r.devices.Keys == DevicesGone(s, orgs, templates);
    assert s.datastreams.Keys - r.datastreams.Keys == DatastreamsGone(s, orgs, templates, datastreams);
  }

  /** Why the schema cascades: deleting with every cascade followed leaves no
      row pointing at a deleted one. */
  lemma CascadeKeepsReferences(s: Snapshot, orgs: set<string>, templates: set<string>, datastreams: set<string>)
    ensures ReferencesIntact(s) ==> ReferencesIntact(Cascade(s, orgs, templates, datastreams))
  {
    if ReferencesIntact(s) {
      CascadeKeepsParentReferences(s, orgs, templates, datastreams);
      CascadeKeepsRowReferences(s, orgs, templates, datastreams);
    }
  }

  lemma CascadeKeepsParentReferences(s: Snapshot, orgs: set<string>, templates: set<string>, datastreams: set<string>)
    requires ParentsReferenced(s)
    ensures ParentsReferenced(Cascade(s, orgs, templates, datastreams))
  {
    CascadeRemovesParents(s, orgs, templates, datastreams);
  }

  lemma CascadeKeepsRowReferences(s: Snapshot, orgs: set<string>, templates: set<string>, datastreams: set<string>)
    requires RowsReferenced(s)
    ensures RowsReferenced(Cascade(s, orgs, templates, datastreams))
  {
    var r := Cascade(s, orgs, templates, datastreams);
    CascadeRemovesRows(s, orgs, templates, datastreams);
    TelemetryStaysReferenced(s.telemetry, s.devices, s.datastreams, r.devices, r.datastreams);
  }

  /** The telemetry rows kept by KeepRows name kept devices and datastreams. */
  lemma TelemetryStaysReferenced(rows: seq<TelemetryRow>, devices: map<string, Device>, datastreams: map<string, Datastream>,
                                 devices': map<string, Device>, datastreams': map<string, Datastream>)
    requires forall i :: 0 <= i < |rows| ==> rows[i].deviceId in devices && rows[i].datastreamId in datastreams
    ensures var kept := KeepRows(rows, devices.Keys - devices'.Keys, datastreams.Keys - datastreams'.Keys);
      forall i :: 0 <= i < |kept| ==> kept[i].deviceId in devices' && kept[i].datastreamId in datastreams'
  {
    var kept := KeepRows(rows, devices.Keys - devices'.Keys, datastreams.Keys - datastreams'.Keys);
    forall i | 0 <= i < |kept|
      ensures kept[i].deviceId in devices' && kept[i].datastreamId in datastreams'
    {
      assert kept[i] in kept;
      var j :| 0 <= j < |rows| && rows[j] == kept[i];
    }
  }

  /** A cascade keeps the schema's unique constraints and column widths. */
  lemma CascadeKeepsConstraints(s: Snapshot, orgs: set<string>, templates: set<string>, datastreams: set<string>)
    requires PinsUnique(s.datastreams) && PinsFit(s.datastreams) && SlugsUnique(s.organizations)
    ensures var r := Cascade(s, orgs, templates, datastreams);
      PinsUnique(r.datastreams) && PinsFit(r.datastreams) && SlugsUnique(r.organizations)
  {
  }

  class Database {
    var organizations: map<string, Organization>
    var members: map<MemberKey, Role>
    var templates: map<string, Template>
    var datastreams: map<string, Datastream>
    var devices: map<string, Device>
    var telemetry: seq<TelemetryRow>
    var deviceState: map<StateKey, StateRow>

    /** The unique constraints and the column width the schema declares. */
    ghost predicate Valid()
      reads this
    {
      PinsUnique(datastreams) && PinsFit(datastreams) && SlugsUnique(organizations)
    }

    function Tables(): Snapshot
      reads this
    {
      Snapshot(organizations, members, templates, datastreams, devices, telemetry, deviceState)
    }

    /** Replaces every table at once. */
    method SetTables(s: Snapshot)
      modifies this
      ensures Tables() == s
    {
      organizations, members, templates := s.organizations, s.members, s.templates;
      datastreams, devices, telemetry, deviceState := s.datastreams, s.devices, s.telemetry, s.deviceState;
    }

    constructor ()
      ensures Valid()
      ensures organizations == map[] && members == map[] && templates == map[]
      ensures datastreams == map[] && devices == map[] && telemetry == [] && deviceState == map[]
    {
      organizations, members, templates := map[], map[], map[];
      datastreams, devices, telemetry, deviceState := map[], map[], [], map[];
    }
  }
}

=== FILE: telemetry_query.dfy ===
/** The read side of telemetry (telemetryService): the query window, the
    choice between raw rows and time buckets, the per-type aggregate, the
    organization checks, and the latest value per datastream. The tables are
    read as values; the SQL time bucketing and averaging are done by the
    database, so their rows are an input of the aggregated path. Times are
    epoch milliseconds. */
module TelemetryQuery {
  import opened Common
  import opened Codec
  import opened Store

  datatype TimeRange = H1 | H6 | H24 | D7 | D30 | Custom

  const HourMs: int := 60 * 60 * 1000

  /** getTimeRangeDate: the start of a preset range ending at `now`; "custom"
      falls back to the last 24 hours. */
  function GetTimeRangeDate(range: TimeRange, now: int): (start: int)
    ensures start < now
  {
    match range
    case H1 => now - 60 * 60 * 1000
    case H6 => now - 6 * 60 * 60 * 1000
    case H24 => now - 24 * 60 * 60 * 1000
    case D7 => now - 7 * 24 * 60 * 60 * 1000
    case D30 => now - 30 * 24 * 60 * 60 * 1000
    case _ => now - 24 * 60 * 60 * 1000
  }

  /** The length of each range in hours, as the range names say. */
  function RangeHours(range: TimeRange): nat
  {
    match range
    case H1 => 1
    case H6 => 6
    case H24 => 24
    case D7 => 7 * 24
    case D30 => 30 * 24
    case Custom => 24
  }

  /** Each preset window is exactly as long as its name says, and a longer
      range starts earlier. */
  lemma TimeRangeLengths(range: TimeRange, other: TimeRange, now: int)
    ensures now - GetTimeRangeDate(range, now) == RangeHours(range) * HourMs
    ensures RangeHours(range) <= RangeHours(other) ==> GetTimeRangeDate(other, now) <= GetTimeRangeDate(range, now)
    ensures GetTimeRangeDate(Custom, now) == GetTimeRangeDate(H24, now)
  {
  }

  /** getAggregationInterval. */
  function GetAggregationInterval(range: TimeRange): (r: Option<string>)
    ensures r.None? <==> range == H1 || range == Custom
  {
    match range
    case H1 => None
    case H6 => Some("1 minute")
    case H24 => Some("5 minutes")
    case D7 => Some("30 minutes")
    case D30 => Some("2 hours")
    case _ => None
  }

  /** The raw rows are read when there is no interval or the range is custom. */
  predicate UseRawPath(range: TimeRange)
  {
    GetAggregationInterval(range).None? || range == Custom
  }

  /** The raw path is taken for the one-hour and the custom range, and only
      for them; every other range has a bucket interval. */
  lemma RawPathExactly(range: TimeRange)
    ensures UseRawPath(range) <==> range == H1 || range == Custom
    ensures !UseRawPath(range) ==> GetAggregationInterval(range).Some?
  {
  }

  /** The query window: an explicit startTime or endTime wins (any Date is
      truthy); otherwise the range start, and now. */
  datatype Window = Window(start: int, end: int)

  function QueryWindow(range: TimeRange, startTime: Option<int>, endTime: Option<int>, now: int): (w: Window)
    ensures startTime.Some? ==> w.start == startTime.value
    ensures endTime.Some? ==> w.end == endTime.value
    ensures startTime.None? ==> w.start == GetTimeRangeDate(range, now)
    ensures endTime.None? ==> w.end == now
  {
    Window(
      if startTime.Some? then startTime.value else GetTimeRangeDate(range, now),
      if endTime.Some? then endTime.value else now)
  }

  /** Without explicit bounds the window ends now and is as long as the range. */
  lemma DefaultWindow(range: TimeRange, now: int)
    ensures QueryWindow(range, None, None, now) == Window(now - RangeHours(range) * HourMs, now)
  {
    TimeRangeLengths(range, range, now);
  }

  // ---- access checks ----

  /** The device lookup of getByDevice and getLatest: NOT_FOUND when there is
      no such device, then FORBIDDEN when it belongs to another organization. */
  function DeviceAccess(devices: map<string, Device>, deviceId: string, organizationId: string): (r: Result<Device>)
    ensures r.Success? <==> deviceId in devices && devices[deviceId].organizationId == organizationId
    ensures r.Success? ==> r.value == devices[deviceId]
    ensures deviceId !in devices ==> r == Failure(ApiError(NotFound, "Device not found"))
    ensures deviceId in devices && devices[deviceId].organizationId != organizationId ==>
              r == Failure(ApiError(Forbidden, "Access denied to this device"))
  {
    if deviceId !in devices then Failure(ApiError(NotFound, "Device not found"))
    else if devices[deviceId].organizationId != organizationId then Failure(ApiError(Forbidden, "Access denied to this device"))
    else Success(devices[deviceId])
  }

  /** The datastream lookup of getByDatastream: the datastream's organization
      is its template's. A datastream whose template row is missing cannot
      exist under the foreign key; reading through it would throw, which the
      API reports as an internal error. */
  function DatastreamAccess(datastreams: map<string, Datastream>, templates: map<string, Template>, datastreamId: string, organizationId: string): (r: Result<Datastream>)
    ensures datastreamId !in datastreams ==> r == Failure(ApiError(NotFound, "Datastream not found"))
    ensures r.Success? <==> datastreamId in datastreams && datastreams[datastreamId].templateId in templates
                            && templates[datastreams[datastreamId].templateId].organizationId == organizationId
    ensures r.Success? ==> r.value == datastreams[datastreamId]
    ensures datastreamId in datastreams && datastreams[datastreamId].templateId in templates
            && templates[datastreams[datastreamId].templateId].organizationId != organizationId ==>
              r == Failure(ApiError(Forbidden, "Access denied to this datastream"))
  {
    if datastreamId !in datastreams then Failure(ApiError(NotFound, "Datastream not found"))
    else
      var ds := datastreams[datastreamId];
      if ds.templateId !in templates then Failure(ApiError(InternalServerError, "template of the datastream is missing"))
      else if templates[ds.templateId].organizationId != organizationId then Failure(ApiError(Forbidden, "Access denied to this datastream"))
      else Success(ds)
  }

  /** The existence check comes first: a missing device is NOT_FOUND for every
      organization, and an existing one is FORBIDDEN for every organization
      but its own. */
  lemma NotFoundBeforeForbidden(devices: map<string, Device>, deviceId: string, org1: string, org2: string)
    ensures deviceId !in devices ==> DeviceAccess(devices, deviceId, org1) == DeviceAccess(devices, deviceId, org2)
    ensures deviceId in devices ==>
      (DeviceAccess(devices, deviceId, org1).Success? && DeviceAccess(devices, deviceId, org2).Success? ==> org1 == org2)
    ensures DeviceAccess(devices, deviceId, org1).Failure? ==> DeviceAccess(devices, deviceId, org1).error.code in {NotFound, Forbidden}
  {
  }

  // ---- the raw path ----

  datatype Condition =
    | DeviceIs(deviceId: string)
    | DatastreamIs(datastreamId: string)
    | NotBefore(start: int)
    | NotAfter(end: int)

  function Holds(row: TelemetryRow, c: Condition): bool
  {
    match c
    case DeviceIs(d) => row.deviceId == d
    case DatastreamIs(d) => row.datastreamId == d
    case NotBefore(t) => row.timestamp >= t
    case NotAfter(t) => row.timestamp <= t
  }

  predicate MatchesAll(row: TelemetryRow, conds: seq<Condition>)
  {
    forall i :: 0 <= i < |conds| ==> Holds(row, conds[i])
  }

  /** The where-conditions of getByDevice: the device and the window, and the
      datastream only when a non-empty datastreamId is given (an empty string
      is falsy). */
  function DeviceConditions(deviceId: string, datastreamId: Option<string>, w: Window): (conds: seq<Condition>)
    ensures forall row: TelemetryRow :: MatchesAll(row, conds) <==>
      row.deviceId == deviceId && w.start <= row.timestamp <= w.end
      && (datastreamId.Some? && datastreamId.value != "" ==> row.datastreamId == datastreamId.value)
  {
    var conds := [DeviceIs(deviceId), NotBefore(w.start), NotAfter(w.end)];
    if datastreamId.Some? && datastreamId.value != "" then
      var more := conds + [DatastreamIs(datastreamId.value)];
      assert forall row: TelemetryRow :: MatchesAll(row, more) <==>
        Holds(row, more[0]) && Holds(row, more[1]) && Holds(row, more[2]) && Holds(row, more[3]);
      more
    else
      assert forall row: TelemetryRow :: MatchesAll(row, conds) <==>
        Holds(row, conds[0]) && Holds(row, conds[1]) && Holds(row, conds[2]);
      conds
  }

  /** The where-conditions of getByDatastream: the datastream and the window. */
  function DatastreamConditions(datastreamId: string, w: Window): (conds: seq<Condition>)
    ensures forall row: TelemetryRow :: MatchesAll(row, conds) <==>
      row.datastreamId == datastreamId && w.start <= row.timestamp <= w.end
  {
    var conds := [DatastreamIs(datastreamId), NotBefore(w.start), NotAfter(w.end)];
    assert forall row: TelemetryRow :: MatchesAll(row, conds) <==>
      Holds(row, conds[0]) && Holds(row, conds[1]) && Holds(row, conds[2]);
    conds
  }

  function Filter(rows: seq<TelemetryRow>, conds: seq<Condition>): (r: seq<TelemetryRow>)
    ensures forall x :: x in r <==> x in rows && MatchesAll(x, conds)
    ensures multiset(r) <= multiset(rows)
    ensures |rows| == 1 ==> r == (if MatchesAll(rows[0], conds) then rows else [])
  {
    if rows == [] then []
    else
      assert rows == [rows[0]] + rows[1..];
      (if MatchesAll(rows[0], conds) then [rows[0]] else []) + Filter(rows[1..], conds)
  }

  /** The WHERE clause looks at one row at a time: filtering keeps the order
      of the rows and each matching row as often as it occurs. */
  lemma {:induction false} FilterConcat(a: seq<TelemetryRow>, b: seq<TelemetryRow>, conds: seq<Condition>)
    ensures Filter(a + b, conds) == Filter(a, conds) + Filter(b, conds)
  {
    if a == [] {
      assert a + b == b;
    } else {
      assert (a + b)[0] == a[0];
      assert (a + b)[1..] == a[1..] + b;
      FilterConcat(a[1..], b, conds);
      var head := if MatchesAll(a[0], conds) then [a[0]] else [];
      assert Filter(a + b, conds) == head + (Filter(a[1..], conds) + Filter(b, conds));
      assert head + (Filter(a[1..], conds) + Filter(b, conds)) == (head + Filter(a[1..], conds)) + Filter(b, conds);
    }
  }

  ghost predicate NewestFirst(rows: seq<TelemetryRow>)
  {
    forall i, j :: 0 <= i < j < |rows| ==> rows[i].timestamp >= rows[j].timestamp
  }

  function InsertNewestFirst(row: TelemetryRow, rows: seq<TelemetryRow>): (r: seq<TelemetryRow>)
    ensures multiset(r) == multiset(rows) + multiset{row}
  {
    if rows == [] || row.timestamp >= rows[0].timestamp then [row] + rows
    else
      assert rows == [rows[0]] + rows[1..];
      [rows[0]] + InsertNewestFirst(row, rows[1..])
  }

  lemma {:induction false} InsertKeepsOrder(row: TelemetryRow, rows: seq<TelemetryRow>)
    requires NewestFirst(rows)
    ensures NewestFirst(InsertNewestFirst(row, rows))
  {
    if rows != [] && row.timestamp < rows[0].timestamp {
      var rest := rows[1..];
      forall k | 0 <= k < |rest|
        ensures rest[k] == rows[k + 1] && rest[k].timestamp <= rows[0].timestamp
      {
      }
      InsertKeepsOrder(row, rest);
      InsertBelow(row, rest, rows[0].timestamp);
      var tail := InsertNewestFirst(row, rest);
      var r := InsertNewestFirst(row, rows);
      assert r == [rows[0]] + tail;
      forall i, j | 0 <= i < j < |r|
        ensures r[i].timestamp >= r[j].timestamp
      {
        assert r[j] == tail[j - 1];
        if i > 0 {
          assert r[i] == tail[i - 1];
        } else {
          assert r[i] == rows[0] && tail[j - 1].timestamp <= rows[0].timestamp;
        }
      }
    }
  }

  /** Inserting keeps every row at or below a bound that all of them meet. */
  lemma InsertBelow(row: TelemetryRow, rows: seq<TelemetryRow>, bound: int)
    requires row.timestamp <= bound
    requires forall k :: 0 <= k < |rows| ==> rows[k].timestamp <= bound
    ensures forall k :: 0 <= k < |InsertNewestFirst(row, rows)| ==> InsertNewestFirst(row, rows)[k].timestamp <= bound
  {
    var r := InsertNewestFirst(row, rows);
    forall k | 0 <= k < |r|
      ensures r[k].timestamp <= bound
    {
      assert r[k] in multiset(r);
      assert r[k] == row || r[k] in multiset(rows);
      if r[k] != row {
        assert r[k] in rows;
        var m :| 0 <= m < |rows| && rows[m] == r[k];
      }
    }
  }

  /** orderBy desc(timestamp). */
  function SortNewestFirst(rows: seq<TelemetryRow>): (r: seq<TelemetryRow>)
    ensures multiset(r) == multiset(rows)
  {
    if rows == [] then []
    else
      assert rows == [rows[0]] + rows[1..];
      InsertNewestFirst(rows[0], SortNewestFirst(rows[1..]))
  }

  lemma {:induction false} SortOrders(rows: seq<TelemetryRow>)
    ensures NewestFirst(SortNewestFirst(rows))
  {
    if rows != [] {
      SortOrders(rows[1..]);
      InsertKeepsOrder(rows[0], SortNewestFirst(rows[1..]));
    }
  }

  /** A raw row as returned: the joined datastream (id, name, pin, data type)
      and the decoded value. */
  datatype Point = Point(
    deviceId: string,
    datastreamId: string,
    datastream: Option<Datastream>,
    value: Display,
    timestamp: int)

  function ToPoint(datastreams: map<string, Datastream>, row: TelemetryRow): Point
  {
    Point(row.deviceId, row.datastreamId,
          if row.datastreamId in datastreams then Some(datastreams[row.datastreamId]) else None,
          FormatTelemetryValue(row.values), row.timestamp)
  }

  function ToPoints(datastreams: map<string, Datastream>, rows: seq<TelemetryRow>): (r: seq<Point>)
    ensures |r| == |rows| && forall i :: 0 <= i < |rows| ==> r[i] == ToPoint(datastreams, rows[i])
  {
    if rows == [] then [] else [ToPoint(datastreams, rows[0])] + ToPoints(datastreams, rows[1..])
  }

  /** The raw query: the matching rows, newest first, at most `limit` of them. */
  lemma SameElements(a: seq<TelemetryRow>, b: seq<TelemetryRow>)
    requires multiset(a) == multiset(b)
    ensures forall x :: x in a <==> x in b
  {
    forall x ensures x in a <==> x in b {
      assert x in a <==> x in multiset(a);
      assert x in b <==> x in multiset(b);
    }
  }

  function RawRows(telemetry: seq<TelemetryRow>, conds: seq<Condition>, limit: nat): (r: seq<TelemetryRow>)
    ensures |r| <= limit
    ensures NewestFirst(r)
    ensures forall i :: 0 <= i < |r| ==> r[i] in telemetry && MatchesAll(r[i], conds)
    ensures |Filter(telemetry, conds)| <= limit ==> multiset(r) == multiset(Filter(telemetry, conds))
    ensures |r| == if |Filter(telemetry, conds)| <= limit then |Filter(telemetry, conds)| else limit
    ensures multiset(r) <= multiset(Filter(telemetry, conds))
  {
    var filtered := Filter(telemetry, conds);
    var n := if limit < |filtered| then limit else |filtered|;
    TakeNewest(filtered, n);
    SortNewestFirst(filtered)[..n]
  }

  /** The first `n` rows of the sorted rows are in order and come from the
      rows; all of them are the rows again. */
  lemma TakeNewest(rows: seq<TelemetryRow>, n: nat)
    requires n <= |rows|
    ensures |SortNewestFirst(rows)| == |rows|
    ensures NewestFirst(SortNewestFirst(rows)[..n])
    ensures forall i :: 0 <= i < n ==> SortNewestFirst(rows)[..n][i] in rows
    ensures n == |rows| ==> multiset(SortNewestFirst(rows)[..n]) == multiset(rows)
    ensures multiset(SortNewestFirst(rows)[..n]) <= multiset(rows)
  {
    var sorted := SortNewestFirst(rows);
    assert |sorted| == |multiset(sorted)| == |multiset(rows)| == |rows|;
    SortOrders(rows);
    PrefixNewestFirst(sorted, n);
    PrefixSubMultiset(sorted, n);
    PrefixElements(sorted[..n], rows);
    assert n == |sorted| ==> sorted[..n] == sorted;
  }

  /** A prefix of newest-first rows is newest first. */
  lemma PrefixNewestFirst(rows: seq<TelemetryRow>, n: nat)
    requires n <= |rows| && NewestFirst(rows)
    ensures NewestFirst(rows[..n])
  {
  }

  /** Every row of a sub-multiset is one of the rows. */
  lemma PrefixElements(part: seq<TelemetryRow>, rows: seq<TelemetryRow>)
    requires multiset(part) <= multiset(rows)
    ensures forall i :: 0 <= i < |part| ==> part[i] in rows
  {
    forall i | 0 <= i < |part|
      ensures part[i] in rows
    {
      assert part[i] in multiset(part);
    }
  }

  /** A prefix holds no element more often than the whole sequence. */
  lemma PrefixSubMultiset<T>(s: seq<T>, n: nat)
    requires n <= |s|
    ensures multiset(s[..n]) <= multiset(s)
  {
    assert s == s[..n] + s[n..];
  }

  /** The limit keeps the newest rows: no matching row that is left out is
      newer than a row that is returned. */
  lemma RawRowsKeepNewest(telemetry: seq<TelemetryRow>, conds: seq<Condition>, limit: nat, dropped: TelemetryRow)
    requires dropped in telemetry && MatchesAll(dropped, conds)
    requires dropped !in RawRows(telemetry, conds, limit)
    ensures forall x :: x in RawRows(telemetry, conds, limit) ==> x.timestamp >= dropped.timestamp
  {
    var sorted := SortNewestFirst(Filter(telemetry, conds));
    SameElements(sorted, Filter(telemetry, conds));
    SortOrders(Filter(telemetry, conds));
    var k :| 0 <= k < |sorted| && sorted[k] == dropped;
    var n := if limit < |sorted| then limit else |sorted|;
    assert k >= n;
    forall x | x in RawRows(telemetry, conds, limit)
      ensures x.timestamp >= dropped.timestamp
    {
      var i :| 0 <= i < n && sorted[i] == x;
    }
  }

  // ---- the aggregated path ----

  /** One bucket row of the aggregate query (computed by the database). */
  datatype AggRow = AggRow(
    datastreamId: string,
    datastreamName: string,
    pin: string,
    dataType: string,
    bucket: int,
    avgDouble: Option<Num>,
    avgLong: Option<int>,
    lastBoolean: Option<bool>,
    lastString: Option<string>)

  datatype AggPoint = AggPoint(
    datastreamId: string,
    datastreamName: string,
    pin: string,
    dataType: string,
    value: Display,
    timestamp: int)

  /** The aggregate a bucket reports: the latest boolean or string, the
      average double, the rounded average long; null for any other type. */
  function AggregateValue(row: AggRow): (r: Display)
    ensures ParseDataType(row.dataType).None? ==> r == DNull
    ensures row.dataType == "BOOL" ==> (r == if row.lastBoolean.Some? then DBool(row.lastBoolean.value) else DNull)
    ensures row.dataType == "STRING" ==> (r == if row.lastString.Some? then DString(row.lastString.value) else DNull)
    ensures row.dataType == "DOUBLE" ==> (r == if row.avgDouble.Some? then DNumber(row.avgDouble.value) else DNull)
    ensures row.dataType == "INT" ==> (r == if row.avgLong.Some? then DNumber(Finite(row.avgLong.value as real)) else DNull)
  {
    var col :=
      if row.dataType == "BOOL" then (if row.lastBoolean.Some? then Some(VBool(row.lastBoolean.value)) else None)
      else if row.dataType == "STRING" then (if row.lastString.Some? then Some(VString(row.lastString.value)) else None)
      else if row.dataType == "DOUBLE" then (if row.avgDouble.Some? then Some(VDouble(row.avgDouble.value)) else None)
      else if row.dataType == "INT" then (if row.avgLong.Some? then Some(VLong(row.avgLong.value)) else None)
      else None;
    if col.Some? then DisplayOf(col.value) else DNull
  }

  /** The bucket of a single row: the average and the latest of one value are
      that value. */
  function SingleRowBucket(c: ValueColumns, dataType: string): AggRow
  {
    AggRow("", "", "", dataType, 0, c.valueDouble, c.valueLong, c.valueBoolean, c.valueString)
  }

  /** The two read paths agree: a bucket holding one row written for a
      datastream of type `t` reports the same value as the raw path decodes. */
  lemma AggregateAgreesWithRaw(v: JsValue, t: DataType)
    requires FormatValue(v, TagOf(t)).Success?
    ensures var c := Columns(FormatValue(v, TagOf(t)).value.slot);
      AggregateValue(SingleRowBucket(c, TagOf(t))) == FormatTelemetryValue(c)
  {
    var slot := FormatValue(v, TagOf(t)).value.slot;
    DecodeColumns(slot);
  }

  function ToAggPoints(rows: seq<AggRow>): (r: seq<AggPoint>)
    ensures |r| == |rows|
    ensures forall i :: 0 <= i < |rows| ==> r[i].value == AggregateValue(rows[i]) && r[i].timestamp == rows[i].bucket
  {
    if rows == [] then []
    else
      var row := rows[0];
      [AggPoint(row.datastreamId, row.datastreamName, row.pin, row.dataType, AggregateValue(row), row.bucket)]
        + ToAggPoints(rows[1..])
  }

  // ---- the queries ----

  datatype QueryOptions = QueryOptions(
    deviceId: string,
    datastreamId: Option<string>,
    timeRange: TimeRange,
    startTime: Option<int>,
    endTime: Option<int>,
    limit: nat)

  datatype Series = Raw(points: seq<Point>) | Aggregated(buckets: seq<AggPoint>)

  /** getByDevice. `buckets` is what the database's bucket query returns for
      the same conditions. */
  function GetByDevice(devices: map<string, Device>, datastreams: map<string, Datastream>,
                       telemetry: seq<TelemetryRow>, organizationId: string, options: QueryOptions,
                       buckets: seq<AggRow>, now: int): (r: Result<Series>)
    ensures r.Failure? <==> DeviceAccess(devices, options.deviceId, organizationId).Failure?
    ensures r.Failure? ==> r.error == DeviceAccess(devices, options.deviceId, organizationId).error
    ensures r.Success? ==> (r.value.Raw? <==> options.timeRange == H1 || options.timeRange == Custom)
    ensures r.Success? && r.value.Raw? ==>
      var w := QueryWindow(options.timeRange, options.startTime, options.endTime, now);
      && |r.value.points| <= options.limit
      && (forall i :: 0 <= i < |r.value.points| ==>
            var p := r.value.points[i];
            p.deviceId == options.deviceId && w.start <= p.timestamp <= w.end
            && (options.datastreamId.Some? && options.datastreamId.value != "" ==> p.datastreamId == options.datastreamId.value))
      && (forall i, j :: 0 <= i < j < |r.value.points| ==> r.value.points[i].timestamp >= r.value.points[j].timestamp)
      && r.value.points == ToPoints(datastreams, RawRows(telemetry, DeviceConditions(options.deviceId, options.datastreamId, w), options.limit))
    ensures r.Success? && r.value.Aggregated? ==> |r.value.buckets| == |buckets| && r.value.buckets == ToAggPoints(buckets)
  {
    var device :- DeviceAccess(devices, options.deviceId, organizationId);
    var w := QueryWindow(options.timeRange, options.startTime, options.endTime, now);
    var conds := DeviceConditions(options.deviceId, options.datastreamId, w);
    if UseRawPath(options.timeRange) then
      var rows := RawRows(telemetry, conds, options.limit);
      Success(Raw(ToPoints(datastreams, rows)))
    else
      Success(Aggregated(ToAggPoints(buckets)))
  }

  /** getByDatastream: always the raw rows of that datastream in the window. */
  function GetByDatastream(datastreams: map<string, Datastream>, templates: map<string, Template>,
                           telemetry: seq<TelemetryRow>, organizationId: string, datastreamId: string,
                           range: TimeRange, startTime: Option<int>, endTime: Option<int>, limit: nat,
                           now: int): (r: Result<seq<Point>>)
    ensures r.Failure? <==> DatastreamAccess(datastreams, templates, datastreamId, organizationId).Failure?
    ensures r.Failure? ==> r.error == DatastreamAccess(datastreams, templates, datastreamId, organizationId).error
    ensures r.Success? ==>
      var w := QueryWindow(range, startTime, endTime, now);
      && |r.value| <= limit
      && (forall i :: 0 <= i < |r.value| ==>
            r.value[i].datastreamId == datastreamId && w.start <= r.value[i].timestamp <= w.end
            && r.value[i].datastream == Some(datastreams[datastreamId]))
      && (forall i, j :: 0 <= i < j < |r.value| ==> r.value[i].timestamp >= r.value[j].timestamp)
      && r.value == ToPoints(datastreams, RawRows(telemetry, DatastreamConditions(datastreamId, w), limit))
  {
    var ds :- DatastreamAccess(datastreams, templates, datastreamId, organizationId);
    var w := QueryWindow(range, startTime, endTime, now);
    var rows := RawRows(telemetry, DatastreamConditions(datastreamId, w), limit);
    Success(ToPoints(datastreams, rows))
  }

  // ---- getLatest ----

  /** The newest telemetry row of one device and datastream, if any (the
      first findFirst ordered by timestamp descending). */
  function LatestRow(telemetry: seq<TelemetryRow>, deviceId: string, datastreamId: string): (r: Option<TelemetryRow>)
    ensures r.None? <==> forall x :: x in telemetry ==> !(x.deviceId == deviceId && x.datastreamId == datastreamId)
    ensures r.Some? ==> r.value in telemetry && r.value.deviceId == deviceId && r.value.datastreamId == datastreamId
    ensures r.Some? ==> forall x :: x in telemetry && x.deviceId == deviceId && x.datastreamId == datastreamId ==>
                          x.timestamp <= r.value.timestamp
  {
    if telemetry == [] then None
    else
      var rest := LatestRow(telemetry[1..], deviceId, datastreamId);
      var head := telemetry[0];
      assert forall x :: x in telemetry ==> x == head || x in telemetry[1..];
      if head.deviceId == deviceId && head.datastreamId == datastreamId && (rest.None? || head.timestamp >= rest.value.timestamp)
      then Some(head)
      else rest
  }

  /** The datastreams of a template. */
  function TemplateDatastreams(datastreams: map<string, Datastream>, templateId: string): set<string>
  {
    set id | id in datastreams && datastreams[id].templateId == templateId
  }

  /** getLatest: for each datastream of the device's template that has
      telemetry, its newest row; datastreams without telemetry are dropped.
      The source's array has no defined order, so the result is keyed by
      datastream id. */
  function GetLatest(devices: map<string, Device>, datastreams: map<string, Datastream>,
                     telemetry: seq<TelemetryRow>, organizationId: string, deviceId: string): (r: Result<map<string, Point>>)
    ensures r.Failure? <==> DeviceAccess(devices, deviceId, organizationId).Failure?
    ensures r.Failure? ==> r.error == DeviceAccess(devices, deviceId, organizationId).error
    ensures r.Success? ==>
      var template := devices[deviceId].templateId;
      && r.value.Keys <= TemplateDatastreams(datastreams, template)
      && (forall id :: id in TemplateDatastreams(datastreams, template) ==>
            (id in r.value <==> exists x :: x in telemetry && x.deviceId == deviceId && x.datastreamId == id))
      && (forall id :: id in r.value ==>
            r.value[id].deviceId == deviceId && r.value[id].datastreamId == id
            && LatestRow(telemetry, deviceId, id).Some?
            && r.value[id] == ToPoint(datastreams, LatestRow(telemetry, deviceId, id).value)
            && forall x :: x in telemetry && x.deviceId == deviceId && x.datastreamId == id ==> x.timestamp <= r.value[id].timestamp)
  {
    var device :- DeviceAccess(devices, deviceId, organizationId);
    var ids := TemplateDatastreams(datastreams, device.templateId);
    Success(map id | id in ids && LatestRow(telemetry, deviceId, id).Some? :: ToPoint(datastreams, LatestRow(telemetry, deviceId, id).value))
  }

  lemma {:induction false} SubsetCard<T>(a: set<T>, b: set<T>)
    requires a <= b
    ensures |a| <= |b|
    decreases b
  {
    if a != {} {
      var x :| x in a;
      SubsetCard(a - {x}, b - {x});
    }
  }

  /** getLatest never returns more entries than the template has datastreams. */
  lemma LatestBounded(devices: map<string, Device>, datastreams: map<string, Datastream>,
                      telemetry: seq<TelemetryRow>, organizationId: string, deviceId: string)
    requires GetLatest(devices, datastreams, telemetry, organizationId, deviceId).Success?
    ensures |GetLatest(devices, datastreams, telemetry, organizationId, deviceId).value|
            <= |TemplateDatastreams(datastreams, devices[deviceId].templateId)|
  {
    var r := GetLatest(devices, datastreams, telemetry, organizationId, deviceId).value;
    SubsetCard(r.Keys, TemplateDatastreams(datastreams, devices[deviceId].templateId));
  }
}

=== FILE: template.dfy ===
/** templateService: device templates scoped to the active organization.
    Every read and write finds the template by id AND organization, so a
    template of another organization is NOT_FOUND; writes stamp the acting
    user. Who may call create, update and delete is decided before the
    service is reached and is not part of it. */
module TemplateService {
  import opened Common
  import opened Store

  const NotFoundInOrganization := "Template tidak ditemukan di organisasi ini."
  const TemplateNotFound := "Template not found"
  const ConstraintMessage := "duplicate key value violates unique constraint"

  /** The create schema's fields. */
  datatype TemplateInput = TemplateInput(
    name: string,
    hardwarePlatform: string,
    connectionType: string,
    description: Option<string>)

  /** The create schema: a name of at least five characters and a non-empty
      hardware platform and connection type. */
  function ValidateCreate(data: TemplateInput): (r: Outcome)
    ensures r.Pass? <==> |data.name| >= 5 && |data.hardwarePlatform| >= 1 && |data.connectionType| >= 1
    ensures r.Fail? ==> r.error.code == BadRequest
  {
    if |data.name| < 5 then Fail(ApiError(BadRequest, "Template name is required"))
    else if |data.hardwarePlatform| < 1 then Fail(ApiError(BadRequest, "Hardware platform is required"))
    else if |data.connectionType| < 1 then Fail(ApiError(BadRequest, "Connection type is required"))
    else Pass
  }

  /** The update schema: the create schema and an id of at least twelve
      characters. */
  function ValidateUpdate(id: string, data: TemplateInput): (r: Outcome)
    ensures r.Pass? <==> ValidateCreate(data).Pass? && |id| >= 12
    ensures r.Fail? ==> r.error.code == BadRequest
  {
    if ValidateCreate(data).Fail? then ValidateCreate(data)
    else if |id| < 12 then Fail(ApiError(BadRequest, "Id is required"))
    else Pass
  }

  predicate InOrganization(templates: map<string, Template>, organizationId: string, templateId: string)
  {
    templateId in templates && templates[templateId].organizationId == organizationId
  }

  /** getAll: the organization's templates. */
  function GetAll(templates: map<string, Template>, organizationId: string): (r: map<string, Template>)
    ensures forall id :: id in r <==> InOrganization(templates, organizationId, id)
    ensures forall id :: id in r ==> id in templates && r[id] == templates[id]
  {
    map id | id in templates && templates[id].organizationId == organizationId :: templates[id]
  }

  /** getById: the template only when it belongs to the organization. */
  function GetById(templates: map<string, Template>, organizationId: string, templateId: string): (r: Result<Template>)
    ensures r.Success? <==> InOrganization(templates, organizationId, templateId)
    ensures r.Success? ==> r.value == templates[templateId]
    ensures r.Failure? ==> r.error == ApiError(NotFound, NotFoundInOrganization)
  {
    if InOrganization(templates, organizationId, templateId) then Success(templates[templateId])
    else Failure(ApiError(NotFound, NotFoundInOrganization))
  }

  /** getById finds exactly what getAll lists. */
  lemma GetByIdAgreesWithGetAll(templates: map<string, Template>, organizationId: string, templateId: string)
    ensures GetById(templates, organizationId, templateId).Success? <==> templateId in GetAll(templates, organizationId)
  {
  }

  /** create: the row in the organization, created and last updated by the
      user. `newId` is the row's identifier; a taken one is refused. */
  function Create(templates: map<string, Template>, userId: string, organizationId: string,
                  data: TemplateInput, newId: string): (r: (Result<Template>, map<string, Template>))
    ensures r.0.Failure? <==> newId in templates
    ensures r.0.Failure? ==> r.1 == templates && r.0.error.code == ConstraintViolation
    ensures r.0.Success? ==>
              && r.0.value.createdBy == userId && r.0.value.updatedBy == userId
              && r.0.value.organizationId == organizationId
              && r.0.value.name == data.name && r.0.value.hardwarePlatform == data.hardwarePlatform
              && r.0.value.connectionType == data.connectionType && r.0.value.description == data.description
              && r.1 == templates[newId := r.0.value]
  {
    if newId in templates then (Failure(ApiError(ConstraintViolation, ConstraintMessage)), templates)
    else
      var row := Template(organizationId, data.name, data.hardwarePlatform, data.connectionType,
                          data.description, userId, userId);
      (Success(row), templates[newId := row])
  }

  /** The row after the update's `set`: the input's fields (an absent
      description is left as it was) and the acting user as updater. */
  function Apply(t: Template, userId: string, data: TemplateInput): (r: Template)
    ensures r.organizationId == t.organizationId && r.createdBy == t.createdBy && r.updatedBy == userId
    ensures r.name == data.name && r.hardwarePlatform == data.hardwarePlatform && r.connectionType == data.connectionType
    ensures r.description == if data.description.Some? then data.description else t.description
  {
    Template(t.organizationId, data.name, data.hardwarePlatform, data.connectionType,
             if data.description.Some? then data.description else t.description,
             t.createdBy, userId)
  }

  /** update: NOT_FOUND outside the active organization; otherwise the row,
      under the same id, becomes the input stamped with the updater. */
  function Update(templates: map<string, Template>, activeOrgId: string, userId: string,
                  id: string, data: TemplateInput): (r: (Result<Template>, map<string, Template>))
    ensures r.0.Failure? <==> !InOrganization(templates, activeOrgId, id)
    ensures r.0.Failure? ==> r.1 == templates && r.0.error == ApiError(NotFound, TemplateNotFound)
    ensures r.0.Success? ==> r.0.value == Apply(templates[id], userId, data) && r.1 == templates[id := r.0.value]
  {
    if !InOrganization(templates, activeOrgId, id) then (Failure(ApiError(NotFound, TemplateNotFound)), templates)
    else (Success(Apply(templates[id], userId, data)), templates[id := Apply(templates[id], userId, data)])
  }

  /** delete: NOT_FOUND outside the active organization; otherwise the row
      goes. */
  function Delete(templates: map<string, Template>, activeOrgId: string, templateId: string): (r: (Result<Template>, map<string, Template>))
    ensures r.0.Failure? <==> !InOrganization(templates, activeOrgId, templateId)
    ensures r.0.Failure? ==> r.1 == templates && r.0.error == ApiError(NotFound, TemplateNotFound)
    ensures r.0.Success? ==> r.0.value == templates[templateId] && r.1 == templates - {templateId}
  {
    if !InOrganization(templates, activeOrgId, templateId) then (Failure(ApiError(NotFound, TemplateNotFound)), templates)
    else (Success(templates[templateId]), templates - {templateId})
  }

  /** Writes are confined to the active organization: the templates of every
      other organization are exactly as they were. */
  lemma OtherOrganizationsUntouched(templates: map<string, Template>, activeOrgId: string, userId: string,
                                    id: string, data: TemplateInput, other: string)
    ensures var u := Update(templates, activeOrgId, userId, id, data).1;
      other != activeOrgId ==> GetAll(u, other) == GetAll(templates, other)
    ensures var d := Delete(templates, activeOrgId, id).1;
      other != activeOrgId ==> GetAll(d, other) == GetAll(templates, other)
  {
    if other != activeOrgId {
      var u := Update(templates, activeOrgId, userId, id, data).1;
      assert GetAll(u, other) == GetAll(templates, other);
    }
  }

  /** A template read back after an update carries the new fields and the
      updater, and still belongs to its organization and creator. */
  lemma UpdateThenRead(templates: map<string, Template>, activeOrgId: string, userId: string,
                       id: string, data: TemplateInput)
    requires InOrganization(templates, activeOrgId, id)
    ensures var after := GetById(Update(templates, activeOrgId, userId, id, data).1, activeOrgId, id);
      && after.Success?
      && after.value.updatedBy == userId && after.value.createdBy == templates[id].createdBy
      && after.value.name == data.name
  {
  }

  /** The service calls over the database. */
  method CreateIn(db: Database, userId: string, organizationId: string, data: TemplateInput, newId: string)
    returns (r: Result<Template>)
    modifies db
    ensures (r, db.templates) == Create(old(db.templates), userId, organizationId, data, newId)
    ensures db.organizations == old(db.organizations) && db.members == old(db.members) && db.datastreams == old(db.datastreams)
    ensures db.devices == old(db.devices) && db.telemetry == old(db.telemetry) && db.deviceState == old(db.deviceState)
  {
    if newId in db.templates {
      return Failure(ApiError(ConstraintViolation, ConstraintMessage));
    }
    var row := Template(organizationId, data.name, data.hardwarePlatform, data.connectionType,
                        data.description, userId, userId);
    db.templates := db.templates[newId := row];
    r := Success(row);
  }

  method UpdateIn(db: Database, activeOrgId: string, userId: string, id: string, data: TemplateInput)
    returns (r: Result<Template>)
    modifies db
    ensures (r, db.templates) == Update(old(db.templates), activeOrgId, userId, id, data)
    ensures db.organizations == old(db.organizations) && db.members == old(db.members) && db.datastreams == old(db.datastreams)
    ensures db.devices == old(db.devices) && db.telemetry == old(db.telemetry) && db.deviceState == old(db.deviceState)
  {
    if id !in db.templates || db.templates[id].organizationId != activeOrgId {
      return Failure(ApiError(NotFound, TemplateNotFound));
    }
    var row := Apply(db.templates[id], userId, data);
    db.templates := db.templates[id := row];
    r := Success(row);
  }

  /** The delete, with the schema's cascades: the template's datastreams
      and devices go, and with them their telemetry and device_state rows. */
  method DeleteIn(db: Database, activeOrgId: string, templateId: string) returns (r: Result<Template>)
    modifies db
    ensures (r, db.templates) == Delete(old(db.templates), activeOrgId, templateId)
    ensures r.Success? ==> db.Tables() == Cascade(old(db.Tables()), {}, {templateId}, {})
    ensures r.Failure? ==> db.Tables() == old(db.Tables())
    ensures ReferencesIntact(old(db.Tables())) ==> ReferencesIntact(db.Tables())
  {
    if templateId !in db.templates || db.templates[templateId].organizationId != activeOrgId {
      return Failure(ApiError(NotFound, TemplateNotFound));
    }
    r := Success(db.templates[templateId]);
    var before := db.Tables();
    CascadeKeepsReferences(before, {}, {templateId}, {});
    CascadeRemovesParents(before, {}, {templateId}, {});
    db.SetTables(Cascade(before, {}, {templateId}, {}));
    assert db.templates == before.templates - {templateId};
  }
}
